=== FILE: README.md ===
# Legal text changelog and glossary, modelled in Dafny

The repository compares two versions of a Vietnamese statute. Each version
is a list of articles, an article holds clauses, and a clause holds points.
`compare_mapping.py` breaks both versions into units: the text of an
article, of a clause or of a point. It normalizes their texts and scores
every old unit against every new unit. It then pairs units one-to-one (by
the optimal assignment when SciPy is present, greedily otherwise), keeps
the pairs scoring at least 0.60, and detects splits (one old unit, several
new ones) and merges (several old units, one new one). The result is a
changelog of `modified`, `deleted` and `added` entries.

`extract_glossary.py` scans the same articles for sentences of the form
"term là definition". It cleans the candidate term and rejects candidates
that read like sentences rather than terms. It keeps, for each accepted
term, its first definition and every article it occurs in, and lists the
terms ordered by their lower-cased form.

The model has one module per concern:

- `Text`: Python's `str.strip`, `\s+`, `replace` and `lower`.
- `Documents`: the article, clause and point records.
- `Normalize`: `normalize_for_compare` and `normalize_for_output`.
- `Units`: `extract_units`.
- `Scoring`: the candidate triple and the stable descending sort.
- `Matching`: greedy and assigned matching, and the threshold filter.
- `SplitMerge`: `detect_splits_and_merges`.
- `Synthesis`: the five steps of `generate_mapping` that build the changelog.
- `Mapping`: `generate_mapping` end to end.
- `Glossary`: `clean_text`, `clean_term` and `is_likely_term`.
- `TermDictionary`: the term dictionary, `process_articles_file` and `build_glossary`.
- `StringOrder`: Python's string order and its stable `sorted`.
- `Seqs` and `Wrappers`: generic helpers.

Each loop of the source is a method with invariants. It is proved equal to
a function, and the properties are proved about that function as lemmas.
`term_dict`, which `process_articles_file` updates in place, is the class
`TermDictionary.TermDict`.

Three behaviours of the code are easy to miss:

- `extract_units` and the `text_list` of `process_articles_file` skip a text
  only when it is absent or the empty string. A text made only of whitespace
  still becomes a unit, or is still scanned.
- The set display `VERB_STOPWORDS` spells "là" twice. The second spelling
  is "la" followed by a combining grave accent, so the set has fifteen
  members, not fourteen.
- In step 4 of `generate_mapping`, an old unit that belongs to a merge gets
  the same `deleted` entry as any other unmatched old unit. The model has
  a single rule for both.

## Model

| member | source | states |
|---|---|---|
| Documents.FirstTruthy | compare_mapping.py:96 | `x or y` is one of its two operands, truthy exactly when either operand is, and the first operand whenever that one is truthy |
| Text.Strip | compare_mapping.py:52 | `strip()` leaves no whitespace at either end and never lengthens the text |
| Text.StripVisible | compare_mapping.py:52 | `strip()` removes only whitespace: the non-space characters are unchanged and in order |
| Text.StripSlice | compare_mapping.py:52 | the stripped text is the input without a leading and a trailing run of whitespace |
| Text.LineBreaksToSpaces | compare_mapping.py:54 | replacing `\r` and `\n` by spaces keeps the length and leaves no line break |
| Text.LineBreaksVisible | compare_mapping.py:54 | that replacement changes no non-space character |
| Text.CollapseSpaces | compare_mapping.py:55 | `re.sub(r'\s+', ' ', t)` leaves only single plain spaces; it keeps the text empty or non-empty and keeps whether it starts with a space |
| Text.CollapseVisible | compare_mapping.py:55 | collapsing whitespace changes no non-space character |
| Text.Lower | extract_glossary.py:76 | `lower()` keeps the length |
| Normalize.DigitRun | compare_mapping.py:39 | `\d+` takes the longest run of digits at the start |
| Normalize.AfterMarker | compare_mapping.py:39 | after a recognised marker what is left is shorter and starts with no whitespace |
| Normalize.StripLeadingMarker | compare_mapping.py:38-41 | removing the leading item marker never lengthens the text |
| Normalize.NoMarkerKept | compare_mapping.py:38-41 | a text starting with a visible character that begins no marker (not a digit, not a letter followed by `.` or `)`) is left unchanged |
| Normalize.DigitsWithoutSeparatorKept | compare_mapping.py:38-41 | a leading number not followed by `.` or `)`, such as a year, or a text of digits alone, is no marker: the text is left unchanged |
| Normalize.MarkerSuffix | compare_mapping.py:53 | removing the marker only cuts a prefix off the text |
| Normalize.NumericMarkerRemoved | compare_mapping.py:39 | a marker `12.` or `12)` with the spaces after it is removed, and nothing more |
| Normalize.LetterMarkerRemoved | compare_mapping.py:39 | a marker `a)`, `a.` or `đ)` with any run of whitespace after it is removed, and nothing more |
| Normalize.Tidy | compare_mapping.py:54-56 | the result has no line break, no surrounding whitespace and only single plain spaces |
| Normalize.TidyVisible | compare_mapping.py:54-56 | tidying changes no non-space character |
| Normalize.TidyKeepsTidy | compare_mapping.py:54-56 | a text that is already tidy is left unchanged |
| Normalize.NormalizeForCompare | compare_mapping.py:43-56 | an absent or empty text gives `""`; any result is tidy |
| Normalize.CompareVisible | compare_mapping.py:43-56 | the normalized text has the same non-space characters as the stripped text without its marker |
| Normalize.NumberedTextLosesMarker | compare_mapping.py:43-56 | `"3. " + rest` and `"3) " + rest` normalize to `rest` when `rest` is tidy |
| Normalize.LetteredTextLosesMarker | compare_mapping.py:43-56 | `"b) " + rest` and `"b. " + rest` normalize to `rest` when `rest` is tidy |
| Normalize.OnlyOneMarker | compare_mapping.py:53 | only the first marker is removed: `"1. a) x"` normalizes to `"a) x"` |
| Normalize.NormalizeForOutput | compare_mapping.py:58-70 | an absent or empty text gives `""` |
| Normalize.OutputIsCompare | compare_mapping.py:58-70 | `normalize_for_output` and `normalize_for_compare` agree on every input |
| Units.ExtractUnits | compare_mapping.py:73-116 | the loop builds exactly `ArticleUnits`: the article's unit, then each clause's unit followed by the units of its points |
| Units.ExtractPointUnits | compare_mapping.py:106-115 | the inner loop builds exactly the units of the clause's points |
| Units.ExtractDocument | compare_mapping.py:188-193 | the units of a version are those of its articles, in order |
| Units.UnitsFollowDocumentOrder | compare_mapping.py:85-115 | the units' texts are exactly the texts the glossary scans for the same article, in the same order |
| Units.ArticleUnitsIdentified | compare_mapping.py:85-92 | every unit carries its article's id and number and a non-empty text; a present article text is the first unit, with no clause or point id |
| Units.ClauseUnitsIdentified | compare_mapping.py:96-104 | every unit of a clause carries `clause_id or clause`; the clause's own text comes first, with no point id |
| Units.PointUnitsIdentified | compare_mapping.py:106-115 | every point unit carries its clause's id and a point id `point_id or point` of a point whose text it holds |
| Units.ClausesUnitsIdentified | compare_mapping.py:95-115 | every unit from the clauses carries the article's id and number and a non-empty text |
| Units.PointUnitsTexts | compare_mapping.py:106-115 | the point units hold the points' non-empty texts, in order |
| Units.ClauseUnitsTexts | compare_mapping.py:97-115 | one clause's units hold its text and then its points' texts |
| Units.ClausesUnitsTexts | compare_mapping.py:95-115 | the clause units hold the clause texts and point texts in document order |
| Scoring.InsertDesc | compare_mapping.py:142 | inserting a candidate adds exactly that candidate |
| Scoring.InsertKeepsOrder | compare_mapping.py:142 | inserting into a list sorted by descending score keeps it sorted |
| Scoring.SortDesc | compare_mapping.py:142 | `sort(key=score, reverse=True)` is a permutation with non-increasing scores |
| Scoring.SortRanked | compare_mapping.py:138-142 | sorting row-major cells is stable: ties stay in (row, column) order |
| Scoring.SortKeepsSorted | compare_mapping.py:214 | sorting an already sorted list changes nothing |
| Scoring.AtLeast | compare_mapping.py:161 | keeps only candidates of the list scoring at least the threshold, and every one of them |
| Scoring.AtLeastAppend | compare_mapping.py:161 | the filter keeps the list's order: filtering a concatenation concatenates the filtered parts |
| Scoring.AtLeastCounts | compare_mapping.py:161 | the filter keeps every copy of a candidate at or above the threshold and no copy of one below it |
| Scoring.TotalPermutation | compare_mapping.py:164 | the sum of the scores does not depend on their order |
| Matching.RowCellsExactly | compare_mapping.py:161 | a row's cells are exactly the (row, column, score) entries of that row, by strictly increasing column |
| Matching.CellsUpTo | compare_mapping.py:138-141 | the cells are exactly the matrix's entries in the rows taken |
| Matching.CellsUpToRowMajor | compare_mapping.py:138 | `np.nonzero` lists the cells in strictly increasing (row, column) order |
| Matching.ClaimKeeps | compare_mapping.py:143-148 | the greedy claim keeps only candidates whose row and column were free, pairs each row and column once and keeps the ranking |
| Matching.ClaimMaximal | compare_mapping.py:143-148 | every candidate skipped shares a row or a column with one claimed |
| Matching.ClaimOneToOne | compare_mapping.py:143-148 | a claim over one-to-one candidates whose rows and columns are all free keeps every one of them |
| Matching.OneToOneCounts | compare_mapping.py:143-148 | a one-to-one list uses as many rows and as many columns as it has pairs |
| Matching.GreedyPairs | compare_mapping.py:137-149 | the greedy pairs are one-to-one, strictly ranked, and carry their matrix scores, which are non-negative |
| Matching.GreedyCovers | compare_mapping.py:144-148 | on a non-negative matrix every cell has its row or its column matched |
| Matching.GreedyMaximal | compare_mapping.py:137-149 | on a non-negative matrix the greedy match pairs min(old, new) units |
| Matching.GreedyMatching | compare_mapping.py:137-149 | the loop computes the greedy pairs, with the properties above |
| Matching.AssignedPairs | compare_mapping.py:132-134 | only assignment cells inside the real matrix are kept, with their scores |
| Matching.AssignedOneToOne | compare_mapping.py:127-135 | a permutation's cells, cut to the real matrix, are one-to-one |
| Matching.OptimalPairs | compare_mapping.py:127-135 | the loop computes those pairs, which are one-to-one for a valid assignment |
| Matching.GlobalMatching | compare_mapping.py:119-149 | `global_optimal_matching` gives one-to-one pairs that carry their scores, from either branch |
| Matching.KeptIsClaimAbove | compare_mapping.py:217-225 | the threshold loop is a greedy claim over the candidates above the threshold |
| Matching.ThresholdLaw | compare_mapping.py:217-225 | the kept pairs are one-to-one candidates above the threshold; on one-to-one input, exactly those |
| Matching.AtLeastOneToOne | compare_mapping.py:216-225 | filtering by score keeps a list one-to-one |
| Matching.AtLeastRowMajor | compare_mapping.py:161 | filtering by score keeps a list in row-major order |
| Matching.ThresholdFilter | compare_mapping.py:217-225 | the loop keeps one-to-one candidates at or above the threshold; on one-to-one input, exactly those |
| SplitMerge.ColCellsExactly | compare_mapping.py:169 | a column's cells are exactly the (row, column, score) entries of that column, by strictly increasing row |
| SplitMerge.RowLegs | compare_mapping.py:161-162 | one leg list per old unit |
| SplitMerge.ColLegs | compare_mapping.py:169-170 | one leg list per new unit |
| SplitMerge.GroupsUpTo | compare_mapping.py:160-166 | every group found names a unit scanned so far |
| SplitMerge.GroupsExactly | compare_mapping.py:160-166 | a unit forms a group exactly when it has two or more legs summing to at least the threshold; the groups come in index order |
| SplitMerge.LegsExactly | compare_mapping.py:161-164 | the legs are the cells scoring at least 0.35, sorted stably by descending score, with the same total |
| SplitMerge.RowGroupLegs | compare_mapping.py:161-162 | an old unit's legs are exactly its new partners scoring at least 0.35 |
| SplitMerge.ColGroupLegs | compare_mapping.py:169-170 | a new unit's legs are exactly its old partners scoring at least 0.35 |
| SplitMerge.SplitsExactly | compare_mapping.py:158-166 | a split is an old unit with two or more legs of at least 0.35 summing to at least 0.75; every such unit is a split; splits ascend by index |
| SplitMerge.MergesExactly | compare_mapping.py:167-174 | the same for merges, new unit by new unit |
| SplitMerge.DetectSplitsAndMerges | compare_mapping.py:151-175 | the two loops compute exactly the splits and the merges |
| Synthesis.ComparedTexts | compare_mapping.py:195-196 | `texts_old` and `texts_new` hold one tidy text per unit, empty for an empty unit text, showing the unit text's visible characters once its leading marker is gone |
| Synthesis.Rows | compare_mapping.py:241-257 | one output row, holding the unit's ids and output text, per unit |
| Synthesis.RenderedEntries | compare_mapping.py:241-258 | one entry per change, in order; each has the change's kind, the old unit unless it is an addition and the new unit unless it is a deletion, with their ids and output texts, an empty text on the missing side, and the matched score for a modification, else 0 |
| Synthesis.ModifiedChanges | compare_mapping.py:234-240 | step 1 names only existing units |
| Synthesis.ModifiedChangesMembers | compare_mapping.py:235-240 | a `modified` change is recorded exactly for a matched pair whose normalized texts differ |
| Synthesis.ModifiedChangesDistinct | compare_mapping.py:235-240 | step 1 records no change twice |
| Synthesis.EmitModified | compare_mapping.py:234-258 | the step 1 loop renders exactly those changes |
| Synthesis.GroupChanges | compare_mapping.py:260-297 | steps 2 and 3 produce exactly the split deletions and the merge additions, none twice |
| Synthesis.EmitSplitDeletes | compare_mapping.py:260-278 | the step 2 loop renders those entries and collects the split indices |
| Synthesis.EmitMergeAdds | compare_mapping.py:280-297 | the step 3 loop renders those entries and collects the merge indices |
| Synthesis.ResidualDeletes | compare_mapping.py:299-335 | step 4 deletes only old units that are neither matched nor split |
| Synthesis.ResidualDeletesComplete | compare_mapping.py:299-335 | every old unit that is neither matched nor split is deleted in step 4 |
| Synthesis.ResidualDeletesIncreasing | compare_mapping.py:301 | step 4 goes through the old units in index order |
| Synthesis.EmitResidualDeletes | compare_mapping.py:299-335 | the step 4 loop renders exactly those deletions |
| Mapping.ResidualDeleteCount | compare_mapping.py:299-335 | step 4 deletes an old unit exactly once if it is neither matched nor split, and otherwise never |
| Mapping.ResidualAddCount | compare_mapping.py:337-359 | step 5 adds a new unit exactly once if it is neither matched, merged nor a split leg, and otherwise never |
| Synthesis.ResidualAdds | compare_mapping.py:337-359 | step 5 adds only new units that are neither matched, merged nor a split's leg |
| Synthesis.ResidualAddsComplete | compare_mapping.py:337-359 | every such new unit is added in step 5 |
| Synthesis.ResidualAddsIncreasing | compare_mapping.py:339 | step 5 goes through the new units in index order |
| Synthesis.EmitResidualAdds | compare_mapping.py:337-359 | the step 5 loop renders exactly those additions |
| Mapping.InsertOneToOne | compare_mapping.py:214 | inserting a pair that shares no row or column keeps a list one-to-one |
| Mapping.SortOneToOne | compare_mapping.py:214 | re-sorting the candidates keeps them one-to-one |
| Mapping.MatchedPairs | compare_mapping.py:211-225 | `matched_pairs` is one-to-one, in range, and every score is its matrix entry and at least the threshold |
| Mapping.MatchedAreCandidatesAbove | compare_mapping.py:211-225 | the matched pairs are exactly the candidates at or above the threshold, in sorted order |
| Mapping.StepsInRange | compare_mapping.py:234-359 | every step names only units that exist |
| Mapping.MappingChanges | compare_mapping.py:198-359 | no change for two empty versions; otherwise every change names existing units |
| Mapping.MappingSteps | compare_mapping.py:230-359 | the changelog is step 1, then 2, 3, 4 and 5, each rendered in turn |
| Mapping.GenerateMapping | compare_mapping.py:178-359 | `generate_mapping` returns exactly the rendered changes of the model |
| Mapping.OnlyStepOneModifies | compare_mapping.py:234-359 | only step 1 produces `modified` changes |
| Mapping.ModifyCount | compare_mapping.py:234-359 | each `modified` change occurs as often in the changelog as in step 1 |
| Mapping.OneToOneDistinct | compare_mapping.py:216-225 | one-to-one pairs are all different |
| Mapping.ModifiedOnce | compare_mapping.py:234-240 | a pair appears as `modified` once if it is matched and its texts differ, otherwise never |
| Mapping.DeletedOnce | compare_mapping.py:260-335 | an old unit is deleted once if it is split, or if it exists and is unmatched; otherwise never |
| Mapping.AddedOnce | compare_mapping.py:280-359 | a new unit is added once if it is merged, or exists, is unmatched and is no split's leg; otherwise never |
| Mapping.RenderedModify | compare_mapping.py:241-258 | a `modified` entry comes from a `Modify` change and shows both units' ids and output texts |
| Mapping.ModifiedEntry | compare_mapping.py:238-257 | a `modified` change scores at least the threshold and its output texts differ |
| Mapping.ModifiedEntries | compare_mapping.py:234-258 | every `modified` entry has both units, a score at least the threshold, and a different before and after text |
| Glossary.CleanText | extract_glossary.py:17-19 | `clean_text` leaves no line break and no surrounding whitespace |
| Glossary.CleanTextVisible | extract_glossary.py:17-19 | `clean_text` changes no non-space character |
| Glossary.CleanTextIdempotent | extract_glossary.py:17-19 | cleaning twice equals cleaning once |
| Glossary.AfterTermMarker | extract_glossary.py:25 | after a recognised marker what is left is shorter and starts with no whitespace |
| Glossary.TrimColons | extract_glossary.py:27 | `rstrip(':')` removes exactly the trailing colons |
| Glossary.TrimColonsOf | extract_glossary.py:27 | text followed by colons loses exactly those colons |
| Glossary.CleanTerm | extract_glossary.py:21-28 | `clean_term` leaves no surrounding whitespace and never lengthens the term |
| Glossary.CleanTermNoMarker | extract_glossary.py:21-28 | a trimmed term that starts with neither a digit nor `x)` only loses its trailing colons and the whitespace before them |
| Glossary.CleanTermDigitsKept | extract_glossary.py:21-28 | a trimmed term that starts with a number not followed by `.`, such as "2013 Luật" or "10", only loses its trailing colons and the whitespace before them |
| Glossary.NumberMarkerOf | extract_glossary.py:25 | a `12.` marker with its spaces is removed, and nothing more |
| Glossary.CleanTermNumbered | extract_glossary.py:21-28 | `"3.  term::"` cleans to `"term"` |
| Glossary.CleanTermLettered | extract_glossary.py:21-28 | `"b) term"` cleans to `"term"` for every letter `[a-zA-Z]` matches under `IGNORECASE`, the Kelvin sign and long s included |
| Glossary.CleanTermKeepsLetterDot | extract_glossary.py:25 | unlike the compare normalization, `"b. term"` keeps its `b. ` |
| Glossary.DropBullets | extract_glossary.py:56 | the result starts with no dash, bullet or whitespace and is never longer |
| Glossary.DropBulletsSuffix | extract_glossary.py:56 | exactly the leading run of dashes, bullets and whitespace is removed: the result is the rest of the text, and every character removed is a bullet |
| Glossary.Debulleted | extract_glossary.py:49-57 | the text the heuristics check has no surrounding whitespace |
| Glossary.StopwordsIn | extract_glossary.py:75-81 | counts at most one hit per stopword |
| Glossary.StopwordsPrefix | extract_glossary.py:75-81 | the count over some of the stopwords never exceeds the full count |
| Glossary.StopwordsPositive | extract_glossary.py:77-79 | one stopword found makes the count positive |
| Glossary.TooManyStopwords | extract_glossary.py:75-81 | the early-exit loop rejects exactly when at least `max(1, threshold)` stopwords occur |
| Glossary.IsLikelyTerm | extract_glossary.py:30-96 | the method answers exactly what `is_likely_term` does, check by check |
| Glossary.StopwordRejects | extract_glossary.py:74-81 | a term that contains any stopword is rejected |
| Glossary.BoundedPhraseListed | extract_glossary.py:12-15 | each phrase of the word-bounded search is itself a stopword |
| Glossary.BoundedPhraseIsStopword | extract_glossary.py:84-85 | a term the word-bounded search would reject has already been rejected by the stopword loop |
| Glossary.AcceptedTermShape | extract_glossary.py:45-89 | an accepted term has at least 2 characters once stripped; cleaned, it has at most 120 characters, 8 words and 1 comma, no stopword, and no `.` when longer than 10 characters |
| Glossary.DashesDropped | extract_glossary.py:56 | a term made only of dashes is emptied by the bullet removal |
| Glossary.NoStopwordInEmpty | extract_glossary.py:75-81 | no stopword occurs in the empty text |
| Glossary.DashesPassAsTerm | extract_glossary.py:45-96 | a candidate made of two or more dashes is accepted as a term |
| TermDictionary.MatchFinds | extract_glossary.py:123-126 | one cleaned (term, definition) per match |
| TermDictionary.AbsorbAppend | extract_glossary.py:103-139 | scanning two runs of matches in turn equals scanning them together |
| TermDictionary.AbsorbWellFormed | extract_glossary.py:134-139 | the dictionary keeps one key per term, each with a value |
| TermDictionary.AbsorbTerms | extract_glossary.py:128-139 | a term is in the dictionary exactly when it was before or some accepted match has it |
| TermDictionary.AbsorbKeepsDefinition | extract_glossary.py:135-136 | a known term's definition never changes |
| TermDictionary.AbsorbFirstDefinition | extract_glossary.py:137-138 | a new term keeps the definition of its first accepted match |
| TermDictionary.RecordRelated | extract_glossary.py:134-139 | one match adds its article to its term's articles and changes no other term |
| TermDictionary.NoRelatedIn | extract_glossary.py:128-132 | a term never accepted gains no article |
| TermDictionary.AbsorbRelated | extract_glossary.py:134-139 | a term's articles are those it had plus those of every accepted match of it |
| TermDictionary.TermDict.constructor | extract_glossary.py:145 | the dictionary starts empty |
| TermDictionary.TermDict.Add | extract_glossary.py:134-139 | records one accepted match |
| TermDictionary.TermDict.Consider | extract_glossary.py:128-139 | records a match when `is_likely_term` accepts it, and changes nothing otherwise |
| TermDictionary.TermDict.ScanMatches | extract_glossary.py:123-139 | the match loop records every accepted match of one text, in order |
| TermDictionary.TermDict.ScanText | extract_glossary.py:121-139 | scans one cleaned text |
| TermDictionary.TermDict.ProcessArticle | extract_glossary.py:103-139 | scans one article's texts in order |
| TermDictionary.TermDict.ProcessArticlesFile | extract_glossary.py:98-139 | `process_articles_file` updates the dictionary with every accepted match of the file, in order |
| TermDictionary.GatherTexts | extract_glossary.py:106-118 | `text_list` is the article's text, then each clause's text followed by its points' texts |
| TermDictionary.GatherPointTexts | extract_glossary.py:116-118 | the points' present, non-empty texts in order |
| TermDictionary.SortIds | extract_glossary.py:158 | `sorted(related_articles)` fails exactly when `None` is mixed with ids; otherwise it holds every id once, in ascending order |
| TermDictionary.SortStrings | extract_glossary.py:158 | the insertion loop gives every id once, in ascending order |
| TermDictionary.SortedKeys | extract_glossary.py:154 | the sorted terms are exactly the dictionary's keys |
| TermDictionary.ListEntries | extract_glossary.py:154-159 | the loop lists each term with its definition and sorted articles, failing exactly when one term's articles cannot be sorted |
| TermDictionary.Assemble | extract_glossary.py:152-159 | the glossary of a dictionary, as described by `GlossaryOf` |
| TermDictionary.GlossaryShape | extract_glossary.py:152-159 | a glossary lists each term once, ordered by lower-cased term, with case-equal terms in first-seen order |
| TermDictionary.BuildGlossary | extract_glossary.py:141-159 | `build_glossary` lists the dictionary built from every file's accepted matches |
| StringOrder.StrLeRefl | extract_glossary.py:154 | Python's string order is reflexive |
| StringOrder.StrLeTotal | extract_glossary.py:154 | it is total |
| StringOrder.StrLeTrans | extract_glossary.py:154 | it is transitive |
| StringOrder.StrLeAntisym | extract_glossary.py:154 | it is antisymmetric |
| StringOrder.InsertBy | extract_glossary.py:154 | inserting adds exactly one element |
| StringOrder.InsertMembers | extract_glossary.py:154 | inserting adds the element and loses none |
| StringOrder.InsertSorted | extract_glossary.py:154 | inserting into a sorted list keeps it sorted |
| StringOrder.InsertStable | extract_glossary.py:154 | inserting keeps the order of equal keys |
| StringOrder.SortBy | extract_glossary.py:154 | `sorted` is a permutation |
| StringOrder.SortSorted | extract_glossary.py:154 | `sorted` orders by its key |
| StringOrder.SortStable | extract_glossary.py:154 | `sorted` is stable: elements with equal keys keep their order |
| StringOrder.PermutationDistinct | extract_glossary.py:154 | reordering keeps a list free of repeats |
| StringOrder.InsertDistinct | extract_glossary.py:158 | inserting a new element keeps a list free of repeats |

## Left out

- File I/O, JSON loading and saving, and the summary prints are left out. The models of `generate_mapping` and `build_glossary` take parsed articles and return the output list.
- The TF-IDF vectorizer and cosine similarity are floating-point library code. The similarity matrix is a parameter of `GenerateMapping`, which requires only its shape.
- `TfidfVectorizer.fit` (compare_mapping.py:206) raises `ValueError` when no text has a token of two or more word characters, for example when every unit text is whitespace. The model has no such failure: `GenerateMapping` always returns a changelog.
- SciPy's `linear_sum_assignment` is foreign code. Its result is an optional parameter, a list of assignment cells; `None` means SciPy is missing and the greedy branch runs. The model proves what the code does with the assignment, not that it is optimal.
- Floating-point rounding is left out. Scores are `real`; the sums in `detect_splits_and_merges` are exact; `round(s, 3)` is not applied, so a `modified` entry carries the unrounded score.
- `TERM_RE.finditer` and `match.groups()` are a parameter `extract` from a cleaned text to its (term, definition) pairs. The lazy regular expression itself is not modelled.
- Python's full Unicode tables are left out:
  - `\d` is the ASCII digits;
  - `\s` and `str.strip` use Python's whitespace set, for the code points listed in `Text.IsSpace`;
  - `\w` covers ASCII, Latin-1 and the Latin Extended blocks (including Vietnamese);
  - `lower()` covers ASCII, Latin-1, Latin Extended-A and the Vietnamese letters, and is the identity elsewhere. The one exception inside those blocks is U+0130 (capital I with dot above), which the model leaves unchanged; Python lowers it to the two characters "i" and U+0307, so the text gets longer;
  - the marker class `[A-Za-zÀ-ỹ]` of `normalize_for_compare` is taken as written, without the extra letters that `IGNORECASE` brings. The `[a-zA-Z]` of `clean_term` does include them (`Glossary.IsCaselessAsciiLetter`).
- Text.Lower: its contract states only that the length is kept. The mapping of each letter is in its body, not its contract.
- Normalize.NormalizeForOutput: its own contract states only the empty-text case. That it equals `normalize_for_compare` on every input is the separate lemma `Normalize.OutputIsCompare`.
- The model computes `normalize_for_compare` and `normalize_for_output` once per unit (`Compared`, `Rows`) and hands the results to the steps. The source calls them again inside each step. Both functions are pure, so the entries are the same.
- Python iterates the set `VERB_STOPWORDS` in a hash order that is not stable across runs. The model scans the stopwords in one fixed order. Because the result depends only on how many stopwords occur, the order makes no difference.
- `is_likely_term` accepts a candidate of two or more dashes (`Glossary.DashesPassAsTerm`): the bullet removal empties it before any check looks at it. The model keeps this behaviour as written.

=== FILE: documents.dfy ===
/** The article tree both scripts read: articles hold clauses, clauses hold
    points, and each level may carry a `full_text`. A key that is absent from
    the JSON record is `None`; an absent list of children is empty. */
module Documents {
  import opened Wrappers

  datatype Point = Point(pointId: Option<string>, point: Option<string>, fullText: Option<string>)

  datatype Clause = Clause(
    clauseId: Option<string>, clause: Option<string>, fullText: Option<string>, points: seq<Point>)

  datatype Article = Article(
    articleId: Option<string>, articleNumber: Option<string>, fullText: Option<string>, clauses: seq<Clause>)

  /** Python truthiness of an optional string: present and not empty. */
  predicate Truthy(o: Option<string>) {
    o.Some? && o.value != ""
  }

  /** `primary or secondary`: one of the two, truthy when either is, and
      the first one whenever it is truthy. */
  function FirstTruthy(primary: Option<string>, secondary: Option<string>): (r: Option<string>)
    ensures r == primary || r == secondary
    ensures Truthy(r) <==> Truthy(primary) || Truthy(secondary)
    ensures Truthy(primary) ==> r == primary
  {
    if Truthy(primary) then primary else secondary
  }

  /** `clause.get("clause_id") or clause.get("clause")`. */
  function ClauseIdOf(c: Clause): Option<string> {
    FirstTruthy(c.clauseId, c.clause)
  }

  /** `point.get("point_id") or point.get("point")`. */
  function PointIdOf(p: Point): Option<string> {
    FirstTruthy(p.pointId, p.point)
  }

  /** The text of an optional `full_text` when it is truthy, as a list of zero
      or one element. */
  function TextIfAny(o: Option<string>): seq<string> {
    if Truthy(o) then [o.value] else []
  }

  /** Every truthy `full_text` of the points, in order. */
  function PointTexts(ps: seq<Point>): seq<string>
  {
    if ps == [] then [] else PointTexts(ps[..|ps| - 1]) + TextIfAny(ps[|ps| - 1].fullText)
  }

  /** Every truthy `full_text` of a clause and its points, clause first. */
  function ClauseTexts(c: Clause): seq<string> {
    TextIfAny(c.fullText) + PointTexts(c.points)
  }

  function ClausesTexts(cs: seq<Clause>): seq<string>
  {
    if cs == [] then [] else ClausesTexts(cs[..|cs| - 1]) + ClauseTexts(cs[|cs| - 1])
  }

  /** Every truthy `full_text` of an article in document order: the article's
      own text, then each clause's text followed by its points' texts. */
  function ArticleTexts(a: Article): seq<string> {
    TextIfAny(a.fullText) + ClausesTexts(a.clauses)
  }
}

=== FILE: glossary.dfy ===
/** The text heuristics of the glossary builder: `clean_text`, `clean_term`
    and the term validator `is_likely_term`. */
module Glossary {
  import opened Wrappers
  import opened Text
  import opened Normalize

  // clean_text

  /** `clean_text`: line breaks become spaces and both ends are stripped. */
  function CleanText(text: string): (r: string)
    ensures NoLineBreaks(r) && Trimmed(r)
    ensures |r| <= |text|
  {
    var s := LineBreaksToSpaces(text);
    StripKeeps(s);
    Strip(s)
  }

  /** `clean_text` changes whitespace only. */
  lemma CleanTextVisible(text: string)
    ensures Squeeze(CleanText(text)) == Squeeze(text)
  {
    LineBreaksVisible(text);
    StripVisible(LineBreaksToSpaces(text));
  }

  /** Cleaning a cleaned text changes nothing. */
  lemma CleanTextIdempotent(text: string)
    ensures CleanText(CleanText(text)) == CleanText(text)
  {
    var r := CleanText(text);
    assert LineBreaksToSpaces(r) == r;
  }

  // clean_term

  /** A character `[a-zA-Z]` matches under `re.IGNORECASE`: the ASCII
      letters, and the four letters whose case folding reaches one of them,
      dotted capital I, dotless small i, long s and the Kelvin sign. */
  predicate IsCaselessAsciiLetter(c: char) {
    ('a' <= c <= 'z') || ('A' <= c <= 'Z')
    || c == '\U{0130}' || c == '\U{0131}' || c == '\U{017F}' || c == '\U{212A}'
  }

  /** The marker `\d+\.\s*` or `[a-zA-Z]\)\s*` at the start of a stripped
      term: what follows it, or `None` when the term does not start with
      one. */
  function AfterTermMarker(u: string): (r: Option<string>)
    ensures r.Some? ==> |r.value| < |u|
    ensures r.Some? ==> r.value == [] || !IsSpace(r.value[0])
  {
    var d := DigitRun(u);
    if 0 < d < |u| && u[d] == '.' then Some(TrimLeft(u[d + 1..]))
    else if 2 <= |u| && IsCaselessAsciiLetter(u[0]) && u[1] == ')' then Some(TrimLeft(u[2..]))
    else None
  }

  /** `s.rstrip(':')`. */
  function TrimColons(s: string): (r: string)
    ensures |r| <= |s|
    ensures r == [] || r[|r| - 1] != ':'
    ensures forall k :: |r| <= k < |s| ==> s[k] == ':'
  {
    if s != [] && s[|s| - 1] == ':' then TrimColons(s[..|s| - 1]) else s
  }

  lemma {:induction false} TrimColonsOf(rest: string, colons: string)
    requires rest == [] || rest[|rest| - 1] != ':'
    requires forall k :: 0 <= k < |colons| ==> colons[k] == ':'
    ensures TrimColons(rest + colons) == rest
  {
    if colons != [] {
      var front := colons[..|colons| - 1];
      assert (rest + colons)[..|rest + colons| - 1] == rest + front;
      TrimColonsOf(rest, front);
    } else {
      assert rest + colons == rest;
    }
  }

  /** `clean_term`: strip, drop one leading `N.` or `x)` marker (the pattern
      is anchored, so only one), drop trailing colons, strip again. */
  function CleanTerm(term: string): (r: string)
    ensures Trimmed(r)
    ensures |r| <= |term|
  {
    var t := Strip(term);
    var t := match AfterTermMarker(t)
      case Some(rest) => rest
      case None => t;
    Strip(TrimColons(t))
  }

  lemma NumberMarkerOf(digits: string, spaces: string, tail: string)
    requires digits != [] && forall k :: 0 <= k < |digits| ==> IsDigit(digits[k])
    requires forall k :: 0 <= k < |spaces| ==> IsSpace(spaces[k])
    requires tail == [] || !IsSpace(tail[0])
    ensures AfterTermMarker(digits + ['.'] + spaces + tail) == Some(tail)
  {
    var t := digits + ['.'] + spaces + tail;
    DigitRunOf(digits, ['.'] + spaces + tail);
    assert t == digits + (['.'] + spaces + tail);
    assert t[|digits| + 1..] == spaces + tail;
    TrimLeftOf(spaces, tail);
  }

  /** A numbered term such as "12. Thuế suất:" loses its number, the spaces
      after it and its trailing colons, and nothing else: a second marker
      in `rest` stays. */
  lemma CleanTermNumbered(digits: string, spaces: string, rest: string, colons: string)
    requires digits != [] && forall k :: 0 <= k < |digits| ==> IsDigit(digits[k])
    requires forall k :: 0 <= k < |spaces| ==> IsSpace(spaces[k])
    requires rest != [] && Trimmed(rest) && rest[|rest| - 1] != ':'
    requires forall k :: 0 <= k < |colons| ==> colons[k] == ':'
    ensures CleanTerm(digits + ['.'] + spaces + rest + colons) == rest
  {
    var tail := rest + colons;
    var t := digits + ['.'] + spaces + tail;
    assert digits + ['.'] + spaces + rest + colons == t;
    assert tail[0] == rest[0];
    assert Strip(t) == t by {
      assert t[0] == digits[0];
      assert t[|t| - 1] == tail[|tail| - 1];
      if colons == [] {
        assert tail[|tail| - 1] == rest[|rest| - 1];
      } else {
        assert tail[|tail| - 1] == colons[|colons| - 1];
      }
    }
    NumberMarkerOf(digits, spaces, tail);
    TrimColonsOf(rest, colons);
  }

  /** A trimmed term that starts with no `N.` or `x)` marker keeps its text:
      it loses only its trailing colons and the whitespace they leave. */
  lemma CleanTermNoMarker(term: string)
    requires Trimmed(term) && term != [] && !IsDigit(term[0])
    requires |term| < 2 || !IsCaselessAsciiLetter(term[0]) || term[1] != ')'
    ensures CleanTerm(term) == Strip(TrimColons(term))
  {
    StripKeepsTrimmed(term);
    assert DigitRun(term) == 0;
  }

  /** A trimmed term that starts with a number not followed by `.`, such as
      "2013 Luật" or "10", keeps its text: it loses only its trailing colons
      and the whitespace they leave. */
  lemma CleanTermDigitsKept(digits: string, rest: string)
    requires digits != [] && forall k :: 0 <= k < |digits| ==> IsDigit(digits[k])
    requires rest == [] || (!IsDigit(rest[0]) && rest[0] != '.')
    requires Trimmed(digits + rest)
    ensures CleanTerm(digits + rest) == Strip(TrimColons(digits + rest))
  {
    var t := digits + rest;
    StripKeepsTrimmed(t);
    assert AfterTermMarker(t).None? by {
      DigitRunOf(digits, rest);
      assert t[0] == digits[0];
      if rest != [] {
        assert t[|digits|] == rest[0];
      }
    }
  }

  /** A lettered term such as "a) Thuế suất" loses its letter and the
      spaces after it. */
  lemma CleanTermLettered(letter: char, spaces: string, rest: string)
    requires IsCaselessAsciiLetter(letter)
    requires forall k :: 0 <= k < |spaces| ==> IsSpace(spaces[k])
    requires rest != [] && Trimmed(rest) && rest[|rest| - 1] != ':'
    ensures CleanTerm([letter, ')'] + spaces + rest) == rest
  {
    var t := [letter, ')'] + spaces + rest;
    assert Trimmed(t) by {
      assert t[0] == letter;
      assert t[|t| - 1] == rest[|rest| - 1];
    }
    assert AfterTermMarker(t) == Some(rest) by {
      assert DigitRun(t) == 0 by { assert t[0] == letter; }
      assert t[2..] == spaces + rest;
      TrimLeftOf(spaces, rest);
    }
    TrimColonsOf(rest, []);
    assert rest + [] == rest;
  }

  /** Unlike the mapping normaliser, `clean_term` does not treat "a." as a
      marker: the letter stays. */
  lemma CleanTermKeepsLetterDot(letter: char, rest: string)
    requires IsCaselessAsciiLetter(letter)
    requires rest != [] && Trimmed(rest) && rest[|rest| - 1] != ':'
    ensures CleanTerm([letter, '.', ' '] + rest) == [letter, '.', ' '] + rest
  {
    var t := [letter, '.', ' '] + rest;
    assert Trimmed(t) by {
      assert t[0] == letter;
      assert t[|t| - 1] == rest[|rest| - 1];
    }
    assert AfterTermMarker(t) == None by {
      assert DigitRun(t) == 0 by { assert t[0] == letter; }
    }
    assert TrimColons(t) == t by {
      assert t[|t| - 1] == rest[|rest| - 1];
    }
  }

  // is_likely_term

  /** The defaults of `is_likely_term`. */
  const MaxWords: int := 8
  const MaxChars: int := 120
  const MaxCommas: int := 1
  const StopwordThreshold: int := 1

  /** `VERB_STOPWORDS`, one entry per member of the set. The set display
      spells "là" twice: once precomposed and once as "la" followed by a
      combining grave accent. These are different strings, so the set has
      fifteen members. */
  const VerbStopwords: seq<string> := [
    "được", "gồm", "bao gồm", "là", "lưu ý", "có", "thực hiện", "là việc", "gọi là",
    "la\U{0300}", "gồm:", "gồm các", "trường hợp", "là những", "là các"]

  /** The phrases of the word-bounded search `\b(là việc|gồm|bao gồm|là
      những|là các|trường hợp)\b`. */
  const BoundedPhrases: seq<string> := ["là việc", "gồm", "bao gồm", "là những", "là các", "trường hợp"]

  /** The words of the search `\b(?:là|gồm|gọi|được|bao|chỉ)\s*$`. */
  const TrailingWords: seq<string> := ["là", "gồm", "gọi", "được", "bao", "chỉ"]

  /** The class `[\-\–\—\•\u2022\s]` of leading bullets. */
  predicate IsBullet(c: char) {
    c == '-' || c == '\U{2013}' || c == '\U{2014}' || c == '\U{2022}' || IsSpace(c)
  }

  /** `re.sub(r'^[\-\–\—\•\u2022\s]+', '', s)`. */
  function DropBullets(s: string): (r: string)
    ensures |r| <= |s|
    ensures r == [] || !IsBullet(r[0])
  {
    if s != [] && IsBullet(s[0]) then DropBullets(s[1..]) else s
  }

  /** Only the leading run of bullets goes: what is left is the rest of the
      text, and every character removed is a bullet. */
  lemma {:induction false} DropBulletsSuffix(s: string)
    ensures DropBullets(s) == s[|s| - |DropBullets(s)|..]
    ensures forall k :: 0 <= k < |s| - |DropBullets(s)| ==> IsBullet(s[k])
  {
    if s != [] && IsBullet(s[0]) {
      DropBulletsSuffix(s[1..]);
      assert s[1..][|s| - 1 - |DropBullets(s)|..] == s[|s| - |DropBullets(s)|..];
    }
  }

  /** The term the later checks look at: stripped, without leading bullets,
      stripped again. */
  function Debulleted(term: string): (t: string)
    ensures Trimmed(t)
  {
    Strip(DropBullets(Strip(term)))
  }

  /** The number of maximal runs of whitespace in `s`. */
  function SpaceRuns(s: string): nat {
    if s == [] then 0
    else SpaceRuns(s[..|s| - 1])
         + (if IsSpace(s[|s| - 1]) && (|s| == 1 || !IsSpace(s[|s| - 2])) then 1 else 0)
  }

  /** `len(re.split(r'\s+', s))`: one more piece than there are runs of
      whitespace, so `""` counts as one word. */
  function WordCount(s: string): nat {
    1 + SpaceRuns(s)
  }

  /** How many of `ws` occur in `s`. */
  function StopwordsIn(ws: seq<string>, s: string): (n: nat)
    ensures n <= |ws|
  {
    if ws == [] then 0
    else StopwordsIn(ws[..|ws| - 1], s) + (if IsSubstring(ws[|ws| - 1], s) then 1 else 0)
  }

  /** `\w`: ASCII letters and digits, the underscore, and the letters of
      Latin-1, Latin Extended-A and -B and Latin Extended Additional (which
      holds the Vietnamese letters). */
  predicate IsWordChar(c: char) {
    || ('a' <= c <= 'z') || ('A' <= c <= 'Z') || ('0' <= c <= '9') || c == '_'
    || c == '\U{00AA}' || c == '\U{00B5}' || c == '\U{00BA}'
    || (('\U{00C0}' <= c <= '\U{00FF}') && c != '\U{00D7}' && c != '\U{00F7}')
    || ('\U{0100}' <= c <= '\U{024F}')
    || ('\U{1E00}' <= c <= '\U{1EFF}')
  }

  /** `p` occurs in `s` at position `k`. */
  predicate Occurs(p: string, s: string, k: nat) {
    k + |p| <= |s| && s[k..k + |p|] == p
  }

  /** `\b` before position `k`, for a match that starts with a word
      character. */
  predicate WordStart(s: string, k: nat) {
    k == 0 || (k <= |s| && !IsWordChar(s[k - 1]))
  }

  /** `\b` at position `e`, for a match that ends with a word character. */
  predicate WordEnd(s: string, e: nat) {
    e >= |s| || !IsWordChar(s[e])
  }

  /** `re.search(r'\b(là việc|gồm|bao gồm|là những|là các|trường hợp)\b', s)`
      finds a match. Every phrase starts and ends with a word character. */
  predicate HasBoundedPhrase(s: string) {
    exists i, k :: 0 <= i < |BoundedPhrases| && 0 <= k <= |s|
      && Occurs(BoundedPhrases[i], s, k) && WordStart(s, k) && WordEnd(s, k + |BoundedPhrases[i]|)
  }

  /** `re.search(r'\b(?:là|gồm|gọi|được|bao|chỉ)\s*$', s)` finds a match:
      one of the words starts a word and only whitespace follows it. */
  predicate EndsWithTrailingWord(s: string) {
    exists i, k :: 0 <= i < |TrailingWords| && 0 <= k <= |s|
      && Occurs(TrailingWords[i], s, k) && WordStart(s, k)
      && forall m :: k + |TrailingWords[i]| <= m < |s| ==> IsSpace(s[m])
  }

  function AtLeastOne(n: int): int {
    if n < 1 then 1 else n
  }

  /** What `is_likely_term` answers. The stopword loop returns as soon as it
      has found `stopword_threshold` stopwords, and never before it has
      found one; the answer is therefore whether at least
      `max(1, stopword_threshold)` of them occur. */
  function LikelyTerm(term: Option<string>, maxWords: int, maxChars: int, maxCommas: int,
                      threshold: int): bool
  {
    if term.None? || term.value == "" then false
    else if |Strip(term.value)| < 2 then false
    else
      var t := Debulleted(term.value);
      var lowered := Lower(t);
      if |t| > maxChars then false
      else if WordCount(t) > maxWords then false
      else if CountChar(t, ',') > maxCommas then false
      else if StopwordsIn(VerbStopwords, lowered) >= AtLeastOne(threshold) then false
      else if HasBoundedPhrase(lowered) then false
      else if '.' in t && |t| > 10 then false
      else !EndsWithTrailingWord(lowered)
  }

  lemma StopwordsStep(ws: seq<string>, i: nat, s: string)
    requires i < |ws|
    ensures StopwordsIn(ws[..i + 1], s) == StopwordsIn(ws[..i], s) + (if IsSubstring(ws[i], s) then 1 else 0)
  {
    assert ws[..i + 1][..i] == ws[..i];
  }

  /** Counting over a prefix finds no more than counting over the whole. */
  lemma {:induction false} StopwordsPrefix(ws: seq<string>, n: nat, s: string)
    requires n <= |ws|
    ensures StopwordsIn(ws[..n], s) <= StopwordsIn(ws, s)
  {
    if n < |ws| {
      assert ws[..|ws| - 1][..n] == ws[..n];
      StopwordsPrefix(ws[..|ws| - 1], n, s);
    } else {
      assert ws[..n] == ws;
    }
  }

  /** One stopword that occurs is enough for a positive count. */
  lemma {:induction false} StopwordsPositive(ws: seq<string>, s: string, i: nat)
    requires i < |ws| && IsSubstring(ws[i], s)
    ensures StopwordsIn(ws, s) >= 1
  {
    if i < |ws| - 1 {
      assert ws[..|ws| - 1][i] == ws[i];
      StopwordsPositive(ws[..|ws| - 1], s, i);
    }
  }

  /** `is_likely_term`. The stopwords are visited in the order of
      `VerbStopwords`; the answer does not depend on that order. */
  method IsLikelyTerm(term: Option<string>, maxWords: int, maxChars: int, maxCommas: int, threshold: int)
    returns (likely: bool)
    ensures likely == LikelyTerm(term, maxWords, maxChars, maxCommas, threshold)
  {
    if term.None? || term.value == "" {
      return false;
    }
    var t := Strip(term.value);
    if |t| < 2 {
      return false;
    }
    t := Strip(DropBullets(t));
    if |t| > maxChars {
      return false;
    }
    if WordCount(t) > maxWords {
      return false;
    }
    if CountChar(t, ',') > maxCommas {
      return false;
    }
    var lowered := Lower(t);
    var tooMany := TooManyStopwords(lowered, threshold);
    if tooMany {
      return false;
    }
    if HasBoundedPhrase(lowered) {
      return false;
    }
    if '.' in t && |t| > 10 {
      return false;
    }
    if EndsWithTrailingWord(lowered) {
      return false;
    }
    return true;
  }

  /** The stopword loop of `is_likely_term`: it counts the stopwords that
      occur in `lowered` and stops at the first count that reaches the
      threshold, so a threshold below one acts as one. */
  method TooManyStopwords(lowered: string, threshold: int) returns (reject: bool)
    ensures reject <==> StopwordsIn(VerbStopwords, lowered) >= AtLeastOne(threshold)
  {
    var found := 0;
    var i := 0;
    while i < |VerbStopwords|
      invariant i <= |VerbStopwords|
      invariant found == StopwordsIn(VerbStopwords[..i], lowered)
      invariant found == 0 || found < threshold
    {
      StopwordsStep(VerbStopwords, i, lowered);
      if IsSubstring(VerbStopwords[i], lowered) {
        found := found + 1;
        if found >= threshold {
          StopwordsPrefix(VerbStopwords, i + 1, lowered);
          return true;
        }
      }
      i := i + 1;
    }
    assert VerbStopwords[..i] == VerbStopwords;
    return false;
  }

  /** With the default threshold, a term in which any stopword occurs is
      rejected: "là" alone is enough. */
  lemma StopwordRejects(term: string, threshold: int, i: nat)
    requires threshold <= 1
    requires i < |VerbStopwords| && IsSubstring(VerbStopwords[i], Lower(Debulleted(term)))
    ensures !LikelyTerm(Some(term), MaxWords, MaxChars, MaxCommas, threshold)
  {
    StopwordsPositive(VerbStopwords, Lower(Debulleted(term)), i);
  }

  /** Every phrase of the word-bounded search is itself a stopword. With a
      threshold of at most one, that search never decides anything: a term
      it would reject is already rejected by the stopword loop. */
  lemma BoundedPhraseIsStopword(s: string)
    requires HasBoundedPhrase(s)
    ensures StopwordsIn(VerbStopwords, s) >= 1
  {
    var i, k :| 0 <= i < |BoundedPhrases| && 0 <= k <= |s|
      && Occurs(BoundedPhrases[i], s, k) && WordStart(s, k) && WordEnd(s, k + |BoundedPhrases[i]|);
    var p := BoundedPhrases[i];
    SubstringAt(p, s, k);
    var j := BoundedPhraseListed(i);
    StopwordsPositive(VerbStopwords, s, j);
  }

  /** Each phrase of the word-bounded search is itself a stopword. */
  function BoundedPhraseListed(i: nat): (j: nat)
    requires i < |BoundedPhrases|
    ensures j < |VerbStopwords| && VerbStopwords[j] == BoundedPhrases[i]
  {
    if i == 0 then 7 else if i == 1 then 1 else if i == 2 then 2 else if i == 3 then 13
    else if i == 4 then 14 else 12
  }

  /** A term the validator accepts with its defaults is short, has at most
      eight words and one comma, contains no stopword and, when longer than
      ten characters, no dot. */
  lemma AcceptedTermShape(term: string)
    requires LikelyTerm(Some(term), MaxWords, MaxChars, MaxCommas, StopwordThreshold)
    ensures |Strip(term)| >= 2
    ensures var t := Debulleted(term);
      |t| <= MaxChars && WordCount(t) <= MaxWords && CountChar(t, ',') <= MaxCommas
      && (forall i :: 0 <= i < |VerbStopwords| ==> !IsSubstring(VerbStopwords[i], Lower(t)))
      && !('.' in t && |t| > 10)
  {
    var t := Debulleted(term);
    forall i | 0 <= i < |VerbStopwords| ensures !IsSubstring(VerbStopwords[i], Lower(t)) {
      if IsSubstring(VerbStopwords[i], Lower(t)) {
        StopwordsPositive(VerbStopwords, Lower(t), i);
      }
    }
  }

  lemma {:induction false} DashesDropped(s: string)
    requires forall k :: 0 <= k < |s| ==> s[k] == '-'
    ensures DropBullets(s) == []
  {
    if s != [] {
      DashesDropped(s[1..]);
    }
  }

  /** No stopword occurs in the empty string. */
  lemma {:induction false} NoStopwordInEmpty(ws: seq<string>)
    requires forall i :: 0 <= i < |ws| ==> ws[i] != []
    ensures StopwordsIn(ws, []) == 0
  {
    if ws != [] {
      NoStopwordInEmpty(ws[..|ws| - 1]);
      assert ws[|ws| - 1] != [];
    }
  }

  /** The length check comes before the bullets are dropped, and every later
      check passes on the empty string. A candidate made of two or more
      dashes is therefore accepted as a term. */
  lemma DashesPassAsTerm(s: string)
    requires |s| >= 2 && forall k :: 0 <= k < |s| ==> s[k] == '-'
    ensures LikelyTerm(Some(s), MaxWords, MaxChars, MaxCommas, StopwordThreshold)
  {
    assert Strip(s) == s by {
      assert !IsSpace(s[0]) && !IsSpace(s[|s| - 1]);
    }
    DashesDropped(s);
    assert Debulleted(s) == [];
    assert Lower([]) == [];
    NoStopwordInEmpty(VerbStopwords);
    assert !HasBoundedPhrase([]);
    assert !EndsWithTrailingWord([]);
  }
}

=== FILE: mapping.dfy ===
/** `generate_mapping` from end to end. The articles are cut into units. The
    candidate pairs are filtered by score. Splits and merges are detected.
    The five synthesis steps then write the changelog. The similarity matrix
    and the solver's assignment come in as parameters. */
module Mapping {
  import opened Wrappers
  import opened Seqs
  import opened Documents
  import opened Normalize
  import opened Units
  import opened Scoring
  import opened Matching
  import opened SplitMerge
  import opened Synthesis

  /** Inserting a pair that shares no row and no column with a one-to-one
      list keeps the list one-to-one. */
  lemma {:induction false} InsertOneToOne(x: Cand, xs: seq<Cand>)
    requires OneToOne(xs)
    requires forall y :: y in xs ==> y.r != x.r && y.c != x.c
    ensures OneToOne(InsertDesc(x, xs))
  {
    if xs != [] && x.s < xs[0].s {
      var tail := xs[1..];
      OneToOneTail(xs);
      InsertOneToOne(x, tail);
      var rest := InsertDesc(x, tail);
      InsertMembers(x, tail);
      ConsOneToOne(xs[0], rest);
    } else {
      ConsOneToOne(x, xs);
    }
  }

  /** Sorting the candidates by score keeps them one-to-one. */
  lemma {:induction false} SortOneToOne(xs: seq<Cand>)
    requires OneToOne(xs)
    ensures OneToOne(SortDesc(xs))
  {
    if xs != [] {
      var tail := xs[1..];
      OneToOneTail(xs);
      SortOneToOne(tail);
      var sorted := SortDesc(tail);
      forall y | y in sorted ensures y.r != xs[0].r && y.c != xs[0].c {
        assert y in multiset(sorted);
      }
      InsertOneToOne(xs[0], sorted);
    }
  }

  /** The pairs that reach the threshold. The candidates are sorted by
      descending score and kept greedily; a candidate is skipped when its row
      or its column is taken. Each kept pair is a cell of the matrix, with
      that cell's score, and the score reaches the threshold. No unit is
      matched twice. */
  function MatchedPairs(sim: seq<seq<real>>, nOld: nat, nNew: nat, assignment: Option<seq<(nat, nat)>>,
                        threshold: real): (ps: seq<Cand>)
    requires IsMatrix(sim, nOld, nNew)
    ensures OneToOne(ps)
    ensures forall p :: p in ps ==> p.r < nOld && p.c < nNew && p.s == sim[p.r][p.c] && p.s >= threshold
  {
    var cand := Candidates(sim, nOld, nNew, assignment);
    var sorted := SortDesc(cand);
    GreedyPairs(sim, nOld, nNew);
    ThresholdLaw(sorted, threshold);
    assert forall p :: p in sorted ==> p in cand by {
      forall p | p in sorted ensures p in cand {
        assert p in multiset(sorted);
      }
    }
    Kept(sorted, threshold, {}, {})
  }

  /** The candidates come one-to-one from the matcher, so the filter's
      check for a taken row or column never fires. The matched pairs are
      exactly the candidates that reach the threshold, in sorted order. */
  lemma MatchedAreCandidatesAbove(sim: seq<seq<real>>, nOld: nat, nNew: nat, assignment: Option<seq<(nat, nat)>>,
                                  threshold: real)
    requires IsMatrix(sim, nOld, nNew)
    requires assignment.Some? ==> IsAssignment(assignment.value)
    ensures MatchedPairs(sim, nOld, nNew, assignment, threshold)
            == AtLeast(SortDesc(Candidates(sim, nOld, nNew, assignment)), threshold)
    ensures forall p :: p in MatchedPairs(sim, nOld, nNew, assignment, threshold) <==>
      p in Candidates(sim, nOld, nNew, assignment) && p.s >= threshold
  {
    var cand := Candidates(sim, nOld, nNew, assignment);
    if assignment.Some? {
      AssignedOneToOne(sim, nOld, nNew, assignment.value);
    } else {
      GreedyPairs(sim, nOld, nNew);
    }
    SortOneToOne(cand);
    ThresholdLaw(SortDesc(cand), threshold);
    forall p ensures p in SortDesc(cand) <==> p in cand {
      assert p in SortDesc(cand) <==> p in multiset(SortDesc(cand));
    }
  }

  lemma AllInRangeAppend(a: seq<Change>, b: seq<Change>, nOld: nat, nNew: nat)
    requires AllInRange(a, nOld, nNew) && AllInRange(b, nOld, nNew)
    ensures AllInRange(a + b, nOld, nNew)
  {
    forall k | 0 <= k < |a + b| ensures InRange((a + b)[k], nOld, nNew) {
      if k < |a| {
        assert (a + b)[k] == a[k];
      } else {
        assert (a + b)[k] == b[k - |a|];
      }
    }
  }

  /** Every change of the five steps names units that exist. */
  lemma StepsInRange(textsOld: seq<string>, textsNew: seq<string>, matched: seq<Cand>,
                     splits: seq<Group>, merges: seq<Group>)
    requires PairsInRange(matched, |textsOld|, |textsNew|)
    requires forall g :: g in splits ==> g.index < |textsOld|
    requires forall g :: g in merges ==> g.index < |textsNew|
    ensures AllInRange(ModifiedChanges(textsOld, textsNew, matched), |textsOld|, |textsNew|)
    ensures AllInRange(SplitDeletes(splits), |textsOld|, |textsNew|)
    ensures AllInRange(MergeAdds(merges), |textsOld|, |textsNew|)
    ensures AllInRange(ResidualDeletes(|textsOld|, RowsOf(matched), Indices(splits)), |textsOld|, |textsNew|)
    ensures AllInRange(ResidualAdds(|textsNew|, ColsOf(matched), Indices(merges), LegCols(splits)), |textsOld|, |textsNew|)
    ensures AllInRange(Changes(textsOld, textsNew, matched, splits, merges), |textsOld|, |textsNew|)
  {
    var m := ModifiedChanges(textsOld, textsNew, matched);
    ModifiedChangesMembers(textsOld, textsNew, matched);
    forall k | 0 <= k < |m| ensures InRange(m[k], |textsOld|, |textsNew|) {
      assert m[k] in m;
    }
    var s := SplitDeletes(splits);
    forall k | 0 <= k < |s| ensures InRange(s[k], |textsOld|, |textsNew|) {
      assert splits[k] in splits;
    }
    var a := MergeAdds(merges);
    forall k | 0 <= k < |a| ensures InRange(a[k], |textsOld|, |textsNew|) {
      assert merges[k] in merges;
    }
    var d := ResidualDeletes(|textsOld|, RowsOf(matched), Indices(splits));
    var e := ResidualAdds(|textsNew|, ColsOf(matched), Indices(merges), LegCols(splits));
    AllInRangeAppend(m, s, |textsOld|, |textsNew|);
    AllInRangeAppend(m + s, a, |textsOld|, |textsNew|);
    AllInRangeAppend(m + s + a, d, |textsOld|, |textsNew|);
    AllInRangeAppend(m + s + a + d, e, |textsOld|, |textsNew|);
  }

  /** The changes `generate_mapping` records for the units: none when both
      sides are empty, otherwise the five steps on the matched pairs, the
      splits and the merges. Every change names units that exist. */
  function MappingChanges(unitsOld: seq<TextUnit>, unitsNew: seq<TextUnit>, sim: seq<seq<real>>,
                          threshold: real, assignment: Option<seq<(nat, nat)>>): (cs: seq<Change>)
    requires IsMatrix(sim, |unitsOld|, |unitsNew|)
    ensures AllInRange(cs, |unitsOld|, |unitsNew|)
  {
    if unitsOld == [] && unitsNew == [] then []
    else
      var nOld, nNew := |unitsOld|, |unitsNew|;
      var textsOld, textsNew := Compared(unitsOld), Compared(unitsNew);
      var matched := MatchedPairs(sim, nOld, nNew, assignment, threshold);
      SplitsExactly(sim, nOld, nNew);
      MergesExactly(sim, nOld, nNew);
      StepsInRange(textsOld, textsNew, matched, Splits(sim, nOld, nNew), Merges(sim, nOld, nNew));
      Changes(textsOld, textsNew, matched, Splits(sim, nOld, nNew), Merges(sim, nOld, nNew))
  }

  lemma RenderSteps(rowsOld: seq<Row>, rowsNew: seq<Row>, m: seq<Change>, s: seq<Change>, a: seq<Change>,
                    d: seq<Change>, e: seq<Change>)
    requires AllInRange(m, |rowsOld|, |rowsNew|) && AllInRange(s, |rowsOld|, |rowsNew|)
    requires AllInRange(a, |rowsOld|, |rowsNew|) && AllInRange(d, |rowsOld|, |rowsNew|)
    requires AllInRange(e, |rowsOld|, |rowsNew|)
    ensures AllInRange(m + s + a + d + e, |rowsOld|, |rowsNew|)
    ensures RenderAll(rowsOld, rowsNew, m + s + a + d + e)
            == RenderAll(rowsOld, rowsNew, m) + RenderAll(rowsOld, rowsNew, s) + RenderAll(rowsOld, rowsNew, a)
               + RenderAll(rowsOld, rowsNew, d) + RenderAll(rowsOld, rowsNew, e)
  {
    RenderAllAppend(rowsOld, rowsNew, m, s);
    RenderAllAppend(rowsOld, rowsNew, m + s, a);
    RenderAllAppend(rowsOld, rowsNew, m + s + a, d);
    RenderAllAppend(rowsOld, rowsNew, m + s + a + d, e);
  }

  /** For non-empty input, the rendered changelog is the five steps'
      entries one after the other. */
  lemma MappingSteps(unitsOld: seq<TextUnit>, unitsNew: seq<TextUnit>, sim: seq<seq<real>>,
                     threshold: real, assignment: Option<seq<(nat, nat)>>)
    requires IsMatrix(sim, |unitsOld|, |unitsNew|)
    requires unitsOld != [] || unitsNew != []
    ensures var nOld, nNew := |unitsOld|, |unitsNew|;
      var textsOld, textsNew := Compared(unitsOld), Compared(unitsNew);
      var rowsOld, rowsNew := Rows(unitsOld), Rows(unitsNew);
      var matched := MatchedPairs(sim, nOld, nNew, assignment, threshold);
      var splits, merges := Splits(sim, nOld, nNew), Merges(sim, nOld, nNew);
      var m := ModifiedChanges(textsOld, textsNew, matched);
      var d := ResidualDeletes(nOld, RowsOf(matched), Indices(splits));
      var e := ResidualAdds(nNew, ColsOf(matched), Indices(merges), LegCols(splits));
      AllInRange(m, nOld, nNew) && AllInRange(SplitDeletes(splits), nOld, nNew)
      && AllInRange(MergeAdds(merges), nOld, nNew) && AllInRange(d, nOld, nNew) && AllInRange(e, nOld, nNew)
      && RenderAll(rowsOld, rowsNew, MappingChanges(unitsOld, unitsNew, sim, threshold, assignment))
         == RenderAll(rowsOld, rowsNew, m) + RenderAll(rowsOld, rowsNew, SplitDeletes(splits))
            + RenderAll(rowsOld, rowsNew, MergeAdds(merges)) + RenderAll(rowsOld, rowsNew, d)
            + RenderAll(rowsOld, rowsNew, e)
  {
    var nOld, nNew := |unitsOld|, |unitsNew|;
    var textsOld, textsNew := Compared(unitsOld), Compared(unitsNew);
    var matched := MatchedPairs(sim, nOld, nNew, assignment, threshold);
    var splits, merges := Splits(sim, nOld, nNew), Merges(sim, nOld, nNew);
    SplitsExactly(sim, nOld, nNew);
    MergesExactly(sim, nOld, nNew);
    StepsInRange(textsOld, textsNew, matched, splits, merges);
    RenderSteps(Rows(unitsOld), Rows(unitsNew),
                ModifiedChanges(textsOld, textsNew, matched), SplitDeletes(splits), MergeAdds(merges),
                ResidualDeletes(nOld, RowsOf(matched), Indices(splits)),
                ResidualAdds(nNew, ColsOf(matched), Indices(merges), LegCols(splits)));
  }

  /** `generate_mapping` without the file I/O: the articles of the two
      versions, the similarity matrix of their compared texts and, when the
      optimal solver ran, its assignment. The changelog renders exactly the
      changes `MappingChanges` describes. */
  method GenerateMapping(articlesOld: seq<Article>, articlesNew: seq<Article>, sim: seq<seq<real>>,
                         threshold: real, assignment: Option<seq<(nat, nat)>>)
    returns (mapping: seq<Entry>)
    requires IsMatrix(sim, |DocumentUnits(articlesOld)|, |DocumentUnits(articlesNew)|)
    requires assignment.Some? ==> IsAssignment(assignment.value)
    ensures mapping == RenderAll(Rows(DocumentUnits(articlesOld)), Rows(DocumentUnits(articlesNew)),
                                 MappingChanges(DocumentUnits(articlesOld), DocumentUnits(articlesNew), sim, threshold, assignment))
  {
    var unitsOld := ExtractDocument(articlesOld);
    var unitsNew := ExtractDocument(articlesNew);
    if |unitsOld| == 0 && |unitsNew| == 0 {
      return [];
    }
    var nOld, nNew := |unitsOld|, |unitsNew|;
    var candidates := GlobalMatching(sim, nOld, nNew, assignment);
    var matched := ThresholdFilter(SortDesc(candidates), threshold);
    assert matched == MatchedPairs(sim, nOld, nNew, assignment, threshold);
    var splits, merges := DetectSplitsAndMerges(sim, nOld, nNew);
    SplitsExactly(sim, nOld, nNew);
    MergesExactly(sim, nOld, nNew);

    var textsOld, textsNew := Compared(unitsOld), Compared(unitsNew);
    var rowsOld, rowsNew := Rows(unitsOld), Rows(unitsNew);
    var modified := EmitModified(rowsOld, rowsNew, textsOld, textsNew, matched);
    var splitDeletes, splitOld := EmitSplitDeletes(rowsOld, rowsNew, splits);
    var mergeAdds, mergeNew := EmitMergeAdds(rowsOld, rowsNew, merges);
    var deletes := EmitResidualDeletes(rowsOld, rowsNew, RowsOf(matched), splitOld);
    var adds := EmitResidualAdds(rowsOld, rowsNew, ColsOf(matched), mergeNew, LegCols(splits));
    mapping := modified + splitDeletes + mergeAdds + deletes + adds;
    MappingSteps(unitsOld, unitsNew, sim, threshold, assignment);
  }

  // What the changelog says about each unit

  /** The only changes that pair two units come from step 1. */
  lemma OnlyStepOneModifies(textsOld: seq<string>, textsNew: seq<string>, matched: seq<Cand>,
                            splits: seq<Group>, merges: seq<Group>, c: Change)
    requires PairsInRange(matched, |textsOld|, |textsNew|)
    requires c in Changes(textsOld, textsNew, matched, splits, merges) && c.Modify?
    ensures c in ModifiedChanges(textsOld, textsNew, matched)
  {
    var m := ModifiedChanges(textsOld, textsNew, matched);
    var s, a := SplitDeletes(splits), MergeAdds(merges);
    var d := ResidualDeletes(|textsOld|, RowsOf(matched), Indices(splits));
    var e := ResidualAdds(|textsNew|, ColsOf(matched), Indices(merges), LegCols(splits));
    forall k | 0 <= k < |s| ensures s[k] != c { }
    forall k | 0 <= k < |a| ensures a[k] != c { }
    forall k | 0 <= k < |d| ensures d[k] != c { }
    forall k | 0 <= k < |e| ensures e[k] != c { }
  }

  /** A pairing change occurs in the changelog as often as in step 1. */
  lemma ModifyCount(textsOld: seq<string>, textsNew: seq<string>, matched: seq<Cand>,
                    splits: seq<Group>, merges: seq<Group>, c: Change)
    requires PairsInRange(matched, |textsOld|, |textsNew|)
    requires c.Modify?
    ensures multiset(Changes(textsOld, textsNew, matched, splits, merges))[c]
            == multiset(ModifiedChanges(textsOld, textsNew, matched))[c]
  {
    var m := ModifiedChanges(textsOld, textsNew, matched);
    var sd, ma := SplitDeletes(splits), MergeAdds(merges);
    var d := ResidualDeletes(|textsOld|, RowsOf(matched), Indices(splits));
    var e := ResidualAdds(|textsNew|, ColsOf(matched), Indices(merges), LegCols(splits));
    forall k | 0 <= k < |sd| ensures sd[k] != c { }
    forall k | 0 <= k < |ma| ensures ma[k] != c { }
    forall k | 0 <= k < |d| ensures d[k] != c { }
    forall k | 0 <= k < |e| ensures e[k] != c { }
    assert multiset(m + sd)[c] == multiset(m)[c];
    assert multiset(m + sd + ma)[c] == multiset(m)[c];
    assert multiset(m + sd + ma + d)[c] == multiset(m)[c];
  }

  lemma OneToOneDistinct(ps: seq<Cand>)
    requires OneToOne(ps)
    ensures Distinct(ps)
  {
    forall x, y | 0 <= x < y < |ps| ensures ps[x] != ps[y] {
      assert ps[x].r != ps[y].r;
    }
  }

  /** Each matched pair whose compared texts differ is reported once as
      modified, with its score; any other pair is not reported as
      modified. */
  lemma ModifiedOnce(textsOld: seq<string>, textsNew: seq<string>, matched: seq<Cand>,
                     splits: seq<Group>, merges: seq<Group>, i: nat, j: nat, s: real)
    requires PairsInRange(matched, |textsOld|, |textsNew|)
    requires OneToOne(matched)
    ensures multiset(Changes(textsOld, textsNew, matched, splits, merges))[Modify(i, j, s)]
            == if Cand(i, j, s) in matched && textsOld[i] != textsNew[j] then 1 else 0
  {
    ModifyCount(textsOld, textsNew, matched, splits, merges, Modify(i, j, s));
    OneToOneDistinct(matched);
    ModifiedChangesMembers(textsOld, textsNew, matched);
    ModifiedChangesDistinct(textsOld, textsNew, matched);
    DistinctCount(ModifiedChanges(textsOld, textsNew, matched), Modify(i, j, s));
  }

  /** An old unit is deleted at most once. It is deleted exactly when it is
      a split source, or an unmatched unit. A matched split source is
      therefore both matched and deleted. */
  lemma DeletedOnce(textsOld: seq<string>, textsNew: seq<string>, matched: seq<Cand>,
                    splits: seq<Group>, merges: seq<Group>, i: nat)
    requires PairsInRange(matched, |textsOld|, |textsNew|)
    requires IncreasingIndices(splits)
    ensures multiset(Changes(textsOld, textsNew, matched, splits, merges))[Delete(i)]
            == if i in Indices(splits) || (i < |textsOld| && i !in RowsOf(matched)) then 1 else 0
  {
    var c := Delete(i);
    var m := ModifiedChanges(textsOld, textsNew, matched);
    var s, a := SplitDeletes(splits), MergeAdds(merges);
    var d := ResidualDeletes(|textsOld|, RowsOf(matched), Indices(splits));
    var e := ResidualAdds(|textsNew|, ColsOf(matched), Indices(merges), LegCols(splits));
    assert multiset(m)[c] == 0 by {
      ModifiedChangesMembers(textsOld, textsNew, matched);
    }
    assert multiset(a)[c] == 0 by {
      forall k | 0 <= k < |a| ensures a[k] != c { }
    }
    assert multiset(e)[c] == 0 by {
      forall k | 0 <= k < |e| ensures e[k] != c { }
    }
    assert multiset(s)[c] == if i in Indices(splits) then 1 else 0 by {
      GroupChanges(splits, merges);
      DistinctCount(s, c);
    }
    ResidualDeleteCount(|textsOld|, RowsOf(matched), Indices(splits), i);
    assert multiset(m + s + a)[c] == multiset(s)[c];
    assert multiset(m + s + a + d + e)[c] == multiset(s)[c] + multiset(d)[c];
  }

  /** Step 4 deletes an old unit once if it is neither matched nor split,
      and otherwise never. */
  lemma ResidualDeleteCount(n: nat, matchedOld: set<nat>, splitOld: set<nat>, i: nat)
    ensures multiset(ResidualDeletes(n, matchedOld, splitOld))[Delete(i)]
            == if i < n && i !in matchedOld && i !in splitOld then 1 else 0
  {
    var d := ResidualDeletes(n, matchedOld, splitOld);
    ResidualDeletesIncreasing(n, matchedOld, splitOld);
    assert Distinct(d) by {
      forall x, y | 0 <= x < y < |d| ensures d[x] != d[y] {
        assert d[x].i < d[y].i;
      }
    }
    DistinctCount(d, Delete(i));
    if i < n && i !in matchedOld && i !in splitOld {
      ResidualDeletesComplete(n, matchedOld, splitOld, i);
    }
  }

  /** Step 5 adds a new unit once if it is neither matched, merged nor a
      split leg, and otherwise never. */
  lemma ResidualAddCount(n: nat, matchedNew: set<nat>, mergeNew: set<nat>, splitNew: set<nat>, j: nat)
    ensures multiset(ResidualAdds(n, matchedNew, mergeNew, splitNew))[Add(j)]
            == if j < n && j !in matchedNew && j !in mergeNew && j !in splitNew then 1 else 0
  {
    var e := ResidualAdds(n, matchedNew, mergeNew, splitNew);
    ResidualAddsIncreasing(n, matchedNew, mergeNew, splitNew);
    assert Distinct(e) by {
      forall x, y | 0 <= x < y < |e| ensures e[x] != e[y] {
        assert e[x].j < e[y].j;
      }
    }
    DistinctCount(e, Add(j));
    if j < n && j !in matchedNew && j !in mergeNew && j !in splitNew {
      ResidualAddsComplete(n, matchedNew, mergeNew, splitNew, j);
    }
  }

  /** A new unit is added at most once. It is added exactly when it is a
      merge target, or an unmatched unit that is not a leg of a split. */
  lemma AddedOnce(textsOld: seq<string>, textsNew: seq<string>, matched: seq<Cand>,
                  splits: seq<Group>, merges: seq<Group>, j: nat)
    requires PairsInRange(matched, |textsOld|, |textsNew|)
    requires IncreasingIndices(merges)
    ensures multiset(Changes(textsOld, textsNew, matched, splits, merges))[Add(j)]
            == if j in Indices(merges) || (j < |textsNew| && j !in ColsOf(matched) && j !in LegCols(splits)) then 1 else 0
  {
    var c := Add(j);
    var m := ModifiedChanges(textsOld, textsNew, matched);
    var s, a := SplitDeletes(splits), MergeAdds(merges);
    var d := ResidualDeletes(|textsOld|, RowsOf(matched), Indices(splits));
    var e := ResidualAdds(|textsNew|, ColsOf(matched), Indices(merges), LegCols(splits));
    assert multiset(m)[c] == 0 by {
      ModifiedChangesMembers(textsOld, textsNew, matched);
    }
    assert multiset(s)[c] == 0 by {
      forall k | 0 <= k < |s| ensures s[k] != c { }
    }
    assert multiset(d)[c] == 0 by {
      forall k | 0 <= k < |d| ensures d[k] != c { }
    }
    assert multiset(a)[c] == if j in Indices(merges) then 1 else 0 by {
      GroupChanges(splits, merges);
      DistinctCount(a, c);
    }
    ResidualAddCount(|textsNew|, ColsOf(matched), Indices(merges), LegCols(splits), j);
    assert multiset(m + s + a + d)[c] == multiset(a)[c];
    assert multiset(m + s + a + d + e)[c] == multiset(a)[c] + multiset(e)[c];
  }

  /** A `modified` entry joins an old and a new unit. Its similarity reaches
      the threshold, and the texts it shows before and after differ: a
      matched pair with unchanged text yields no entry. */
  lemma ModifiedEntries(unitsOld: seq<TextUnit>, unitsNew: seq<TextUnit>, sim: seq<seq<real>>,
                        threshold: real, assignment: Option<seq<(nat, nat)>>)
    requires IsMatrix(sim, |unitsOld|, |unitsNew|)
    ensures var es := RenderAll(Rows(unitsOld), Rows(unitsNew), MappingChanges(unitsOld, unitsNew, sim, threshold, assignment));
      forall k :: 0 <= k < |es| && es[k].changeType == Modified ==>
        es[k].unitOld.Some? && es[k].unitNew.Some?
        && es[k].similarity >= threshold && es[k].beforeChange != es[k].afterChange
  {
    var cs := MappingChanges(unitsOld, unitsNew, sim, threshold, assignment);
    var es := RenderAll(Rows(unitsOld), Rows(unitsNew), cs);
    forall k | 0 <= k < |es| && es[k].changeType == Modified
      ensures es[k].unitOld.Some? && es[k].unitNew.Some?
        && es[k].similarity >= threshold && es[k].beforeChange != es[k].afterChange
    {
      RenderedModify(Rows(unitsOld), Rows(unitsNew), cs, k);
      ModifiedEntry(unitsOld, unitsNew, sim, threshold, assignment, k);
    }
  }

  /** A `modified` entry stands for a pairing change, and shows its score
      and the two rows it pairs. */
  lemma RenderedModify(rowsOld: seq<Row>, rowsNew: seq<Row>, cs: seq<Change>, k: nat)
    requires AllInRange(cs, |rowsOld|, |rowsNew|)
    requires k < |cs| && RenderAll(rowsOld, rowsNew, cs)[k].changeType == Modified
    ensures cs[k].Modify? && cs[k].i < |rowsOld| && cs[k].j < |rowsNew|
    ensures RenderAll(rowsOld, rowsNew, cs)[k]
      == Entry(Some(rowsOld[cs[k].i].ref), Some(rowsNew[cs[k].j].ref), cs[k].s, Modified,
               rowsOld[cs[k].i].shown, rowsNew[cs[k].j].shown)
  {
    assert InRange(cs[k], |rowsOld|, |rowsNew|);
  }

  lemma MappingChangesUnfold(unitsOld: seq<TextUnit>, unitsNew: seq<TextUnit>, sim: seq<seq<real>>,
                             threshold: real, assignment: Option<seq<(nat, nat)>>)
    requires IsMatrix(sim, |unitsOld|, |unitsNew|)
    requires unitsOld != [] || unitsNew != []
    ensures var nOld, nNew := |unitsOld|, |unitsNew|;
      MappingChanges(unitsOld, unitsNew, sim, threshold, assignment)
      == Changes(Compared(unitsOld), Compared(unitsNew), MatchedPairs(sim, nOld, nNew, assignment, threshold),
                 Splits(sim, nOld, nNew), Merges(sim, nOld, nNew))
  {
  }

  lemma ModifiedEntry(unitsOld: seq<TextUnit>, unitsNew: seq<TextUnit>, sim: seq<seq<real>>,
                      threshold: real, assignment: Option<seq<(nat, nat)>>, k: nat)
    requires IsMatrix(sim, |unitsOld|, |unitsNew|)
    requires var cs := MappingChanges(unitsOld, unitsNew, sim, threshold, assignment);
      k < |cs| && cs[k].Modify?
    ensures var c := MappingChanges(unitsOld, unitsNew, sim, threshold, assignment)[k];
      c.s >= threshold
      && NormalizeForOutput(Some(unitsOld[c.i].text)) != NormalizeForOutput(Some(unitsNew[c.j].text))
  {
    var nOld, nNew := |unitsOld|, |unitsNew|;
    var cs := MappingChanges(unitsOld, unitsNew, sim, threshold, assignment);
    var c := cs[k];
    var matched := MatchedPairs(sim, nOld, nNew, assignment, threshold);
    var textsOld, textsNew := Compared(unitsOld), Compared(unitsNew);
    var splits, merges := Splits(sim, nOld, nNew), Merges(sim, nOld, nNew);
    MappingChangesUnfold(unitsOld, unitsNew, sim, threshold, assignment);
    OnlyStepOneModifies(textsOld, textsNew, matched, splits, merges, c);
    ModifiedChangesMembers(textsOld, textsNew, matched);
    assert Cand(c.i, c.j, c.s) in matched && textsOld[c.i] != textsNew[c.j];
    assert textsOld[c.i] == NormalizeForCompare(Some(unitsOld[c.i].text));
    assert textsNew[c.j] == NormalizeForCompare(Some(unitsNew[c.j].text));
    OutputIsCompare(Some(unitsOld[c.i].text));
    OutputIsCompare(Some(unitsNew[c.j].text));
  }
}

=== FILE: matching.dfy ===
/** One-to-one matching of old units to new units over a similarity matrix:
    the greedy fallback of `global_optimal_matching`, the pairs kept from an
    optimal assignment, and the threshold filter of `generate_mapping`. */
module Matching {
  import opened Wrappers
  import opened Seqs
  import opened Scoring

  /** `sim` has `nOld` rows of `nNew` entries each. The column count is
      explicit because a matrix without rows still has one. */
  predicate IsMatrix(sim: seq<seq<real>>, nOld: nat, nNew: nat) {
    |sim| == nOld && forall r :: 0 <= r < nOld ==> |sim[r]| == nNew
  }

  /** No entry is negative, as for a cosine similarity of TF-IDF vectors. */
  predicate NonNegative(sim: seq<seq<real>>) {
    forall r, c :: 0 <= r < |sim| && 0 <= c < |sim[r]| ==> sim[r][c] >= 0.0
  }

  /** The cells of row `r`, column by column. */
  function RowCells(sim: seq<seq<real>>, r: nat, nNew: nat): (cells: seq<Cand>)
    requires r < |sim| && |sim[r]| == nNew
    ensures |cells| == nNew
  {
    seq(nNew, c requires 0 <= c < nNew => Cand(r, c, sim[r][c]))
  }

  /** Row `r` lists every cell of that row with its score, and nothing else,
      by increasing column. */
  lemma RowCellsExactly(sim: seq<seq<real>>, r: nat, nNew: nat)
    requires r < |sim| && |sim[r]| == nNew
    ensures forall x :: x in RowCells(sim, r, nNew) <==> x.r == r && x.c < nNew && x.s == sim[r][x.c]
    ensures LexIncreasing(RowCells(sim, r, nNew))
  {
    var cells := RowCells(sim, r, nNew);
    forall x: Cand | x.r == r && x.c < nNew && x.s == sim[r][x.c] ensures x in cells {
      assert cells[x.c] == x;
    }
  }

  /** The cells of the first `n` rows in row-major order. */
  function CellsUpTo(sim: seq<seq<real>>, n: nat, nNew: nat): (cells: seq<Cand>)
    requires n <= |sim| && forall r :: 0 <= r < n ==> |sim[r]| == nNew
    ensures forall x :: x in cells <==> x.r < n && x.c < nNew && x.s == sim[x.r][x.c]
  {
    if n == 0 then []
    else
      RowCellsExactly(sim, n - 1, nNew);
      CellsUpTo(sim, n - 1, nNew) + RowCells(sim, n - 1, nNew)
  }

  /** Row-major order of the cells: every cell of a row precedes those of
      later rows, and inside a row the columns increase. */
  lemma {:induction false} CellsUpToRowMajor(sim: seq<seq<real>>, n: nat, nNew: nat)
    requires n <= |sim| && forall r :: 0 <= r < n ==> |sim[r]| == nNew
    ensures LexIncreasing(CellsUpTo(sim, n, nNew))
  {
    if n > 0 {
      CellsUpToRowMajor(sim, n - 1, nNew);
      var a, b := CellsUpTo(sim, n - 1, nNew), RowCells(sim, n - 1, nNew);
      var xs := a + b;
      forall i, j | 0 <= i < j < |xs| ensures LexLt(xs[i], xs[j]) {
        if j < |a| {
        } else if i >= |a| {
          assert xs[i] == b[i - |a|] && xs[j] == b[j - |a|];
        } else {
          assert xs[i] in a;
          assert xs[j] == b[j - |a|];
        }
      }
    }
  }

  /** `np.transpose(np.nonzero(sim >= 0.0))` with each cell's score: the
      non-negative cells in row-major order. */
  function Cells(sim: seq<seq<real>>, nOld: nat, nNew: nat): (cells: seq<Cand>)
    requires IsMatrix(sim, nOld, nNew)
  {
    AtLeast(CellsUpTo(sim, nOld, nNew), 0.0)
  }

  /** The pairs of one-to-one matching: no row and no column is used twice. */
  predicate OneToOne(ps: seq<Cand>) {
    forall i, j :: 0 <= i < j < |ps| ==> ps[i].r != ps[j].r && ps[i].c != ps[j].c
  }

  function RowsOf(ps: seq<Cand>): set<nat> {
    set x | x in ps :: x.r
  }

  function ColsOf(ps: seq<Cand>): set<nat> {
    set x | x in ps :: x.c
  }

  /** The claiming loop shared by the greedy matcher: candidates are taken in
      order, and one is kept when neither its row nor its column has been
      claimed yet, which then claims both. */
  function Claim(cand: seq<Cand>, rows: set<nat>, cols: set<nat>): seq<Cand>
  {
    if cand == [] then []
    else
      var x := cand[0];
      if x.r in rows || x.c in cols then Claim(cand[1..], rows, cols)
      else [x] + Claim(cand[1..], rows + {x.r}, cols + {x.c})
  }

  /** The greedy branch of `global_optimal_matching`. */
  function Greedy(sim: seq<seq<real>>, nOld: nat, nNew: nat): seq<Cand>
    requires IsMatrix(sim, nOld, nNew)
  {
    Claim(SortDesc(Cells(sim, nOld, nNew)), {}, {})
  }

  /** What claiming keeps: candidates only, in their order, one-to-one, and
      on rows and columns not claimed before. */
  lemma {:induction false} ClaimKeeps(cand: seq<Cand>, rows: set<nat>, cols: set<nat>)
    ensures forall x :: x in Claim(cand, rows, cols) ==> x in cand && x.r !in rows && x.c !in cols
    ensures OneToOne(Claim(cand, rows, cols))
    ensures RankedStrictly(cand) ==> RankedStrictly(Claim(cand, rows, cols))
  {
    if cand != [] {
      var x := cand[0];
      var tail := cand[1..];
      if RankedStrictly(cand) {
        TailRanked(cand);
      }
      if x.r in rows || x.c in cols {
        ClaimKeeps(tail, rows, cols);
      } else {
        ClaimKeeps(tail, rows + {x.r}, cols + {x.c});
        var rest := Claim(tail, rows + {x.r}, cols + {x.c});
        ConsOneToOne(x, rest);
        if RankedStrictly(cand) {
          forall k | 0 <= k < |rest| ensures Before(x, rest[k]) {
            assert rest[k] in rest;
            var m :| 0 <= m < |tail| && tail[m] == rest[k];
          }
          ConsRanked(x, rest);
        }
      }
    }
  }

  /** Claiming leaves no candidate whose row and column are both still free:
      each one lost to a row or a column claimed before it or by it. */
  lemma {:induction false} ClaimMaximal(cand: seq<Cand>, rows: set<nat>, cols: set<nat>)
    ensures forall x :: x in cand ==>
      x.r in rows + RowsOf(Claim(cand, rows, cols)) || x.c in cols + ColsOf(Claim(cand, rows, cols))
  {
    if cand != [] {
      var x := cand[0];
      var tail := cand[1..];
      if x.r in rows || x.c in cols {
        ClaimMaximal(tail, rows, cols);
      } else {
        ClaimMaximal(tail, rows + {x.r}, cols + {x.c});
        var rest := Claim(tail, rows + {x.r}, cols + {x.c});
        assert RowsOf([x] + rest) == {x.r} + RowsOf(rest);
        assert ColsOf([x] + rest) == {x.c} + ColsOf(rest);
      }
      forall y | y in cand
        ensures y.r in rows + RowsOf(Claim(cand, rows, cols)) || y.c in cols + ColsOf(Claim(cand, rows, cols))
      {
        if y != x { assert y in tail; }
      }
    }
  }

  /** A candidate list that is already one-to-one, on rows and columns not
      yet claimed, is kept whole. */
  lemma {:induction false} ClaimOneToOne(cand: seq<Cand>, rows: set<nat>, cols: set<nat>)
    requires OneToOne(cand)
    requires forall x :: x in cand ==> x.r !in rows && x.c !in cols
    ensures Claim(cand, rows, cols) == cand
  {
    if cand != [] {
      var x := cand[0];
      var tail := cand[1..];
      assert OneToOne(tail) by {
        forall i, j | 0 <= i < j < |tail| ensures tail[i].r != tail[j].r && tail[i].c != tail[j].c {
          assert cand[i + 1] == tail[i] && cand[j + 1] == tail[j];
        }
      }
      forall y | y in tail ensures y.r !in rows + {x.r} && y.c !in cols + {x.c} {
        var m :| 0 <= m < |tail| && tail[m] == y;
        assert cand[m + 1] == y;
      }
      ClaimOneToOne(tail, rows + {x.r}, cols + {x.c});
      assert cand == [x] + tail;
    }
  }

  /** The tail of a one-to-one list is one-to-one and avoids the head's row
      and column. */
  lemma OneToOneTail(ps: seq<Cand>)
    requires ps != [] && OneToOne(ps)
    ensures OneToOne(ps[1..])
    ensures forall y :: y in ps[1..] ==> y.r != ps[0].r && y.c != ps[0].c
  {
    var tail := ps[1..];
    forall i, j | 0 <= i < j < |tail| ensures tail[i].r != tail[j].r && tail[i].c != tail[j].c {
      assert ps[i + 1] == tail[i] && ps[j + 1] == tail[j];
    }
    forall y | y in tail ensures y.r != ps[0].r && y.c != ps[0].c {
      var m :| 0 <= m < |tail| && tail[m] == y;
      assert ps[m + 1] == y;
    }
  }

  lemma ConsOneToOne(x: Cand, rest: seq<Cand>)
    requires OneToOne(rest)
    requires forall y :: y in rest ==> y.r != x.r && y.c != x.c
    ensures OneToOne([x] + rest)
  {
    var res := [x] + rest;
    forall i, j | 0 <= i < j < |res| ensures res[i].r != res[j].r && res[i].c != res[j].c {
      assert res[j] == rest[j - 1];
      if i > 0 {
        assert res[i] == rest[i - 1];
      }
    }
  }

  lemma RowsColsCons(x: Cand, tail: seq<Cand>)
    ensures RowsOf([x] + tail) == {x.r} + RowsOf(tail)
    ensures ColsOf([x] + tail) == {x.c} + ColsOf(tail)
  {
  }

  /** One pair per row and per column: a one-to-one list uses as many rows
      and as many columns as it has pairs. */
  lemma {:induction false} OneToOneCounts(ps: seq<Cand>)
    requires OneToOne(ps)
    ensures |RowsOf(ps)| == |ps| && |ColsOf(ps)| == |ps|
  {
    if ps != [] {
      var x, tail := ps[0], ps[1..];
      OneToOneTail(ps);
      OneToOneCounts(tail);
      assert ps == [x] + tail;
      RowsColsCons(x, tail);
      assert x.r !in RowsOf(tail);
      assert x.c !in ColsOf(tail);
    }
  }

  /** The indices below `n`. */
  function Range(n: nat): (s: set<nat>)
    ensures forall k: nat :: k in s <==> k < n
    ensures |s| == n
  {
    if n == 0 then {} else Range(n - 1) + {n - 1}
  }

  /** A set of indices below `n` has at most `n` elements, and one with fewer
      misses some index below `n`. */
  lemma IndexSetBound(s: set<nat>, n: nat)
    requires forall k :: k in s ==> k < n
    ensures |s| <= n
    ensures |s| < n ==> exists k: nat :: k < n && k !in s
  {
    assert s <= Range(n);
    assert |Range(n) - s| + |s| == n by {
      assert Range(n) == (Range(n) - s) + s;
    }
    if |s| < n {
      assert Range(n) - s != {};
      var k :| k in Range(n) - s;
    }
  }

  /** Every pair the greedy matcher returns is a cell of the matrix with its
      score; no row or column is used twice; the pairs come by descending
      score, ties in row-major order. */
  lemma GreedyPairs(sim: seq<seq<real>>, nOld: nat, nNew: nat)
    requires IsMatrix(sim, nOld, nNew)
    ensures OneToOne(Greedy(sim, nOld, nNew))
    ensures RankedStrictly(Greedy(sim, nOld, nNew))
    ensures forall p :: p in Greedy(sim, nOld, nNew) ==>
      p.r < nOld && p.c < nNew && p.s == sim[p.r][p.c] && p.s >= 0.0
  {
    var all := CellsUpTo(sim, nOld, nNew);
    CellsUpToRowMajor(sim, nOld, nNew);
    AtLeastRowMajor(all, 0.0);
    SortRanked(Cells(sim, nOld, nNew));
    ClaimKeeps(SortDesc(Cells(sim, nOld, nNew)), {}, {});
    forall p | p in Greedy(sim, nOld, nNew)
      ensures p.r < nOld && p.c < nNew && p.s == sim[p.r][p.c] && p.s >= 0.0
    {
      assert p in multiset(SortDesc(Cells(sim, nOld, nNew)));
      assert p in Cells(sim, nOld, nNew);
    }
  }

  /** Keeping the elements of a row-major list that reach a score keeps it
      row-major. */
  lemma {:induction false} AtLeastRowMajor(xs: seq<Cand>, t: real)
    requires LexIncreasing(xs)
    ensures LexIncreasing(AtLeast(xs, t))
  {
    if xs != [] {
      var tail := xs[1..];
      TailLex(xs);
      AtLeastRowMajor(tail, t);
      var rest := AtLeast(tail, t);
      if xs[0].s >= t {
        forall k | 0 <= k < |rest| ensures LexLt(xs[0], rest[k]) {
          var m :| 0 <= m < |tail| && tail[m] == rest[k];
        }
        ConsLex(xs[0], rest);
      } else {
        assert AtLeast(xs, t) == rest;
      }
    }
  }

  /** On a matrix without negative entries every cell is a candidate, so
      every cell shares its row or its column with a greedy pair. */
  lemma GreedyCovers(sim: seq<seq<real>>, nOld: nat, nNew: nat)
    requires IsMatrix(sim, nOld, nNew) && NonNegative(sim)
    ensures forall r, c :: 0 <= r < nOld && 0 <= c < nNew ==>
      r in RowsOf(Greedy(sim, nOld, nNew)) || c in ColsOf(Greedy(sim, nOld, nNew))
  {
    var cand := SortDesc(Cells(sim, nOld, nNew));
    ClaimMaximal(cand, {}, {});
    forall r, c | 0 <= r < nOld && 0 <= c < nNew
      ensures r in RowsOf(Greedy(sim, nOld, nNew)) || c in ColsOf(Greedy(sim, nOld, nNew))
    {
      var x := Cand(r, c, sim[r][c]);
      assert x in CellsUpTo(sim, nOld, nNew);
      assert x in Cells(sim, nOld, nNew);
      assert x in multiset(cand);
    }
  }

  /** On a matrix without negative entries the greedy matching is maximal:
      it pairs every row or every column, `min(n_old, n_new)` pairs. */
  lemma GreedyMaximal(sim: seq<seq<real>>, nOld: nat, nNew: nat)
    requires IsMatrix(sim, nOld, nNew) && NonNegative(sim)
    ensures |Greedy(sim, nOld, nNew)| == if nOld <= nNew then nOld else nNew
  {
    var res := Greedy(sim, nOld, nNew);
    GreedyPairs(sim, nOld, nNew);
    OneToOneCounts(res);
    var rows, cols := RowsOf(res), ColsOf(res);
    IndexSetBound(rows, nOld);
    IndexSetBound(cols, nNew);
    if |res| < nOld && |res| < nNew {
      var r: nat :| r < nOld && r !in rows;
      var c: nat :| c < nNew && c !in cols;
      GreedyCovers(sim, nOld, nNew);
      assert false;
    }
  }

  /** `global_optimal_matching` with greedy fallback: sorts the
      non-negative cells by descending score and claims them in turn. */
  method GreedyMatching(sim: seq<seq<real>>, nOld: nat, nNew: nat) returns (pairs: seq<Cand>)
    requires IsMatrix(sim, nOld, nNew)
    ensures pairs == Greedy(sim, nOld, nNew)
    ensures OneToOne(pairs) && RankedStrictly(pairs)
    ensures forall p :: p in pairs ==> p.r < nOld && p.c < nNew && p.s == sim[p.r][p.c]
    ensures NonNegative(sim) ==> |pairs| == if nOld <= nNew then nOld else nNew
  {
    var cand := Cells(sim, nOld, nNew);
    cand := SortDesc(cand);
    var matchedOld: set<nat> := {};
    var matchedNew: set<nat> := {};
    pairs := [];
    var k := 0;
    while k < |cand|
      invariant k <= |cand|
      invariant pairs + Claim(cand[k..], matchedOld, matchedNew) == Claim(cand, {}, {})
    {
      var x := cand[k];
      assert cand[k..] == [x] + cand[k + 1..];
      if x.r in matchedOld || x.c in matchedNew {
      } else {
        matchedOld := matchedOld + {x.r};
        matchedNew := matchedNew + {x.c};
        AppendAssoc(pairs, [x], Claim(cand[k + 1..], matchedOld, matchedNew));
        pairs := pairs + [x];
      }
      k := k + 1;
    }
    assert pairs + [] == pairs;
    GreedyPairs(sim, nOld, nNew);
    if NonNegative(sim) {
      GreedyMaximal(sim, nOld, nNew);
    }
  }

  /** The pairs the optimal assignment yields: `assignment` lists the
      (row, column) pairs the solver picked on the square padded matrix; the
      ones inside the real matrix are kept with their score. */
  function AssignedPairs(sim: seq<seq<real>>, nOld: nat, nNew: nat, assignment: seq<(nat, nat)>): (ps: seq<Cand>)
    requires IsMatrix(sim, nOld, nNew)
    ensures forall p :: p in ps ==> p.r < nOld && p.c < nNew && p.s == sim[p.r][p.c]
  {
    if assignment == [] then []
    else
      var (r, c) := assignment[|assignment| - 1];
      AssignedPairs(sim, nOld, nNew, assignment[..|assignment| - 1])
      + (if r < nOld && c < nNew then [Cand(r, c, sim[r][c])] else [])
  }

  /** The solver returns an assignment: no row and no column twice. */
  predicate IsAssignment(assignment: seq<(nat, nat)>) {
    forall i, j :: 0 <= i < j < |assignment| ==>
      assignment[i].0 != assignment[j].0 && assignment[i].1 != assignment[j].1
  }

  /** The pairs drawn from an assignment are one-to-one too. */
  lemma {:induction false} AssignedOneToOne(sim: seq<seq<real>>, nOld: nat, nNew: nat, assignment: seq<(nat, nat)>)
    requires IsMatrix(sim, nOld, nNew) && IsAssignment(assignment)
    ensures OneToOne(AssignedPairs(sim, nOld, nNew, assignment))
    ensures forall p :: p in AssignedPairs(sim, nOld, nNew, assignment) ==> (p.r, p.c) in assignment
  {
    if assignment != [] {
      var n := |assignment| - 1;
      var front := assignment[..n];
      assert IsAssignment(front) by {
        forall i, j | 0 <= i < j < |front| ensures front[i].0 != front[j].0 && front[i].1 != front[j].1 {
          assert front[i] == assignment[i] && front[j] == assignment[j];
        }
      }
      AssignedOneToOne(sim, nOld, nNew, front);
      var rest := AssignedPairs(sim, nOld, nNew, front);
      var (r, c) := assignment[n];
      var tailPart: seq<Cand> := if r < nOld && c < nNew then [Cand(r, c, sim[r][c])] else [];
      var ps := rest + tailPart;
      forall p: Cand | p in ps ensures (p.r, p.c) in assignment {
        if p in rest {
          var m :| 0 <= m < |front| && front[m] == (p.r, p.c);
          assert assignment[m] == front[m];
        }
      }
      forall i, j | 0 <= i < j < |ps| ensures ps[i].r != ps[j].r && ps[i].c != ps[j].c {
        if j >= |rest| {
          assert ps[i] in rest;
          var m :| 0 <= m < |front| && front[m] == (ps[i].r, ps[i].c);
          assert assignment[m] == front[m];
          assert ps[j] == Cand(r, c, sim[r][c]);
        } else {
          assert ps[i] == rest[i] && ps[j] == rest[j];
        }
      }
    }
  }

  /** The loop keeping the assignment's pairs that fall inside the matrix. */
  method OptimalPairs(sim: seq<seq<real>>, nOld: nat, nNew: nat, assignment: seq<(nat, nat)>) returns (pairs: seq<Cand>)
    requires IsMatrix(sim, nOld, nNew)
    ensures pairs == AssignedPairs(sim, nOld, nNew, assignment)
    ensures IsAssignment(assignment) ==> OneToOne(pairs)
  {
    pairs := [];
    var k := 0;
    while k < |assignment|
      invariant k <= |assignment|
      invariant pairs == AssignedPairs(sim, nOld, nNew, assignment[..k])
    {
      var (r, c) := assignment[k];
      if r < nOld && c < nNew {
        pairs := pairs + [Cand(r, c, sim[r][c])];
      }
      assert assignment[..k + 1][..k] == assignment[..k];
      k := k + 1;
    }
    assert assignment[..k] == assignment;
    if IsAssignment(assignment) {
      AssignedOneToOne(sim, nOld, nNew, assignment);
    }
  }

  /** `global_optimal_matching`: the optimal assignment when a solver result
      is given, the greedy matching otherwise. Either way one-to-one pairs of
      cells of the matrix with their scores. */
  method GlobalMatching(sim: seq<seq<real>>, nOld: nat, nNew: nat, assignment: Option<seq<(nat, nat)>>)
    returns (pairs: seq<Cand>)
    requires IsMatrix(sim, nOld, nNew)
    requires assignment.Some? ==> IsAssignment(assignment.value)
    ensures pairs == Candidates(sim, nOld, nNew, assignment)
    ensures OneToOne(pairs)
    ensures forall p :: p in pairs ==> p.r < nOld && p.c < nNew && p.s == sim[p.r][p.c]
  {
    if assignment.Some? {
      pairs := OptimalPairs(sim, nOld, nNew, assignment.value);
    } else {
      pairs := GreedyMatching(sim, nOld, nNew);
    }
  }

  function Candidates(sim: seq<seq<real>>, nOld: nat, nNew: nat, assignment: Option<seq<(nat, nat)>>): seq<Cand>
    requires IsMatrix(sim, nOld, nNew)
  {
    if assignment.Some? then AssignedPairs(sim, nOld, nNew, assignment.value) else Greedy(sim, nOld, nNew)
  }

  /** The threshold filter of `generate_mapping`: a candidate whose row or
      column is taken is skipped; otherwise it is kept, and claims both, only
      when its score reaches the threshold. */
  function Kept(cand: seq<Cand>, threshold: real, rows: set<nat>, cols: set<nat>): seq<Cand>
  {
    if cand == [] then []
    else
      var x := cand[0];
      if x.r in rows || x.c in cols then Kept(cand[1..], threshold, rows, cols)
      else if x.s >= threshold then [x] + Kept(cand[1..], threshold, rows + {x.r}, cols + {x.c})
      else Kept(cand[1..], threshold, rows, cols)
  }

  /** A candidate below the threshold never claims its row or column: the
      filter is the claiming loop run on the candidates that reach the
      threshold. */
  lemma {:induction false} KeptIsClaimAbove(cand: seq<Cand>, threshold: real, rows: set<nat>, cols: set<nat>)
    ensures Kept(cand, threshold, rows, cols) == Claim(AtLeast(cand, threshold), rows, cols)
  {
    if cand != [] {
      var x := cand[0];
      if x.r in rows || x.c in cols {
        KeptIsClaimAbove(cand[1..], threshold, rows, cols);
      } else if x.s >= threshold {
        KeptIsClaimAbove(cand[1..], threshold, rows + {x.r}, cols + {x.c});
      } else {
        KeptIsClaimAbove(cand[1..], threshold, rows, cols);
      }
      if x.s >= threshold {
        assert AtLeast(cand, threshold) == [x] + AtLeast(cand[1..], threshold);
      } else {
        assert AtLeast(cand, threshold) == AtLeast(cand[1..], threshold);
      }
    }
  }

  /** The filter keeps a one-to-one subset of the candidates whose scores all
      reach the threshold; on a one-to-one candidate list it keeps exactly
      the candidates that reach the threshold, in their order. */
  lemma ThresholdLaw(cand: seq<Cand>, threshold: real)
    ensures OneToOne(Kept(cand, threshold, {}, {}))
    ensures forall p :: p in Kept(cand, threshold, {}, {}) ==> p in cand && p.s >= threshold
    ensures OneToOne(cand) ==> Kept(cand, threshold, {}, {}) == AtLeast(cand, threshold)
  {
    KeptIsClaimAbove(cand, threshold, {}, {});
    ClaimKeeps(AtLeast(cand, threshold), {}, {});
    if OneToOne(cand) {
      AtLeastOneToOne(cand, threshold);
      ClaimOneToOne(AtLeast(cand, threshold), {}, {});
    }
  }

  lemma {:induction false} AtLeastOneToOne(xs: seq<Cand>, t: real)
    requires OneToOne(xs)
    ensures OneToOne(AtLeast(xs, t))
  {
    if xs != [] {
      var tail := xs[1..];
      OneToOneTail(xs);
      AtLeastOneToOne(tail, t);
      var rest := AtLeast(tail, t);
      if xs[0].s >= t {
        ConsOneToOne(xs[0], rest);
        assert AtLeast(xs, t) == [xs[0]] + rest;
      } else {
        assert AtLeast(xs, t) == rest;
      }
    }
  }

  /** The loop of `generate_mapping` that keeps the candidate pairs reaching
      `match_threshold`. */
  method ThresholdFilter(cand: seq<Cand>, threshold: real) returns (matched: seq<Cand>)
    ensures matched == Kept(cand, threshold, {}, {})
    ensures OneToOne(matched)
    ensures forall p :: p in matched ==> p in cand && p.s >= threshold
    ensures OneToOne(cand) ==> matched == AtLeast(cand, threshold)
  {
    var matchedOld: set<nat> := {};
    var matchedNew: set<nat> := {};
    matched := [];
    var k := 0;
    while k < |cand|
      invariant k <= |cand|
      invariant matched + Kept(cand[k..], threshold, matchedOld, matchedNew) == Kept(cand, threshold, {}, {})
    {
      var x := cand[k];
      assert cand[k..] == [x] + cand[k + 1..];
      if x.r in matchedOld || x.c in matchedNew {
      } else if x.s >= threshold {
        matchedOld := matchedOld + {x.r};
        matchedNew := matchedNew + {x.c};
        AppendAssoc(matched, [x], Kept(cand[k + 1..], threshold, matchedOld, matchedNew));
        matched := matched + [x];
      }
      k := k + 1;
    }
    assert matched + [] == matched;
    ThresholdLaw(cand, threshold);
  }
}

=== FILE: normalize.dfy ===
/** The text normaliser of the mapping generator: one leading structural
    marker (`12.`, `3)`, `a)`, `đ.`) is removed, line breaks become spaces,
    whitespace runs shrink to one space and both ends are trimmed. */
module Normalize {
  import opened Wrappers
  import opened Text
  import opened Seqs

  /** The letter class `[A-Za-zÀ-ỹ]` of the leading-marker pattern. */
  predicate IsMarkerLetter(c: char) {
    ('A' <= c <= 'Z') || ('a' <= c <= 'z') || ('\U{00C0}' <= c <= '\U{1EF9}')
  }

  /** Length of the run of digits that starts `s`. */
  function DigitRun(s: string): (n: nat)
    ensures n <= |s|
    ensures forall k :: 0 <= k < n ==> IsDigit(s[k])
    ensures n == |s| || !IsDigit(s[n])
  {
    if s != [] && IsDigit(s[0]) then 1 + DigitRun(s[1..]) else 0
  }

  /** What follows a marker `\d+\.\s*`, `\d+\)\s*`, `L\)\s*` or `L\.\s*` that
      starts `u` (the alternatives of the pattern, tried in order), or `None`
      when `u` does not start with one. */
  function AfterMarker(u: string): (r: Option<string>)
    ensures r.Some? ==> |r.value| < |u|
    ensures r.Some? ==> r.value == [] || !IsSpace(r.value[0])
  {
    var d := DigitRun(u);
    if 0 < d < |u| && (u[d] == '.' || u[d] == ')') then Some(TrimLeft(u[d + 1..]))
    else if 2 <= |u| && IsMarkerLetter(u[0]) && (u[1] == ')' || u[1] == '.') then Some(TrimLeft(u[2..]))
    else None
  }

  /** `_LEADING_MARK_RE.sub('', t)`: the pattern is anchored with `^` and the
      text has no other start, so at most one marker goes, together with the
      whitespace around it; when no marker matches, `t` is left as it is. */
  function StripLeadingMarker(t: string): (r: string)
    ensures |r| <= |t|
  {
    var u := TrimLeft(t);
    match AfterMarker(u)
    case Some(rest) => rest
    case None => t
  }

  /** What follows the marker is a suffix of the text: the marker goes from
      the front and nothing else changes. */
  lemma MarkerSuffix(t: string)
    ensures StripLeadingMarker(t) == t[|t| - |StripLeadingMarker(t)|..]
  {
    var u := TrimLeft(t);
    TrimLeftSlice(t);
    AfterMarkerSuffix(u);
    match AfterMarker(u)
    case Some(rest) =>
      SuffixTrans(t, u, rest);
    case None =>
      assert t[|t| - |t|..] == t;
  }

  /** What follows a marker is a suffix of the text it starts. */
  lemma AfterMarkerSuffix(u: string)
    ensures AfterMarker(u).Some? ==> AfterMarker(u).value == u[|u| - |AfterMarker(u).value|..]
  {
    var d := DigitRun(u);
    if 0 < d < |u| && (u[d] == '.' || u[d] == ')') {
      var v := u[d + 1..];
      TrimLeftSlice(v);
      SuffixTrans(u, v, TrimLeft(v));
    } else if 2 <= |u| && IsMarkerLetter(u[0]) && (u[1] == ')' || u[1] == '.') {
      var v := u[2..];
      TrimLeftSlice(v);
      SuffixTrans(u, v, TrimLeft(v));
    }
  }

  /** The whitespace half of the pipeline: line breaks become spaces,
      `re.sub(r'\s+', ' ', t)`, then `strip()`. It changes whitespace only. */
  function Tidy(t: string): (r: string)
    ensures NoLineBreaks(r) && Trimmed(r) && PlainSpaces(r) && SingleSpaced(r)
  {
    var c := CollapseSpaces(LineBreaksToSpaces(t));
    StripKeeps(c);
    PlainHasNoLineBreaks(Strip(c));
    Strip(c)
  }

  /** `Tidy` changes whitespace only: the visible characters stay as they were. */
  lemma TidyVisible(t: string)
    ensures Squeeze(Tidy(t)) == Squeeze(t)
  {
    LineBreaksVisible(t);
    CollapseVisible(LineBreaksToSpaces(t));
    StripVisible(CollapseSpaces(LineBreaksToSpaces(t)));
  }

  lemma PlainHasNoLineBreaks(s: string)
    requires PlainSpaces(s)
    ensures NoLineBreaks(s)
  {
    assert IsSpace('\r') && IsSpace('\n');
  }

  /** A text that is already tidy comes out of `Tidy` unchanged. */
  lemma TidyKeepsTidy(t: string)
    requires NoLineBreaks(t) && Trimmed(t) && PlainSpaces(t) && SingleSpaced(t)
    ensures Tidy(t) == t
  {
    assert LineBreaksToSpaces(t) == t;
    CollapseKeepsSingle(t);
    StripKeepsTrimmed(t);
  }

  lemma {:induction false} CollapseKeepsSingle(t: string)
    requires PlainSpaces(t) && SingleSpaced(t)
    ensures CollapseSpaces(t) == t
  {
    if t != [] {
      var tail := t[1..];
      assert PlainSpaces(tail) && SingleSpaced(tail) by {
        forall k | 0 <= k < |tail| ensures tail[k] == t[k + 1] { }
      }
      CollapseKeepsSingle(tail);
      if IsSpace(t[0]) {
        assert tail == [] || !IsSpace(tail[0]) by {
          if tail != [] { assert tail[0] == t[1]; }
        }
        assert TrimLeft(t) == TrimLeft(tail) == tail;
      }
      assert t == [t[0]] + tail;
    }
  }

  lemma StripKeepsTrimmed(t: string)
    requires Trimmed(t)
    ensures Strip(t) == t
  {
  }

  /** `normalize_for_compare`: `""` for a missing or empty text; otherwise the
      result has no line break, no whitespace at either end, no other
      whitespace character than the plain space and never two of those in a
      row, and it shows the same visible characters as the text once its
      leading marker is gone. */
  function NormalizeForCompare(text: Option<string>): (r: string)
    ensures text.None? || text == Some("") ==> r == ""
    ensures NoLineBreaks(r) && Trimmed(r) && PlainSpaces(r) && SingleSpaced(r)
  {
    if text.None? || text.value == "" then ""
    else Tidy(StripLeadingMarker(Strip(text.value)))
  }

  /** Apart from its leading marker, the comparison text shows every visible
      character of the text, in order, and no other. */
  lemma CompareVisible(text: Option<string>)
    requires text.Some?
    ensures Squeeze(NormalizeForCompare(text)) == Squeeze(StripLeadingMarker(Strip(text.value)))
  {
    if text.value != "" {
      TidyVisible(StripLeadingMarker(Strip(text.value)));
    }
  }

  /** `normalize_for_output`: the same steps, written out a second time. */
  function NormalizeForOutput(text: Option<string>): (r: string)
    ensures text.None? || text == Some("") ==> r == ""
  {
    if text.None? || text.value == "" then ""
    else
      var t := Strip(text.value);
      var t := StripLeadingMarker(t);
      Strip(CollapseSpaces(LineBreaksToSpaces(t)))
  }

  /** The display text and the comparison text never differ. */
  lemma OutputIsCompare(text: Option<string>)
    ensures NormalizeForOutput(text) == NormalizeForCompare(text)
  {
  }

  /** A numeric marker `<digits>.` or `<digits>)` with the whitespace after
      it is removed, and nothing more, whatever follows it. */
  lemma {:induction false} NumericMarkerRemoved(digits: string, sep: char, spaces: string, rest: string)
    requires digits != [] && forall k :: 0 <= k < |digits| ==> IsDigit(digits[k])
    requires sep == '.' || sep == ')'
    requires forall k :: 0 <= k < |spaces| ==> IsSpace(spaces[k])
    requires rest == [] || !IsSpace(rest[0])
    ensures StripLeadingMarker(digits + [sep] + spaces + rest) == rest
  {
    var tail := [sep] + spaces + rest;
    var t := digits + tail;
    assert digits + [sep] + spaces + rest == t;
    assert !IsSpace(t[0]) by { assert t[0] == digits[0]; }
    assert TrimLeft(t) == t;
    DigitRunOf(digits, tail);
    assert t[|digits|] == sep;
    assert t[|digits| + 1..] == spaces + rest;
    TrimLeftOf(spaces, rest);
  }

  lemma {:induction false} DigitRunOf(digits: string, tail: string)
    requires forall k :: 0 <= k < |digits| ==> IsDigit(digits[k])
    requires tail == [] || !IsDigit(tail[0])
    ensures DigitRun(digits + tail) == |digits|
  {
    if digits != [] {
      assert (digits + tail)[1..] == digits[1..] + tail;
      DigitRunOf(digits[1..], tail);
    } else {
      assert digits + tail == tail;
    }
  }

  lemma {:induction false} TrimLeftOf(spaces: string, rest: string)
    requires forall k :: 0 <= k < |spaces| ==> IsSpace(spaces[k])
    requires rest == [] || !IsSpace(rest[0])
    ensures TrimLeft(spaces + rest) == rest
  {
    if spaces != [] {
      assert (spaces + rest)[1..] == spaces[1..] + rest;
      TrimLeftOf(spaces[1..], rest);
    } else {
      assert spaces + rest == rest;
    }
  }

  /** A tidy text: what the normaliser produces. */
  predicate IsTidy(s: string) {
    NoLineBreaks(s) && Trimmed(s) && PlainSpaces(s) && SingleSpaced(s)
  }

  /** A numbered unit such as "12. abc" loses its number and keeps the rest. */
  lemma NumberedTextLosesMarker(digits: string, sep: char, rest: string)
    requires digits != [] && forall k :: 0 <= k < |digits| ==> IsDigit(digits[k])
    requires sep == '.' || sep == ')'
    requires rest != [] && IsTidy(rest)
    ensures NormalizeForCompare(Some(digits + [sep, ' '] + rest)) == rest
  {
    var t := digits + [sep, ' '] + rest;
    assert t == digits + [sep] + " " + rest;
    assert t[0] == digits[0] && t[|t| - 1] == rest[|rest| - 1];
    StripKeepsTrimmed(t);
    NumericMarkerRemoved(digits, sep, " ", rest);
    TidyKeepsTidy(rest);
  }

  /** A lettered unit such as "a) x" loses its letter and keeps the rest. */
  lemma LetteredTextLosesMarker(letter: char, sep: char, rest: string)
    requires IsMarkerLetter(letter) && !IsSpace(letter)
    requires sep == '.' || sep == ')'
    requires rest != [] && IsTidy(rest)
    ensures IsTidy([letter, sep, ' '] + rest)
    ensures NormalizeForCompare(Some([letter, sep, ' '] + rest)) == rest
  {
    var u := [letter, sep, ' '] + rest;
    assert IsTidy(u) by {
      assert u[|u| - 1] == rest[|rest| - 1];
      forall k | 3 <= k < |u| ensures u[k] == rest[k - 3] { }
    }
    StripKeepsTrimmed(u);
    assert u == [letter, sep] + " " + rest;
    LetterMarkerRemoved(letter, sep, " ", rest);
    TidyKeepsTidy(rest);
  }

  /** Only the first of two markers goes: "1. a) x" becomes "a) x", and
      normalising that again removes the second marker as well, so the
      normaliser is not idempotent. */
  lemma OnlyOneMarker(digits: string, letter: char, rest: string)
    requires digits != [] && forall k :: 0 <= k < |digits| ==> IsDigit(digits[k])
    requires IsMarkerLetter(letter) && !IsSpace(letter)
    requires rest != [] && IsTidy(rest)
    ensures NormalizeForCompare(Some(digits + ['.', ' '] + ([letter, ')', ' '] + rest))) == [letter, ')', ' '] + rest
    ensures NormalizeForCompare(Some([letter, ')', ' '] + rest)) == rest
  {
    LetteredTextLosesMarker(letter, ')', rest);
    NumberedTextLosesMarker(digits, '.', [letter, ')', ' '] + rest);
  }

  /** A letter marker `<letter>)` or `<letter>.` and the whitespace after
      it are removed, and nothing more, whatever follows it. */
  lemma LetterMarkerRemoved(letter: char, sep: char, spaces: string, rest: string)
    requires IsMarkerLetter(letter) && !IsSpace(letter)
    requires sep == '.' || sep == ')'
    requires forall k :: 0 <= k < |spaces| ==> IsSpace(spaces[k])
    requires rest == [] || !IsSpace(rest[0])
    ensures StripLeadingMarker([letter, sep] + spaces + rest) == rest
  {
    var u := [letter, sep] + spaces + rest;
    assert TrimLeft(u) == u by { assert u[0] == letter; }
    assert AfterMarker(u) == Some(rest) by {
      assert DigitRun(u) == 0 by { assert u[0] == letter; }
      assert u[2..] == spaces + rest;
      TrimLeftOf(spaces, rest);
    }
  }

  /** A text that starts with a visible character which begins no marker,
      neither a digit nor a marker letter followed by `.` or `)`, is left
      exactly as it is. */
  lemma NoMarkerKept(t: string)
    requires t != [] && !IsSpace(t[0]) && !IsDigit(t[0])
    requires |t| < 2 || !IsMarkerLetter(t[0]) || (t[1] != '.' && t[1] != ')')
    ensures StripLeadingMarker(t) == t
  {
    assert TrimLeft(t) == t;
    assert DigitRun(t) == 0;
  }

  /** A number not followed by `.` or `)`, such as the year in "2013 ..."
      or a text made only of digits, is no marker: the text is left exactly
      as it is. */
  lemma DigitsWithoutSeparatorKept(digits: string, rest: string)
    requires digits != [] && forall k :: 0 <= k < |digits| ==> IsDigit(digits[k])
    requires rest == [] || (!IsDigit(rest[0]) && rest[0] != '.' && rest[0] != ')')
    ensures StripLeadingMarker(digits + rest) == digits + rest
  {
    var t := digits + rest;
    assert t[0] == digits[0];
    assert TrimLeft(t) == t;
    DigitRunOf(digits, rest);
    if rest != [] {
      assert t[|digits|] == rest[0];
    }
  }
}

=== FILE: scoring.dfy ===
/** Scored index pairs and Python's stable `list.sort(key=score,
    reverse=True)`, which both the matcher and the split and merge detector
    apply to their candidate lists. */
module Scoring {

  /** A scored pair of an old unit index `r` and a new unit index `c`. The
      same shape carries a candidate cell of the similarity matrix, a matched
      pair and a leg of a split or a merge. */
  datatype Cand = Cand(r: nat, c: nat, s: real)

  /** Scores never increase along the list. */
  predicate NonIncreasing(xs: seq<Cand>) {
    forall i, j :: 0 <= i < j < |xs| ==> xs[i].s >= xs[j].s
  }

  /** Row-major order on the indices, the order `np.nonzero` lists cells in. */
  predicate LexLt(x: Cand, y: Cand) {
    x.r < y.r || (x.r == y.r && x.c < y.c)
  }

  /** Strictly increasing in row-major order. */
  predicate LexIncreasing(xs: seq<Cand>) {
    forall i, j :: 0 <= i < j < |xs| ==> LexLt(xs[i], xs[j])
  }

  lemma TailLex(xs: seq<Cand>)
    requires xs != [] && LexIncreasing(xs)
    ensures LexIncreasing(xs[1..])
    ensures forall k :: 0 <= k < |xs| - 1 ==> LexLt(xs[0], xs[1..][k])
  {
    var tail := xs[1..];
    forall i, j | 0 <= i < j < |tail| ensures LexLt(tail[i], tail[j]) {
      assert tail[i] == xs[i + 1] && tail[j] == xs[j + 1];
    }
    forall k | 0 <= k < |tail| ensures LexLt(xs[0], tail[k]) {
      assert tail[k] == xs[k + 1];
    }
  }

  lemma ConsLex(y: Cand, ys: seq<Cand>)
    requires LexIncreasing(ys)
    requires forall k :: 0 <= k < |ys| ==> LexLt(y, ys[k])
    ensures LexIncreasing([y] + ys)
  {
    var r := [y] + ys;
    forall i, j | 0 <= i < j < |r| ensures LexLt(r[i], r[j]) {
      assert r[j] == ys[j - 1];
      if i > 0 {
        assert r[i] == ys[i - 1];
      }
    }
  }

  /** `x` comes before `y` in a stable descending sort of a row-major list:
      a higher score first, and on equal scores the smaller indices first. */
  predicate Before(x: Cand, y: Cand) {
    x.s > y.s || (x.s == y.s && LexLt(x, y))
  }

  predicate RankedStrictly(xs: seq<Cand>) {
    forall i, j :: 0 <= i < j < |xs| ==> Before(xs[i], xs[j])
  }

  /** Puts `x` in front of the first element whose score it reaches; `x`
      stood before all of `xs` in the input, so it stays before the elements
      of equal score. */
  function InsertDesc(x: Cand, xs: seq<Cand>): (r: seq<Cand>)
    ensures multiset(r) == multiset(xs) + multiset{x}
  {
    if xs == [] || x.s >= xs[0].s then [x] + xs
    else
      assert xs == [xs[0]] + xs[1..];
      [xs[0]] + InsertDesc(x, xs[1..])
  }

  /** Every element of the result was inserted or was already there. */
  lemma InsertMembers(x: Cand, xs: seq<Cand>)
    ensures forall y :: y in InsertDesc(x, xs) ==> y == x || y in xs
  {
    forall y | y in InsertDesc(x, xs) ensures y == x || y in xs {
      assert y in multiset(InsertDesc(x, xs));
    }
  }

  lemma TailNonIncreasing(xs: seq<Cand>)
    requires xs != [] && NonIncreasing(xs)
    ensures NonIncreasing(xs[1..])
    ensures forall k :: 0 <= k < |xs| - 1 ==> xs[0].s >= xs[1..][k].s
  {
    var tail := xs[1..];
    forall i, j | 0 <= i < j < |tail| ensures tail[i].s >= tail[j].s {
      assert tail[i] == xs[i + 1] && tail[j] == xs[j + 1];
    }
    forall k | 0 <= k < |tail| ensures xs[0].s >= tail[k].s {
      assert tail[k] == xs[k + 1];
    }
  }

  lemma ConsNonIncreasing(y: Cand, ys: seq<Cand>)
    requires NonIncreasing(ys)
    requires forall k :: 0 <= k < |ys| ==> y.s >= ys[k].s
    ensures NonIncreasing([y] + ys)
  {
    var r := [y] + ys;
    forall i, j | 0 <= i < j < |r| ensures r[i].s >= r[j].s {
      assert r[j] == ys[j - 1];
      if i > 0 {
        assert r[i] == ys[i - 1];
      }
    }
  }

  lemma {:induction false} InsertKeepsOrder(x: Cand, xs: seq<Cand>)
    requires NonIncreasing(xs)
    ensures NonIncreasing(InsertDesc(x, xs))
  {
    if xs == [] {
    } else if x.s < xs[0].s {
      var tail := xs[1..];
      TailNonIncreasing(xs);
      InsertKeepsOrder(x, tail);
      var rest := InsertDesc(x, tail);
      InsertMembers(x, tail);
      forall k | 0 <= k < |rest| ensures xs[0].s >= rest[k].s {
        assert rest[k] in rest;
        if rest[k] != x {
          var m :| 0 <= m < |tail| && tail[m] == rest[k];
        }
      }
      ConsNonIncreasing(xs[0], rest);
    } else {
      TailNonIncreasing(xs);
      forall k | 0 <= k < |xs| ensures x.s >= xs[k].s {
        if k > 0 {
          assert xs[k] == xs[1..][k - 1];
        }
      }
      ConsNonIncreasing(x, xs);
    }
  }

  /** `xs.sort(key=lambda p: p.s, reverse=True)`: a stable sort by descending
      score. */
  function SortDesc(xs: seq<Cand>): (r: seq<Cand>)
    ensures multiset(r) == multiset(xs)
    ensures |r| == |xs|
    ensures NonIncreasing(r)
  {
    if xs == [] then []
    else
      assert xs == [xs[0]] + xs[1..];
      var r := InsertDesc(xs[0], SortDesc(xs[1..]));
      InsertKeepsOrder(xs[0], SortDesc(xs[1..]));
      assert |r| == |multiset(r)|;
      r
  }

  lemma TailRanked(xs: seq<Cand>)
    requires xs != [] && RankedStrictly(xs)
    ensures RankedStrictly(xs[1..])
    ensures forall k :: 0 <= k < |xs| - 1 ==> Before(xs[0], xs[1..][k])
  {
    var tail := xs[1..];
    forall i, j | 0 <= i < j < |tail| ensures Before(tail[i], tail[j]) {
      assert tail[i] == xs[i + 1] && tail[j] == xs[j + 1];
    }
    forall k | 0 <= k < |tail| ensures Before(xs[0], tail[k]) {
      assert tail[k] == xs[k + 1];
    }
  }

  lemma ConsRanked(y: Cand, ys: seq<Cand>)
    requires RankedStrictly(ys)
    requires forall k :: 0 <= k < |ys| ==> Before(y, ys[k])
    ensures RankedStrictly([y] + ys)
  {
    var r := [y] + ys;
    forall i, j | 0 <= i < j < |r| ensures Before(r[i], r[j]) {
      assert r[j] == ys[j - 1];
      if i > 0 {
        assert r[i] == ys[i - 1];
      }
    }
  }

  /** Inserting an element that belongs before everything in `xs`, by the
      tie-break on indices, keeps the list strictly ranked. */
  lemma {:induction false} InsertRanked(x: Cand, xs: seq<Cand>)
    requires RankedStrictly(xs)
    requires forall k :: 0 <= k < |xs| ==> LexLt(x, xs[k])
    ensures RankedStrictly(InsertDesc(x, xs))
  {
    if xs == [] {
    } else if x.s >= xs[0].s {
      TailRanked(xs);
      forall k | 0 <= k < |xs| ensures Before(x, xs[k]) {
        if k > 0 {
          assert xs[k] == xs[1..][k - 1];
        }
      }
      ConsRanked(x, xs);
    } else {
      var tail := xs[1..];
      TailRanked(xs);
      forall k | 0 <= k < |tail| ensures LexLt(x, tail[k]) {
        assert tail[k] == xs[k + 1];
      }
      InsertRanked(x, tail);
      var rest := InsertDesc(x, tail);
      InsertMembers(x, tail);
      forall k | 0 <= k < |rest| ensures Before(xs[0], rest[k]) {
        assert rest[k] in rest;
        if rest[k] != x {
          var m :| 0 <= m < |tail| && tail[m] == rest[k];
        }
      }
      ConsRanked(xs[0], rest);
    }
  }

  /** Stability: sorting a list given in row-major order ranks it by
      descending score, ties broken by row-major order. In particular no two
      distinct elements end up in an order the tie-break does not decide. */
  lemma {:induction false} SortRanked(xs: seq<Cand>)
    requires LexIncreasing(xs)
    ensures RankedStrictly(SortDesc(xs))
  {
    if xs != [] {
      var tail := xs[1..];
      assert LexIncreasing(tail) by {
        forall i, j | 0 <= i < j < |tail| ensures LexLt(tail[i], tail[j]) {
          assert LexLt(xs[i + 1], xs[j + 1]);
        }
      }
      SortRanked(tail);
      var sorted := SortDesc(tail);
      forall k | 0 <= k < |sorted| ensures LexLt(xs[0], sorted[k]) {
        assert sorted[k] in multiset(tail);
        var m :| 0 <= m < |tail| && tail[m] == sorted[k];
        assert LexLt(xs[0], xs[m + 1]);
      }
      InsertRanked(xs[0], sorted);
    }
  }

  /** A list whose scores already never increase is left as it is. */
  lemma {:induction false} SortKeepsSorted(xs: seq<Cand>)
    requires NonIncreasing(xs)
    ensures SortDesc(xs) == xs
  {
    if xs != [] {
      var tail := xs[1..];
      assert NonIncreasing(tail) by {
        forall i, j | 0 <= i < j < |tail| ensures tail[i].s >= tail[j].s {
          assert xs[i + 1].s >= xs[j + 1].s;
        }
      }
      SortKeepsSorted(tail);
      assert tail == [] || xs[0].s >= tail[0].s;
      assert xs == [xs[0]] + tail;
    }
  }

  /** The elements scoring at least `t`, in their original order. */
  function AtLeast(xs: seq<Cand>, t: real): (r: seq<Cand>)
    ensures |r| <= |xs|
    ensures forall k :: 0 <= k < |r| ==> r[k].s >= t && r[k] in xs
    ensures forall x :: x in xs && x.s >= t ==> x in r
  {
    if xs == [] then []
    else (if xs[0].s >= t then [xs[0]] else []) + AtLeast(xs[1..], t)
  }

  /** Filtering keeps the order of the list: it distributes over
      concatenation. */
  lemma {:induction false} AtLeastAppend(xs: seq<Cand>, ys: seq<Cand>, t: real)
    ensures AtLeast(xs + ys, t) == AtLeast(xs, t) + AtLeast(ys, t)
  {
    if xs == [] {
      assert xs + ys == ys;
    } else {
      assert (xs + ys)[1..] == xs[1..] + ys;
      AtLeastAppend(xs[1..], ys, t);
    }
  }

  /** Filtering keeps every copy of a candidate that reaches the threshold
      and no copy of one that does not. */
  lemma {:induction false} AtLeastCounts(xs: seq<Cand>, t: real)
    ensures forall x :: multiset(AtLeast(xs, t))[x] == if x.s >= t then multiset(xs)[x] else 0
  {
    if xs != [] {
      AtLeastCounts(xs[1..], t);
      assert xs == [xs[0]] + xs[1..];
    }
  }

  /** The sum of the scores, `sum(s for (_, s) in xs)` taken over the reals. */
  function Total(xs: seq<Cand>): real {
    if xs == [] then 0.0 else xs[0].s + Total(xs[1..])
  }

  lemma {:induction false} TotalAppend(xs: seq<Cand>, ys: seq<Cand>)
    ensures Total(xs + ys) == Total(xs) + Total(ys)
  {
    if xs != [] {
      assert (xs + ys)[1..] == xs[1..] + ys;
      TotalAppend(xs[1..], ys);
    } else {
      assert xs + ys == ys;
    }
  }

  /** Taking one element out lowers the total by its score. */
  lemma TotalRemove(ys: seq<Cand>, k: nat)
    requires k < |ys|
    ensures Total(ys) == ys[k].s + Total(ys[..k] + ys[k + 1..])
  {
    var a, y, b := ys[..k], ys[k], ys[k + 1..];
    assert ys == a + ([y] + b);
    assert ([y] + b)[1..] == b;
    TotalAppend(a, [y] + b);
    TotalAppend(a, b);
  }

  lemma MultisetRemove(xs: seq<Cand>, ys: seq<Cand>, k: nat)
    requires xs != [] && k < |ys| && ys[k] == xs[0]
    requires multiset(xs) == multiset(ys)
    ensures multiset(xs[1..]) == multiset(ys[..k] + ys[k + 1..])
  {
    var x := xs[0];
    assert xs == [x] + xs[1..];
    assert ys == ys[..k] + [x] + ys[k + 1..];
    assert multiset(xs[1..]) == multiset(xs) - multiset{x};
    assert multiset(ys[..k] + ys[k + 1..]) == multiset(ys) - multiset{x};
  }

  /** The total does not depend on the order of the elements, so summing the
      sorted legs gives the total of the unsorted ones. */
  lemma {:induction false} TotalPermutation(xs: seq<Cand>, ys: seq<Cand>)
    requires multiset(xs) == multiset(ys)
    ensures Total(xs) == Total(ys)
    decreases |xs|
  {
    if xs != [] {
      assert xs[0] in multiset(ys);
      var k :| 0 <= k < |ys| && ys[k] == xs[0];
      MultisetRemove(xs, ys, k);
      TotalPermutation(xs[1..], ys[..k] + ys[k + 1..]);
      TotalRemove(ys, k);
    } else {
      assert |ys| == |multiset(ys)| == 0;
    }
  }
}

=== FILE: seqs.dfy ===
/** Generic facts about sequences, stated once for every element type. */
module Seqs {
  /** Concatenation is associative. Stated over a type parameter, the proof
      stays cheap whatever the elements are. */
  lemma AppendAssoc<T>(x: seq<T>, y: seq<T>, z: seq<T>)
    ensures (x + y) + z == x + (y + z)
  {
  }

  /** No element occurs twice. */
  ghost predicate Distinct<T>(xs: seq<T>) {
    forall a, b :: 0 <= a < b < |xs| ==> xs[a] != xs[b]
  }

  /** In a list without repetitions every element occurs once. */
  lemma {:induction false} DistinctCount<T>(xs: seq<T>, x: T)
    requires Distinct(xs)
    ensures multiset(xs)[x] == if x in xs then 1 else 0
  {
    if xs != [] {
      var tail := xs[1..];
      assert Distinct(tail) by {
        forall a, b | 0 <= a < b < |tail| ensures tail[a] != tail[b] {
          assert xs[a + 1] != xs[b + 1];
        }
      }
      DistinctCount(tail, x);
      assert xs == [xs[0]] + tail;
      if x == xs[0] {
        forall m | 0 <= m < |tail| ensures tail[m] != x {
          assert tail[m] == xs[m + 1];
        }
      }
    }
  }

  /** An element not in a list without repetitions can head it. */
  lemma ConsDistinct<T>(y: T, ys: seq<T>)
    requires Distinct(ys) && y !in ys
    ensures Distinct([y] + ys)
  {
    var r := [y] + ys;
    forall a, b | 0 <= a < b < |r| ensures r[a] != r[b] {
      assert r[b] == ys[b - 1];
      if a > 0 {
        assert r[a] == ys[a - 1];
      }
    }
  }

  /** The head of a list without repetitions is not in its tail, which has
      none either. */
  lemma TailDistinct<T>(xs: seq<T>)
    requires xs != [] && Distinct(xs)
    ensures Distinct(xs[1..]) && xs[0] !in xs[1..]
  {
    var tail := xs[1..];
    forall a, b | 0 <= a < b < |tail| ensures tail[a] != tail[b] {
      assert tail[a] == xs[a + 1] && tail[b] == xs[b + 1];
    }
    forall m | 0 <= m < |tail| ensures tail[m] != xs[0] {
      assert tail[m] == xs[m + 1];
    }
  }

  /** An element not in a list without repetitions can end it. */
  lemma SnocDistinct<T>(ys: seq<T>, y: T)
    requires Distinct(ys) && y !in ys
    ensures Distinct(ys + [y])
  {
    var r := ys + [y];
    forall a, b | 0 <= a < b < |r| ensures r[a] != r[b] {
      assert r[a] == ys[a];
      if b < |ys| {
        assert r[b] == ys[b];
      }
    }
  }

  /** The last element of a list without repetitions is not in the rest,
      which has none either. */
  lemma FrontDistinct<T>(xs: seq<T>)
    requires xs != [] && Distinct(xs)
    ensures Distinct(xs[..|xs| - 1]) && xs[|xs| - 1] !in xs[..|xs| - 1]
  {
    var front := xs[..|xs| - 1];
    forall a, b | 0 <= a < b < |front| ensures front[a] != front[b] {
      assert front[a] == xs[a] && front[b] == xs[b];
    }
    forall m | 0 <= m < |front| ensures front[m] != xs[|xs| - 1] {
      assert front[m] == xs[m];
    }
  }

  /** A suffix of a suffix is a suffix. */
  lemma SuffixTrans<T>(a: seq<T>, b: seq<T>, c: seq<T>)
    requires |b| <= |a| && b == a[|a| - |b|..]
    requires |c| <= |b| && c == b[|b| - |c|..]
    ensures c == a[|a| - |c|..]
  {
    forall k | 0 <= k < |c| ensures c[k] == a[|a| - |c| + k] {
      assert c[k] == b[|b| - |c| + k];
    }
  }
}

=== FILE: splitmerge.dfy ===
/** `detect_splits_and_merges`: an old unit whose text went to several new
    units (a split), and a new unit made of several old ones (a merge),
    found from the similarity matrix alone. */
module SplitMerge {
  import opened Scoring
  import opened Matching

  const SplitUnitThresh: real := 0.35
  const SplitSumThresh: real := 0.75
  const MergeUnitThresh: real := 0.35
  const MergeSumThresh: real := 0.75

  /** A detected split or merge: the unit's index and its legs, each a cell
      of the matrix with its score. */
  datatype Group = Group(index: nat, legs: seq<Cand>)

  /** The cells of column `c`, row by row. */
  function ColCells(sim: seq<seq<real>>, c: nat, nOld: nat): (cells: seq<Cand>)
    requires |sim| == nOld && forall r :: 0 <= r < nOld ==> c < |sim[r]|
    ensures |cells| == nOld
  {
    seq(nOld, r requires 0 <= r < nOld => Cand(r, c, sim[r][c]))
  }

  /** Column `c` lists every cell of that column with its score, and nothing
      else, by increasing row. */
  lemma ColCellsExactly(sim: seq<seq<real>>, c: nat, nOld: nat)
    requires |sim| == nOld && forall r :: 0 <= r < nOld ==> c < |sim[r]|
    ensures forall x :: x in ColCells(sim, c, nOld) <==> x.c == c && x.r < nOld && x.s == sim[x.r][c]
    ensures LexIncreasing(ColCells(sim, c, nOld))
  {
    var cells := ColCells(sim, c, nOld);
    forall x: Cand | x.c == c && x.r < nOld && x.s == sim[x.r][c] ensures x in cells {
      assert cells[x.r] == x;
    }
  }

  /** The cells reaching `unit`, sorted by descending score: the `sims` list
      of one row or one column. */
  function Legs(cells: seq<Cand>, unit: real): seq<Cand> {
    SortDesc(AtLeast(cells, unit))
  }

  /** The legs of a unit in index order make a split or a merge when there is
      more than one and their scores add up to `sumThresh`. */
  predicate Detected(legs: seq<Cand>, sumThresh: real) {
    |legs| > 1 && Total(legs) >= sumThresh
  }

  /** The groups among the first `n` units, in index order; `legs[k]` is the
      leg list of unit `k`. */
  function GroupsUpTo(legs: seq<seq<Cand>>, n: nat, sumThresh: real): (gs: seq<Group>)
    requires n <= |legs|
    ensures forall g :: g in gs ==> g.index < n
  {
    if n == 0 then []
    else GroupsUpTo(legs, n - 1, sumThresh)
         + (if Detected(legs[n - 1], sumThresh) then [Group(n - 1, legs[n - 1])] else [])
  }

  function RowLegs(sim: seq<seq<real>>, nOld: nat, nNew: nat): (legs: seq<seq<Cand>>)
    requires IsMatrix(sim, nOld, nNew)
    ensures |legs| == nOld
  {
    seq(nOld, i requires 0 <= i < nOld => Legs(RowCells(sim, i, nNew), SplitUnitThresh))
  }

  function ColLegs(sim: seq<seq<real>>, nOld: nat, nNew: nat): (legs: seq<seq<Cand>>)
    requires IsMatrix(sim, nOld, nNew)
    ensures |legs| == nNew
  {
    seq(nNew, j requires 0 <= j < nNew => Legs(ColCells(sim, j, nOld), MergeUnitThresh))
  }

  /** The `splits` dictionary, as its entries in insertion order. */
  function Splits(sim: seq<seq<real>>, nOld: nat, nNew: nat): seq<Group>
    requires IsMatrix(sim, nOld, nNew)
  {
    GroupsUpTo(RowLegs(sim, nOld, nNew), nOld, SplitSumThresh)
  }

  /** The `merges` dictionary, as its entries in insertion order. */
  function Merges(sim: seq<seq<real>>, nOld: nat, nNew: nat): seq<Group>
    requires IsMatrix(sim, nOld, nNew)
  {
    GroupsUpTo(ColLegs(sim, nOld, nNew), nNew, MergeSumThresh)
  }

  /** `detect_splits_and_merges`. */
  method DetectSplitsAndMerges(sim: seq<seq<real>>, nOld: nat, nNew: nat)
    returns (splits: seq<Group>, merges: seq<Group>)
    requires IsMatrix(sim, nOld, nNew)
    ensures splits == Splits(sim, nOld, nNew)
    ensures merges == Merges(sim, nOld, nNew)
  {
    ghost var rowLegs := RowLegs(sim, nOld, nNew);
    splits := [];
    var i := 0;
    while i < nOld
      invariant i <= nOld
      invariant splits == GroupsUpTo(rowLegs, i, SplitSumThresh)
    {
      var sims := AtLeast(RowCells(sim, i, nNew), SplitUnitThresh);
      sims := SortDesc(sims);
      assert sims == rowLegs[i];
      if |sims| > 1 {
        var total := Total(sims);
        if total >= SplitSumThresh {
          splits := splits + [Group(i, sims)];
        }
      }
      GroupsStep(rowLegs, i, SplitSumThresh);
      i := i + 1;
    }
    ghost var colLegs := ColLegs(sim, nOld, nNew);
    merges := [];
    var j := 0;
    while j < nNew
      invariant j <= nNew
      invariant merges == GroupsUpTo(colLegs, j, MergeSumThresh)
    {
      var sims := AtLeast(ColCells(sim, j, nOld), MergeUnitThresh);
      sims := SortDesc(sims);
      assert sims == colLegs[j];
      if |sims| > 1 {
        var total := Total(sims);
        if total >= MergeSumThresh {
          merges := merges + [Group(j, sims)];
        }
      }
      GroupsStep(colLegs, j, MergeSumThresh);
      j := j + 1;
    }
  }

  lemma GroupsStep(legs: seq<seq<Cand>>, k: nat, sumThresh: real)
    requires k < |legs|
    ensures GroupsUpTo(legs, k + 1, sumThresh)
         == GroupsUpTo(legs, k, sumThresh) + (if Detected(legs[k], sumThresh) then [Group(k, legs[k])] else [])
  {
  }

  /** A unit is a group exactly when its legs are detected, and then the
      group holds exactly those legs; groups come by increasing index, one
      per unit. */
  lemma {:induction false} GroupsExactly(legs: seq<seq<Cand>>, n: nat, sumThresh: real)
    requires n <= |legs|
    ensures forall g :: g in GroupsUpTo(legs, n, sumThresh) ==>
      g.legs == legs[g.index] && Detected(g.legs, sumThresh)
    ensures forall k :: 0 <= k < n && Detected(legs[k], sumThresh) ==>
      Group(k, legs[k]) in GroupsUpTo(legs, n, sumThresh)
    ensures forall a, b :: 0 <= a < b < |GroupsUpTo(legs, n, sumThresh)| ==>
      GroupsUpTo(legs, n, sumThresh)[a].index < GroupsUpTo(legs, n, sumThresh)[b].index
  {
    if n > 0 {
      GroupsExactly(legs, n - 1, sumThresh);
      var front := GroupsUpTo(legs, n - 1, sumThresh);
      var gs := GroupsUpTo(legs, n, sumThresh);
      forall a, b | 0 <= a < b < |gs| ensures gs[a].index < gs[b].index {
        if b >= |front| {
          assert gs[a] in front;
        } else {
          assert gs[a] == front[a] && gs[b] == front[b];
        }
      }
    }
  }

  /** The legs of a unit whose cells are listed by increasing index: exactly
      the cells reaching `unit`, by descending score with ties by increasing
      index, and their total is that of the cells reaching `unit` in any
      order. */
  lemma LegsExactly(cells: seq<Cand>, unit: real)
    requires LexIncreasing(cells)
    ensures forall x :: x in Legs(cells, unit) <==> x in cells && x.s >= unit
    ensures RankedStrictly(Legs(cells, unit))
    ensures Total(Legs(cells, unit)) == Total(AtLeast(cells, unit))
  {
    AtLeastRowMajor(cells, unit);
    SortRanked(AtLeast(cells, unit));
    TotalPermutation(Legs(cells, unit), AtLeast(cells, unit));
    forall x | x in Legs(cells, unit) ensures x in cells && x.s >= unit {
      assert x in multiset(Legs(cells, unit));
      assert x in AtLeast(cells, unit);
    }
    forall x | x in cells && x.s >= unit ensures x in Legs(cells, unit) {
      assert x in multiset(AtLeast(cells, unit));
    }
  }

  /** `splits` has an entry for old unit `i` exactly when more than one new
      unit `j` has `sim[i][j] >= SPLIT_UNIT_THRESH` and those scores add up to
      `SPLIT_SUM_THRESH`; the entry lists exactly those cells, best first and
      ties by increasing `j`; entries come by increasing `i`. */
  lemma SplitsExactly(sim: seq<seq<real>>, nOld: nat, nNew: nat)
    requires IsMatrix(sim, nOld, nNew)
    ensures forall g :: g in Splits(sim, nOld, nNew) ==>
      g.index < nOld && Detected(g.legs, SplitSumThresh) && RankedStrictly(g.legs)
      && forall x :: x in g.legs <==> x.r == g.index && x.c < nNew && x.s == sim[g.index][x.c] && x.s >= SplitUnitThresh
    ensures forall i :: 0 <= i < nOld && Detected(RowLegs(sim, nOld, nNew)[i], SplitSumThresh) ==>
      Group(i, RowLegs(sim, nOld, nNew)[i]) in Splits(sim, nOld, nNew)
    ensures forall a, b :: 0 <= a < b < |Splits(sim, nOld, nNew)| ==>
      Splits(sim, nOld, nNew)[a].index < Splits(sim, nOld, nNew)[b].index
  {
    var legs := RowLegs(sim, nOld, nNew);
    GroupsExactly(legs, nOld, SplitSumThresh);
    forall g | g in Splits(sim, nOld, nNew)
      ensures forall x :: x in g.legs <==> x.r == g.index && x.c < nNew && x.s == sim[g.index][x.c] && x.s >= SplitUnitThresh
      ensures RankedStrictly(g.legs)
    {
      RowGroupLegs(sim, nOld, nNew, g.index);
    }
  }

  /** The legs of old unit `i`: its cells reaching the unit threshold, best
      first. */
  lemma RowGroupLegs(sim: seq<seq<real>>, nOld: nat, nNew: nat, i: nat)
    requires IsMatrix(sim, nOld, nNew) && i < nOld
    ensures forall x :: x in RowLegs(sim, nOld, nNew)[i] <==>
      x.r == i && x.c < nNew && x.s == sim[i][x.c] && x.s >= SplitUnitThresh
    ensures RankedStrictly(RowLegs(sim, nOld, nNew)[i])
  {
    var cells := RowCells(sim, i, nNew);
    assert RowLegs(sim, nOld, nNew)[i] == Legs(cells, SplitUnitThresh);
    RowCellsExactly(sim, i, nNew);
    LegsExactly(cells, SplitUnitThresh);
    forall x ensures x in cells <==> x.r == i && x.c < nNew && x.s == sim[i][x.c] {
      if x.r == i && x.c < nNew && x.s == sim[i][x.c] {
        assert cells[x.c] == x;
      }
    }
  }

  /** `merges` has an entry for new unit `j` exactly when more than one old
      unit `i` has `sim[i][j] >= MERGE_UNIT_THRESH` and those scores add up to
      `MERGE_SUM_THRESH`; the entry lists exactly those cells, best first and
      ties by increasing `i`; entries come by increasing `j`. */
  lemma MergesExactly(sim: seq<seq<real>>, nOld: nat, nNew: nat)
    requires IsMatrix(sim, nOld, nNew)
    ensures forall g :: g in Merges(sim, nOld, nNew) ==>
      g.index < nNew && Detected(g.legs, MergeSumThresh) && RankedStrictly(g.legs)
      && forall x :: x in g.legs <==> x.c == g.index && x.r < nOld && x.s == sim[x.r][g.index] && x.s >= MergeUnitThresh
    ensures forall j :: 0 <= j < nNew && Detected(ColLegs(sim, nOld, nNew)[j], MergeSumThresh) ==>
      Group(j, ColLegs(sim, nOld, nNew)[j]) in Merges(sim, nOld, nNew)
    ensures forall a, b :: 0 <= a < b < |Merges(sim, nOld, nNew)| ==>
      Merges(sim, nOld, nNew)[a].index < Merges(sim, nOld, nNew)[b].index
  {
    var legs := ColLegs(sim, nOld, nNew);
    GroupsExactly(legs, nNew, MergeSumThresh);
    forall g | g in Merges(sim, nOld, nNew)
      ensures forall x :: x in g.legs <==> x.c == g.index && x.r < nOld && x.s == sim[x.r][g.index] && x.s >= MergeUnitThresh
      ensures RankedStrictly(g.legs)
    {
      ColGroupLegs(sim, nOld, nNew, g.index);
    }
  }

  /** The legs of new unit `j`: its cells reaching the unit threshold, best
      first. */
  lemma ColGroupLegs(sim: seq<seq<real>>, nOld: nat, nNew: nat, j: nat)
    requires IsMatrix(sim, nOld, nNew) && j < nNew
    ensures forall x :: x in ColLegs(sim, nOld, nNew)[j] <==>
      x.c == j && x.r < nOld && x.s == sim[x.r][j] && x.s >= MergeUnitThresh
    ensures RankedStrictly(ColLegs(sim, nOld, nNew)[j])
  {
    var cells := ColCells(sim, j, nOld);
    assert ColLegs(sim, nOld, nNew)[j] == Legs(cells, MergeUnitThresh);
    ColCellsExactly(sim, j, nOld);
    LegsExactly(cells, MergeUnitThresh);
    forall x ensures x in cells <==> x.c == j && x.r < nOld && x.s == sim[x.r][j] {
      if x.c == j && x.r < nOld && x.s == sim[x.r][j] {
        assert cells[x.r] == x;
      }
    }
  }
}

=== FILE: strorder.dfy ===
/** Python's order on strings (code point by code point, a proper prefix
    first) and its stable `sorted(xs, key=...)`, written as an insertion
    sort. */
module StringOrder {
  import opened Seqs

  /** `a <= b` on Python strings. */
  predicate StrLe(a: string, b: string) {
    a == [] || (b != [] && (a[0] < b[0] || (a[0] == b[0] && StrLe(a[1..], b[1..]))))
  }

  lemma {:induction false} StrLeRefl(a: string)
    ensures StrLe(a, a)
  {
    if a != [] {
      StrLeRefl(a[1..]);
    }
  }

  lemma {:induction false} StrLeTotal(a: string, b: string)
    ensures StrLe(a, b) || StrLe(b, a)
  {
    if a != [] && b != [] && a[0] == b[0] {
      StrLeTotal(a[1..], b[1..]);
    }
  }

  lemma {:induction false} StrLeTrans(a: string, b: string, c: string)
    requires StrLe(a, b) && StrLe(b, c)
    ensures StrLe(a, c)
  {
    if a != [] && a[0] == b[0] && b[0] == c[0] {
      StrLeTrans(a[1..], b[1..], c[1..]);
    }
  }

  lemma {:induction false} StrLeAntisym(a: string, b: string)
    requires StrLe(a, b) && StrLe(b, a)
    ensures a == b
  {
    if a != [] {
      StrLeAntisym(a[1..], b[1..]);
      assert a == [a[0]] + a[1..] && b == [b[0]] + b[1..];
    }
  }

  /** The keys never decrease along `xs`. */
  predicate SortedBy(key: string -> string, xs: seq<string>) {
    forall i, j :: 0 <= i < j < |xs| ==> StrLe(key(xs[i]), key(xs[j]))
  }

  /** Puts `x` in front of the first element whose key is not below its
      own; `x` came before all of `xs`, so it stays before equal keys. */
  function InsertBy(key: string -> string, x: string, xs: seq<string>): (r: seq<string>)
    ensures multiset(r) == multiset(xs) + multiset{x}
  {
    if xs == [] || StrLe(key(x), key(xs[0])) then [x] + xs
    else
      assert xs == [xs[0]] + xs[1..];
      [xs[0]] + InsertBy(key, x, xs[1..])
  }

  lemma InsertMembers(key: string -> string, x: string, xs: seq<string>)
    ensures |InsertBy(key, x, xs)| == |xs| + 1
    ensures forall y :: y in InsertBy(key, x, xs) <==> y == x || y in xs
  {
    var r := InsertBy(key, x, xs);
    assert |r| == |multiset(r)|;
    forall y ensures y in r <==> y == x || y in xs {
      assert y in r <==> y in multiset(r);
      assert y in xs <==> y in multiset(xs);
    }
  }

  /** `sorted(xs, key=key)`. */
  function SortBy(key: string -> string, xs: seq<string>): (r: seq<string>)
    ensures multiset(r) == multiset(xs)
    ensures |r| == |xs|
  {
    if xs == [] then []
    else
      assert xs == [xs[0]] + xs[1..];
      var r := InsertBy(key, xs[0], SortBy(key, xs[1..]));
      assert |r| == |multiset(r)|;
      r
  }

  /** A list headed by an element whose key is at most every later key. */
  lemma ConsSorted(key: string -> string, y: string, ys: seq<string>)
    requires SortedBy(key, ys)
    requires forall k :: 0 <= k < |ys| ==> StrLe(key(y), key(ys[k]))
    ensures SortedBy(key, [y] + ys)
  {
    var r := [y] + ys;
    forall i, j | 0 <= i < j < |r| ensures StrLe(key(r[i]), key(r[j])) {
      assert r[j] == ys[j - 1];
      if i > 0 {
        assert r[i] == ys[i - 1];
      }
    }
  }

  /** Every key of the result is at least `b` when every key put in is. */
  lemma InsertBounded(key: string -> string, b: string, x: string, xs: seq<string>)
    requires StrLe(b, key(x))
    requires forall k :: 0 <= k < |xs| ==> StrLe(b, key(xs[k]))
    ensures forall k :: 0 <= k < |InsertBy(key, x, xs)| ==> StrLe(b, key(InsertBy(key, x, xs)[k]))
  {
    var r := InsertBy(key, x, xs);
    forall k | 0 <= k < |r| ensures StrLe(b, key(r[k])) {
      assert r[k] in multiset(r);
      if r[k] != x {
        assert r[k] in multiset(xs);
        var m :| 0 <= m < |xs| && xs[m] == r[k];
      }
    }
  }

  lemma {:induction false} InsertSorted(key: string -> string, x: string, xs: seq<string>)
    requires SortedBy(key, xs)
    ensures SortedBy(key, InsertBy(key, x, xs))
  {
    if xs == [] || StrLe(key(x), key(xs[0])) {
      forall k | 0 <= k < |xs| ensures StrLe(key(x), key(xs[k])) {
        if k > 0 {
          StrLeTrans(key(x), key(xs[0]), key(xs[k]));
        }
      }
      ConsSorted(key, x, xs);
    } else {
      StrLeTotal(key(x), key(xs[0]));
      var tail := xs[1..];
      assert SortedBy(key, tail) by {
        forall i, j | 0 <= i < j < |tail| ensures StrLe(key(tail[i]), key(tail[j])) {
          assert tail[i] == xs[i + 1] && tail[j] == xs[j + 1];
        }
      }
      forall k | 0 <= k < |tail| ensures StrLe(key(xs[0]), key(tail[k])) {
        assert tail[k] == xs[k + 1];
      }
      InsertSorted(key, x, tail);
      InsertBounded(key, key(xs[0]), x, tail);
      ConsSorted(key, xs[0], InsertBy(key, x, tail));
    }
  }

  /** The result of `sorted` is ordered by its key. */
  lemma {:induction false} SortSorted(key: string -> string, xs: seq<string>)
    ensures SortedBy(key, SortBy(key, xs))
  {
    if xs != [] {
      SortSorted(key, xs[1..]);
      InsertSorted(key, xs[0], SortBy(key, xs[1..]));
    }
  }

  /** The elements of `xs` whose key is `v`, in order. */
  function WithKey(key: string -> string, v: string, xs: seq<string>): seq<string> {
    if xs == [] then [] else (if key(xs[0]) == v then [xs[0]] else []) + WithKey(key, v, xs[1..])
  }

  lemma WithKeyCons(key: string -> string, v: string, y: string, ys: seq<string>)
    ensures WithKey(key, v, [y] + ys) == (if key(y) == v then [y] else []) + WithKey(key, v, ys)
  {
    assert ([y] + ys)[1..] == ys;
  }

  /** An element whose key is above the head's goes after the head. */
  lemma InsertAfterHead(key: string -> string, x: string, xs: seq<string>)
    requires xs != [] && !StrLe(key(x), key(xs[0]))
    ensures InsertBy(key, x, xs) == [xs[0]] + InsertBy(key, x, xs[1..])
    ensures key(xs[0]) != key(x)
  {
    StrLeRefl(key(x));
  }

  lemma {:induction false} InsertStable(key: string -> string, v: string, x: string, xs: seq<string>)
    ensures WithKey(key, v, InsertBy(key, x, xs)) == (if key(x) == v then [x] else []) + WithKey(key, v, xs)
  {
    if xs == [] || StrLe(key(x), key(xs[0])) {
      WithKeyCons(key, v, x, xs);
    } else {
      var y := xs[0];
      var tail := xs[1..];
      InsertAfterHead(key, x, xs);
      InsertStable(key, v, x, tail);
      WithKeyCons(key, v, y, InsertBy(key, x, tail));
      if key(x) == v {
        assert WithKey(key, v, xs) == WithKey(key, v, tail);
      } else {
        assert WithKey(key, v, InsertBy(key, x, xs)) == (if key(y) == v then [y] else []) + WithKey(key, v, tail);
      }
    }
  }

  /** `sorted` is stable: the elements that share a key keep their order. */
  lemma {:induction false} SortStable(key: string -> string, v: string, xs: seq<string>)
    ensures WithKey(key, v, SortBy(key, xs)) == WithKey(key, v, xs)
  {
    if xs != [] {
      SortStable(key, v, xs[1..]);
      InsertStable(key, v, xs[0], SortBy(key, xs[1..]));
    }
  }

  /** A reordering of a list without repetitions has none either. */
  lemma PermutationDistinct(xs: seq<string>, ys: seq<string>)
    requires Distinct(xs) && multiset(xs) == multiset(ys)
    ensures Distinct(ys)
  {
    forall i, j | 0 <= i < j < |ys| ensures ys[i] != ys[j] {
      var x := ys[i];
      DistinctCount(xs, x);
      assert ys == ys[..j] + ys[j..];
      assert x in ys[..j] && ys[j] in ys[j..];
      assert multiset(ys)[x] == multiset(ys[..j])[x] + multiset(ys[j..])[x];
    }
  }

  lemma {:induction false} InsertDistinct(key: string -> string, x: string, xs: seq<string>)
    requires Distinct(xs) && x !in xs
    ensures Distinct(InsertBy(key, x, xs))
  {
    if xs != [] && !StrLe(key(x), key(xs[0])) {
      var tail := xs[1..];
      TailDistinct(xs);
      InsertDistinct(key, x, tail);
      InsertMembers(key, x, tail);
      ConsDistinct(xs[0], InsertBy(key, x, tail));
    } else {
      ConsDistinct(x, xs);
    }
  }
}

=== FILE: synthesis.dfy ===
/** The changelog of `generate_mapping`: the matched pairs whose texts
    differ become `modified` entries, split sources and merge targets become
    `deleted` and `added` entries, and the remaining unmatched units become
    `deleted` or `added` entries, in that order. */
module Synthesis {
  import opened Wrappers
  import opened Seqs
  import opened Text
  import opened Documents
  import opened Normalize
  import opened Units
  import opened Scoring
  import opened Matching
  import opened SplitMerge

  /** The default `match_threshold`. */
  const MatchThreshold: real := 0.60

  /** The identifiers of a unit as an entry shows them. */
  datatype UnitRef = UnitRef(
    articleId: Option<string>, articleNumber: Option<string>, clauseId: Option<string>, pointId: Option<string>)

  datatype ChangeType = Modified | Deleted | Added

  /** One changelog entry; `similarity` carries the matched score unrounded. */
  datatype Entry = Entry(
    unitOld: Option<UnitRef>, unitNew: Option<UnitRef>, similarity: real,
    changeType: ChangeType, beforeChange: string, afterChange: string)

  function RefOf(u: TextUnit): UnitRef {
    UnitRef(u.articleId, u.articleNumber, u.clauseId, u.pointId)
  }

  /** An entry by unit index: old unit `i` matched to new unit `j` with score
      `s`, old unit `i` deleted, or new unit `j` added. */
  datatype Change = Modify(i: nat, j: nat, s: real) | Delete(i: nat) | Add(j: nat)

  predicate AllInRange(cs: seq<Change>, nOld: nat, nNew: nat) {
    forall k :: 0 <= k < |cs| ==> InRange(cs[k], nOld, nNew)
  }

  predicate InRange(c: Change, nOld: nat, nNew: nat) {
    match c
    case Modify(i, j, _) => i < nOld && j < nNew
    case Delete(i) => i < nOld
    case Add(j) => j < nNew
  }

  /** Every matched pair joins an old unit and a new unit that exist. */
  predicate PairsInRange(matched: seq<Cand>, nOld: nat, nNew: nat) {
    forall k :: 0 <= k < |matched| ==> matched[k].r < nOld && matched[k].c < nNew
  }

  /** The texts the units are compared by, `texts_old` and `texts_new`. */
  function Compared(units: seq<TextUnit>): (texts: seq<string>)
    ensures |texts| == |units|
  {
    seq(|units|, k requires 0 <= k < |units| => NormalizeForCompare(Some(units[k].text)))
  }

  /** One comparison text per unit: tidy, empty for an empty unit text, and
      showing the visible characters of the unit's text once its leading
      marker is gone. */
  lemma ComparedTexts(units: seq<TextUnit>)
    ensures |Compared(units)| == |units|
    ensures forall k :: 0 <= k < |units| ==> IsTidy(Compared(units)[k])
    ensures forall k :: 0 <= k < |units| && units[k].text == "" ==> Compared(units)[k] == ""
    ensures forall k :: 0 <= k < |units| ==>
      Squeeze(Compared(units)[k]) == Squeeze(StripLeadingMarker(Strip(units[k].text)))
  {
    forall k | 0 <= k < |units|
      ensures Squeeze(Compared(units)[k]) == Squeeze(StripLeadingMarker(Strip(units[k].text)))
    {
      CompareVisible(Some(units[k].text));
    }
  }

  /** What an entry shows of a unit: its identifiers and its
      `normalize_for_output` text. */
  datatype Row = Row(ref: UnitRef, shown: string)

  function Rows(units: seq<TextUnit>): (rows: seq<Row>)
    ensures |rows| == |units|
  {
    seq(|units|, k requires 0 <= k < |units| => Row(RefOf(units[k]), NormalizeForOutput(Some(units[k].text))))
  }

  /** The entry a change stands for. */
  function Render(rowsOld: seq<Row>, rowsNew: seq<Row>, c: Change): Entry
    requires InRange(c, |rowsOld|, |rowsNew|)
  {
    match c
    case Modify(i, j, s) =>
      Entry(Some(rowsOld[i].ref), Some(rowsNew[j].ref), s, Modified, rowsOld[i].shown, rowsNew[j].shown)
    case Delete(i) =>
      Entry(Some(rowsOld[i].ref), None, 0.0, Deleted, rowsOld[i].shown, "")
    case Add(j) =>
      Entry(None, Some(rowsNew[j].ref), 0.0, Added, "", rowsNew[j].shown)
  }

  /** The entries the changes stand for, one each, in order. */
  function RenderAll(rowsOld: seq<Row>, rowsNew: seq<Row>, cs: seq<Change>): (es: seq<Entry>)
    requires AllInRange(cs, |rowsOld|, |rowsNew|)
    ensures |es| == |cs|
  {
    seq(|cs|, k requires 0 <= k < |cs| => Render(rowsOld, rowsNew, cs[k]))
  }

  /** What an entry says about its change: the kind of change; the old unit
      unless it is an addition and the new unit unless it is a deletion, each
      with its identifiers and its shown text; an empty text on the missing
      side; and the score of a modification, 0 otherwise. */
  predicate Describes(rowsOld: seq<Row>, rowsNew: seq<Row>, c: Change, e: Entry)
    requires InRange(c, |rowsOld|, |rowsNew|)
  {
    && (e.changeType == Modified <==> c.Modify?)
    && (e.changeType == Deleted <==> c.Delete?)
    && (e.unitOld.Some? <==> !c.Add?)
    && (e.unitNew.Some? <==> !c.Delete?)
    && (!c.Add? ==> e.unitOld.value == rowsOld[c.i].ref && e.beforeChange == rowsOld[c.i].shown)
    && (!c.Delete? ==> e.unitNew.value == rowsNew[c.j].ref && e.afterChange == rowsNew[c.j].shown)
    && (c.Add? ==> e.beforeChange == "")
    && (c.Delete? ==> e.afterChange == "")
    && e.similarity == (if c.Modify? then c.s else 0.0)
  }

  /** The entries stand for the changes one by one, in order. */
  lemma RenderedEntries(rowsOld: seq<Row>, rowsNew: seq<Row>, cs: seq<Change>)
    requires AllInRange(cs, |rowsOld|, |rowsNew|)
    ensures |RenderAll(rowsOld, rowsNew, cs)| == |cs|
    ensures forall k :: 0 <= k < |cs| ==> Describes(rowsOld, rowsNew, cs[k], RenderAll(rowsOld, rowsNew, cs)[k])
  {
  }

  lemma RenderAllSnoc(rowsOld: seq<Row>, rowsNew: seq<Row>, cs: seq<Change>, c: Change)
    requires AllInRange(cs, |rowsOld|, |rowsNew|) && InRange(c, |rowsOld|, |rowsNew|)
    ensures AllInRange(cs + [c], |rowsOld|, |rowsNew|)
    ensures RenderAll(rowsOld, rowsNew, cs + [c]) == RenderAll(rowsOld, rowsNew, cs) + [Render(rowsOld, rowsNew, c)]
  {
    assert (cs + [c])[|cs|] == c;
    forall k | 0 <= k < |cs| ensures (cs + [c])[k] == cs[k] { }
  }

  lemma RenderAllAppend(rowsOld: seq<Row>, rowsNew: seq<Row>, a: seq<Change>, b: seq<Change>)
    requires AllInRange(a, |rowsOld|, |rowsNew|) && AllInRange(b, |rowsOld|, |rowsNew|)
    ensures AllInRange(a + b, |rowsOld|, |rowsNew|)
    ensures RenderAll(rowsOld, rowsNew, a + b) == RenderAll(rowsOld, rowsNew, a) + RenderAll(rowsOld, rowsNew, b)
  {
    forall k | 0 <= k < |a + b| ensures (a + b)[k] == if k < |a| then a[k] else b[k - |a|] { }
    var l, r := RenderAll(rowsOld, rowsNew, a + b), RenderAll(rowsOld, rowsNew, a) + RenderAll(rowsOld, rowsNew, b);
    forall k | 0 <= k < |l| ensures l[k] == r[k] {
      if k < |a| {
        assert (a + b)[k] == a[k];
      } else {
        assert (a + b)[k] == b[k - |a|];
      }
    }
  }

  // Step 1

  /** The matched pairs whose compared texts differ; a pair whose texts are
      equal is unchanged and yields nothing. */
  function ModifiedChanges(textsOld: seq<string>, textsNew: seq<string>, matched: seq<Cand>): (cs: seq<Change>)
    requires PairsInRange(matched, |textsOld|, |textsNew|)
    ensures AllInRange(cs, |textsOld|, |textsNew|)
  {
    if matched == [] then []
    else
      var front := matched[..|matched| - 1];
      var p := matched[|matched| - 1];
      ModifiedChanges(textsOld, textsNew, front)
      + (if textsOld[p.r] == textsNew[p.c] then [] else [Modify(p.r, p.c, p.s)])
  }

  /** Step 1 reports exactly the matched pairs whose compared texts differ,
      each with its score. */
  lemma {:induction false} ModifiedChangesMembers(textsOld: seq<string>, textsNew: seq<string>, matched: seq<Cand>)
    requires PairsInRange(matched, |textsOld|, |textsNew|)
    ensures forall c :: c in ModifiedChanges(textsOld, textsNew, matched) <==>
      c.Modify? && Cand(c.i, c.j, c.s) in matched && c.i < |textsOld| && c.j < |textsNew| && textsOld[c.i] != textsNew[c.j]
  {
    if matched != [] {
      var front := matched[..|matched| - 1];
      var p := matched[|matched| - 1];
      assert matched == front + [p];
      ModifiedChangesMembers(textsOld, textsNew, front);
    }
  }

  /** Distinct matched pairs give distinct entries. */
  lemma {:induction false} ModifiedChangesDistinct(textsOld: seq<string>, textsNew: seq<string>, matched: seq<Cand>)
    requires PairsInRange(matched, |textsOld|, |textsNew|)
    requires Distinct(matched)
    ensures Distinct(ModifiedChanges(textsOld, textsNew, matched))
  {
    if matched != [] {
      var front := matched[..|matched| - 1];
      var p := matched[|matched| - 1];
      FrontDistinct(matched);
      ModifiedChangesDistinct(textsOld, textsNew, front);
      if textsOld[p.r] != textsNew[p.c] {
        ModifiedChangesMembers(textsOld, textsNew, front);
        SnocDistinct(ModifiedChanges(textsOld, textsNew, front), Modify(p.r, p.c, p.s));
      }
    }
  }

  /** Step 1 of `generate_mapping`. The rows and the compared texts are
      those of the units, so `rowsOld[i]` is what the source builds from
      `units_old[i]` and `textsOld[i]` is `texts_old[i]`. */
  method EmitModified(rowsOld: seq<Row>, rowsNew: seq<Row>, textsOld: seq<string>, textsNew: seq<string>,
                      matched: seq<Cand>)
    returns (entries: seq<Entry>)
    requires |rowsOld| == |textsOld| && |rowsNew| == |textsNew|
    requires PairsInRange(matched, |textsOld|, |textsNew|)
    ensures entries == RenderAll(rowsOld, rowsNew, ModifiedChanges(textsOld, textsNew, matched))
  {
    entries := [];
    var k := 0;
    while k < |matched|
      invariant k <= |matched|
      invariant entries == RenderAll(rowsOld, rowsNew, ModifiedChanges(textsOld, textsNew, matched[..k]))
    {
      var p := matched[k];
      ModifiedChangesStep(textsOld, textsNew, matched, k);
      if textsOld[p.r] == textsNew[p.c] {
      } else {
        var e := Entry(Some(rowsOld[p.r].ref), Some(rowsNew[p.c].ref), p.s, Modified, rowsOld[p.r].shown, rowsNew[p.c].shown);
        assert e == Render(rowsOld, rowsNew, Modify(p.r, p.c, p.s));
        RenderAllSnoc(rowsOld, rowsNew, ModifiedChanges(textsOld, textsNew, matched[..k]), Modify(p.r, p.c, p.s));
        entries := entries + [e];
      }
      k := k + 1;
    }
    assert matched[..k] == matched;
  }

  lemma ModifiedChangesStep(textsOld: seq<string>, textsNew: seq<string>, matched: seq<Cand>, k: nat)
    requires k < |matched|
    requires PairsInRange(matched, |textsOld|, |textsNew|)
    ensures PairsInRange(matched[..k], |textsOld|, |textsNew|)
    ensures PairsInRange(matched[..k + 1], |textsOld|, |textsNew|)
    ensures var p := matched[k];
      ModifiedChanges(textsOld, textsNew, matched[..k + 1])
      == ModifiedChanges(textsOld, textsNew, matched[..k])
         + (if textsOld[p.r] == textsNew[p.c] then [] else [Modify(p.r, p.c, p.s)])
  {
    assert matched[..k + 1][..k] == matched[..k];
    assert matched[..k + 1][k] == matched[k];
  }

  // Steps 2 and 3

  /** The unit indices of the groups, the keys of the dictionary. */
  function Indices(gs: seq<Group>): set<nat> {
    set g | g in gs :: g.index
  }

  /** Every new unit that is a leg of some split, `split_new_indices`. */
  function LegCols(gs: seq<Group>): set<nat> {
    set g, x | g in gs && x in g.legs :: x.c
  }

  lemma IndicesStep(gs: seq<Group>, k: nat)
    requires k < |gs|
    ensures Indices(gs[..k + 1]) == Indices(gs[..k]) + {gs[k].index}
  {
    assert gs[..k + 1] == gs[..k] + [gs[k]];
  }

  predicate IncreasingIndices(gs: seq<Group>) {
    forall a, b :: 0 <= a < b < |gs| ==> gs[a].index < gs[b].index
  }

  /** One deletion per split source, in the order of `splits`. */
  function SplitDeletes(splits: seq<Group>): seq<Change> {
    seq(|splits|, k requires 0 <= k < |splits| => Delete(splits[k].index))
  }

  /** One addition per merge target, in the order of `merges`. */
  function MergeAdds(merges: seq<Group>): seq<Change> {
    seq(|merges|, k requires 0 <= k < |merges| => Add(merges[k].index))
  }

  /** Steps 2 and 3 as changes: exactly the split sources are deleted and
      exactly the merge targets added, each once when the dictionary keys
      come in increasing order. */
  lemma GroupChanges(splits: seq<Group>, merges: seq<Group>)
    ensures forall c :: c in SplitDeletes(splits) <==> c.Delete? && c.i in Indices(splits)
    ensures forall c :: c in MergeAdds(merges) <==> c.Add? && c.j in Indices(merges)
    ensures IncreasingIndices(splits) ==> Distinct(SplitDeletes(splits))
    ensures IncreasingIndices(merges) ==> Distinct(MergeAdds(merges))
  {
    forall c: Change | c.Delete? && c.i in Indices(splits) ensures c in SplitDeletes(splits) {
      var g :| g in splits && g.index == c.i;
      var k :| 0 <= k < |splits| && splits[k] == g;
      assert SplitDeletes(splits)[k] == c;
    }
    forall c: Change | c.Add? && c.j in Indices(merges) ensures c in MergeAdds(merges) {
      var g :| g in merges && g.index == c.j;
      var k :| 0 <= k < |merges| && merges[k] == g;
      assert MergeAdds(merges)[k] == c;
    }
    forall c | c in SplitDeletes(splits) ensures c.i in Indices(splits) {
      var k :| 0 <= k < |splits| && SplitDeletes(splits)[k] == c;
      assert splits[k] in splits;
    }
    forall c | c in MergeAdds(merges) ensures c.j in Indices(merges) {
      var k :| 0 <= k < |merges| && MergeAdds(merges)[k] == c;
      assert merges[k] in merges;
    }
  }

  /** Step 2 of `generate_mapping`, which also collects `split_old_indices`. */
  method EmitSplitDeletes(rowsOld: seq<Row>, rowsNew: seq<Row>, splits: seq<Group>)
    returns (entries: seq<Entry>, splitOld: set<nat>)
    requires forall g :: g in splits ==> g.index < |rowsOld|
    ensures entries == RenderAll(rowsOld, rowsNew, SplitDeletes(splits))
    ensures splitOld == Indices(splits)
  {
    entries := [];
    splitOld := {};
    var k := 0;
    while k < |splits|
      invariant k <= |splits|
      invariant entries == RenderAll(rowsOld, rowsNew, SplitDeletes(splits[..k]))
      invariant splitOld == Indices(splits[..k])
    {
      var i := splits[k].index;
      var e := Entry(Some(rowsOld[i].ref), None, 0.0, Deleted, rowsOld[i].shown, "");
      assert e == Render(rowsOld, rowsNew, Delete(i));
      SplitDeletesStep(rowsOld, rowsNew, splits, k);
      IndicesStep(splits, k);
      entries := entries + [e];
      splitOld := splitOld + {i};
      k := k + 1;
    }
    assert splits[..k] == splits;
  }

  /** Step 3 of `generate_mapping`, which also collects `merge_new_indices`. */
  method EmitMergeAdds(rowsOld: seq<Row>, rowsNew: seq<Row>, merges: seq<Group>)
    returns (entries: seq<Entry>, mergeNew: set<nat>)
    requires forall g :: g in merges ==> g.index < |rowsNew|
    ensures entries == RenderAll(rowsOld, rowsNew, MergeAdds(merges))
    ensures mergeNew == Indices(merges)
  {
    entries := [];
    mergeNew := {};
    var k := 0;
    while k < |merges|
      invariant k <= |merges|
      invariant entries == RenderAll(rowsOld, rowsNew, MergeAdds(merges[..k]))
      invariant mergeNew == Indices(merges[..k])
    {
      var j := merges[k].index;
      var e := Entry(None, Some(rowsNew[j].ref), 0.0, Added, "", rowsNew[j].shown);
      assert e == Render(rowsOld, rowsNew, Add(j));
      MergeAddsStep(rowsOld, rowsNew, merges, k);
      IndicesStep(merges, k);
      entries := entries + [e];
      mergeNew := mergeNew + {j};
      k := k + 1;
    }
    assert merges[..k] == merges;
  }

  // Steps 4 and 5

  /** The old units among the first `n` that are neither matched nor split
      sources. */
  function ResidualDeletes(n: nat, matchedOld: set<nat>, splitOld: set<nat>): (cs: seq<Change>)
    ensures forall k :: 0 <= k < |cs| ==> cs[k].Delete? && cs[k].i < n && cs[k].i !in matchedOld && cs[k].i !in splitOld
  {
    if n == 0 then []
    else
      ResidualDeletes(n - 1, matchedOld, splitOld)
      + (if n - 1 in matchedOld || n - 1 in splitOld then [] else [Delete(n - 1)])
  }

  /** The new units among the first `n` that are neither matched, nor merge
      targets, nor legs of a split. */
  function ResidualAdds(n: nat, matchedNew: set<nat>, mergeNew: set<nat>, splitNew: set<nat>): (cs: seq<Change>)
    ensures forall k :: 0 <= k < |cs| ==> cs[k].Add? && cs[k].j < n && cs[k].j !in matchedNew && cs[k].j !in mergeNew && cs[k].j !in splitNew
  {
    if n == 0 then []
    else
      ResidualAdds(n - 1, matchedNew, mergeNew, splitNew)
      + (if n - 1 in matchedNew || n - 1 in mergeNew || n - 1 in splitNew then [] else [Add(n - 1)])
  }

  /** Step 4 deletes the old units in increasing order, so none twice. */
  lemma {:induction false} ResidualDeletesIncreasing(n: nat, matchedOld: set<nat>, splitOld: set<nat>)
    ensures forall a, b :: 0 <= a < b < |ResidualDeletes(n, matchedOld, splitOld)| ==>
      ResidualDeletes(n, matchedOld, splitOld)[a].i < ResidualDeletes(n, matchedOld, splitOld)[b].i
  {
    if n > 0 {
      ResidualDeletesIncreasing(n - 1, matchedOld, splitOld);
      var before := ResidualDeletes(n - 1, matchedOld, splitOld);
      var cs := ResidualDeletes(n, matchedOld, splitOld);
      forall a, b | 0 <= a < b < |cs| ensures cs[a].i < cs[b].i {
        assert cs[a] == before[a] && before[a].i < n - 1;
        if b < |before| {
          assert cs[b] == before[b] && before[a].i < before[b].i;
        } else {
          assert cs[b] == Delete(n - 1);
        }
      }
    }
  }

  /** Step 5 adds the new units in increasing order, so none twice. */
  lemma {:induction false} ResidualAddsIncreasing(n: nat, matchedNew: set<nat>, mergeNew: set<nat>, splitNew: set<nat>)
    ensures forall a, b :: 0 <= a < b < |ResidualAdds(n, matchedNew, mergeNew, splitNew)| ==>
      ResidualAdds(n, matchedNew, mergeNew, splitNew)[a].j < ResidualAdds(n, matchedNew, mergeNew, splitNew)[b].j
  {
    if n > 0 {
      ResidualAddsIncreasing(n - 1, matchedNew, mergeNew, splitNew);
      var before := ResidualAdds(n - 1, matchedNew, mergeNew, splitNew);
      var cs := ResidualAdds(n, matchedNew, mergeNew, splitNew);
      forall a, b | 0 <= a < b < |cs| ensures cs[a].j < cs[b].j {
        assert cs[a] == before[a] && before[a].j < n - 1;
        if b < |before| {
          assert cs[b] == before[b] && before[a].j < before[b].j;
        } else {
          assert cs[b] == Add(n - 1);
        }
      }
    }
  }

  /** Every old unit below `n` that is neither matched nor a split source
      is deleted by step 4. */
  lemma {:induction false} ResidualDeletesComplete(n: nat, matchedOld: set<nat>, splitOld: set<nat>, i: nat)
    requires i < n && i !in matchedOld && i !in splitOld
    ensures Delete(i) in ResidualDeletes(n, matchedOld, splitOld)
  {
    if i < n - 1 {
      ResidualDeletesComplete(n - 1, matchedOld, splitOld, i);
    }
  }

  /** Every new unit below `n` that is neither matched, nor a merge target,
      nor a split leg is added by step 5. */
  lemma {:induction false} ResidualAddsComplete(n: nat, matchedNew: set<nat>, mergeNew: set<nat>, splitNew: set<nat>, j: nat)
    requires j < n && j !in matchedNew && j !in mergeNew && j !in splitNew
    ensures Add(j) in ResidualAdds(n, matchedNew, mergeNew, splitNew)
  {
    if j < n - 1 {
      ResidualAddsComplete(n - 1, matchedNew, mergeNew, splitNew, j);
    }
  }

  /** Step 4 of `generate_mapping`. The source writes two branches, for old
      units that are merge legs and for the others, that emit the same entry;
      they are one branch here. */
  method EmitResidualDeletes(rowsOld: seq<Row>, rowsNew: seq<Row>, matchedOld: set<nat>, splitOld: set<nat>)
    returns (entries: seq<Entry>)
    ensures entries == RenderAll(rowsOld, rowsNew, ResidualDeletes(|rowsOld|, matchedOld, splitOld))
  {
    entries := [];
    var i := 0;
    while i < |rowsOld|
      invariant i <= |rowsOld|
      invariant entries == RenderAll(rowsOld, rowsNew, ResidualDeletes(i, matchedOld, splitOld))
    {
      ResidualDeletesStep(rowsOld, rowsNew, i, matchedOld, splitOld);
      if i in matchedOld {
      } else if i in splitOld {
      } else {
        entries := entries + [Entry(Some(rowsOld[i].ref), None, 0.0, Deleted, rowsOld[i].shown, "")];
      }
      i := i + 1;
    }
  }

  /** Step 5 of `generate_mapping`. */
  method EmitResidualAdds(rowsOld: seq<Row>, rowsNew: seq<Row>, matchedNew: set<nat>, mergeNew: set<nat>, splitNew: set<nat>)
    returns (entries: seq<Entry>)
    ensures entries == RenderAll(rowsOld, rowsNew, ResidualAdds(|rowsNew|, matchedNew, mergeNew, splitNew))
  {
    entries := [];
    var j := 0;
    while j < |rowsNew|
      invariant j <= |rowsNew|
      invariant entries == RenderAll(rowsOld, rowsNew, ResidualAdds(j, matchedNew, mergeNew, splitNew))
    {
      ResidualAddsStep(rowsOld, rowsNew, j, matchedNew, mergeNew, splitNew);
      if j in matchedNew {
      } else if j in mergeNew {
      } else if j in splitNew {
      } else {
        entries := entries + [Entry(None, Some(rowsNew[j].ref), 0.0, Added, "", rowsNew[j].shown)];
      }
      j := j + 1;
    }
  }

  lemma SplitDeletesStep(rowsOld: seq<Row>, rowsNew: seq<Row>, splits: seq<Group>, k: nat)
    requires k < |splits| && forall g :: g in splits ==> g.index < |rowsOld|
    ensures RenderAll(rowsOld, rowsNew, SplitDeletes(splits[..k + 1]))
         == RenderAll(rowsOld, rowsNew, SplitDeletes(splits[..k])) + [Render(rowsOld, rowsNew, Delete(splits[k].index))]
  {
    assert SplitDeletes(splits[..k + 1]) == SplitDeletes(splits[..k]) + [Delete(splits[k].index)];
    RenderAllSnoc(rowsOld, rowsNew, SplitDeletes(splits[..k]), Delete(splits[k].index));
  }

  lemma MergeAddsStep(rowsOld: seq<Row>, rowsNew: seq<Row>, merges: seq<Group>, k: nat)
    requires k < |merges| && forall g :: g in merges ==> g.index < |rowsNew|
    ensures RenderAll(rowsOld, rowsNew, MergeAdds(merges[..k + 1]))
         == RenderAll(rowsOld, rowsNew, MergeAdds(merges[..k])) + [Render(rowsOld, rowsNew, Add(merges[k].index))]
  {
    assert MergeAdds(merges[..k + 1]) == MergeAdds(merges[..k]) + [Add(merges[k].index)];
    RenderAllSnoc(rowsOld, rowsNew, MergeAdds(merges[..k]), Add(merges[k].index));
  }

  lemma ResidualDeletesStep(rowsOld: seq<Row>, rowsNew: seq<Row>, n: nat, matchedOld: set<nat>, splitOld: set<nat>)
    requires n < |rowsOld|
    ensures RenderAll(rowsOld, rowsNew, ResidualDeletes(n + 1, matchedOld, splitOld))
         == RenderAll(rowsOld, rowsNew, ResidualDeletes(n, matchedOld, splitOld))
            + (if n in matchedOld || n in splitOld then [] else [Render(rowsOld, rowsNew, Delete(n))])
  {
    var before := ResidualDeletes(n, matchedOld, splitOld);
    if n in matchedOld || n in splitOld {
      assert ResidualDeletes(n + 1, matchedOld, splitOld) == before;
    } else {
      assert ResidualDeletes(n + 1, matchedOld, splitOld) == before + [Delete(n)];
      RenderAllSnoc(rowsOld, rowsNew, before, Delete(n));
    }
  }

  lemma ResidualAddsStep(rowsOld: seq<Row>, rowsNew: seq<Row>, n: nat, matchedNew: set<nat>, mergeNew: set<nat>, splitNew: set<nat>)
    requires n < |rowsNew|
    ensures RenderAll(rowsOld, rowsNew, ResidualAdds(n + 1, matchedNew, mergeNew, splitNew))
         == RenderAll(rowsOld, rowsNew, ResidualAdds(n, matchedNew, mergeNew, splitNew))
            + (if n in matchedNew || n in mergeNew || n in splitNew then [] else [Render(rowsOld, rowsNew, Add(n))])
  {
    var before := ResidualAdds(n, matchedNew, mergeNew, splitNew);
    if n in matchedNew || n in mergeNew || n in splitNew {
      assert ResidualAdds(n + 1, matchedNew, mergeNew, splitNew) == before;
    } else {
      assert ResidualAdds(n + 1, matchedNew, mergeNew, splitNew) == before + [Add(n)];
      RenderAllSnoc(rowsOld, rowsNew, before, Add(n));
    }
  }

  // The whole changelog

  /** The five steps in order. */
  function Changes(textsOld: seq<string>, textsNew: seq<string>, matched: seq<Cand>,
                   splits: seq<Group>, merges: seq<Group>): (cs: seq<Change>)
    requires PairsInRange(matched, |textsOld|, |textsNew|)
  {
    ModifiedChanges(textsOld, textsNew, matched)
    + SplitDeletes(splits)
    + MergeAdds(merges)
    + ResidualDeletes(|textsOld|, RowsOf(matched), Indices(splits))
    + ResidualAdds(|textsNew|, ColsOf(matched), Indices(merges), LegCols(splits))
  }
}

=== FILE: termdict.dfy ===
/** The term dictionary of the glossary builder. `process_articles_file`
    fills `term_dict` in place, one accepted match at a time: the first
    accepted definition of a term wins and its article ids accumulate.
    `build_glossary` then lists the terms by their lower-cased form, each
    with its definition and its sorted article ids.

    The term pattern's `finditer` is the parameter `extract`: given a
    cleaned text it yields the (term, definition) groups of its matches,
    in order. */
module TermDictionary {
  import opened Wrappers
  import opened Seqs
  import opened Text
  import opened Documents
  import opened Glossary
  import opened StringOrder

  /** An `article_id`; an article record may lack it. */
  type ArticleId = Option<string>

  /** One match of the term pattern: the article it came from, the cleaned
      term and the stripped definition. */
  datatype Found = Found(articleId: ArticleId, term: string, definition: string)

  /** The value `term_dict` keeps for a term. */
  datatype Info = Info(definition: string, related: set<ArticleId>)

  /** The contents of `term_dict`: its keys in insertion order (the order a
      Python dict iterates in) and the value of each key. */
  datatype Dict = Dict(keys: seq<string>, entries: map<string, Info>)

  ghost predicate WellFormed(d: Dict) {
    Distinct(d.keys)
    && (forall k :: 0 <= k < |d.keys| ==> d.keys[k] in d.entries)
    && (forall t :: t in d.entries ==> t in d.keys)
  }

  /** The fresh `defaultdict` of `build_glossary`. */
  const Empty: Dict := Dict([], map[])

  /** `is_likely_term` with its default limits, as the scan calls it. */
  predicate Accepted(f: Found) {
    LikelyTerm(Some(f.term), MaxWords, MaxChars, MaxCommas, StopwordThreshold)
  }

  /** The update for one accepted match: a known term gains the article, a
      new term is added with the match's definition and article. */
  function Record(d: Dict, f: Found): Dict {
    if f.term in d.entries then
      var info := d.entries[f.term];
      Dict(d.keys, d.entries[f.term := Info(info.definition, info.related + {f.articleId})])
    else
      Dict(d.keys + [f.term], d.entries[f.term := Info(f.definition, {f.articleId})])
  }

  /** The dictionary after the matches `fs`, taken in order; a rejected
      match changes nothing. */
  function Absorb(d: Dict, fs: seq<Found>): Dict {
    if fs == [] then d
    else
      var before := Absorb(d, fs[..|fs| - 1]);
      var f := fs[|fs| - 1];
      if Accepted(f) then Record(before, f) else before
  }

  // ----- What the scan finds -----

  /** The matches in one text of an article: the text is cleaned, and each
      match's term is cleaned and its definition stripped. */
  function TextFinds(text: string, id: ArticleId, extract: string -> seq<(string, string)>): seq<Found> {
    MatchFinds(extract(CleanText(text)), id)
  }

  /** The matches `ms` of a cleaned text, each term cleaned and each
      definition stripped. */
  function MatchFinds(ms: seq<(string, string)>, id: ArticleId): (fs: seq<Found>)
    ensures |fs| == |ms|
  {
    seq(|ms|, k requires 0 <= k < |ms| => Found(id, CleanTerm(ms[k].0), Strip(ms[k].1)))
  }

  function TextsFinds(texts: seq<string>, id: ArticleId, extract: string -> seq<(string, string)>): seq<Found> {
    if texts == [] then []
    else TextsFinds(texts[..|texts| - 1], id, extract) + TextFinds(texts[|texts| - 1], id, extract)
  }

  /** The matches in every text of an article, in document order. */
  function ArticleFinds(a: Article, extract: string -> seq<(string, string)>): seq<Found> {
    TextsFinds(ArticleTexts(a), a.articleId, extract)
  }

  /** The matches in a file of articles, in order. */
  function FileFinds(articles: seq<Article>, extract: string -> seq<(string, string)>): seq<Found> {
    if articles == [] then []
    else FileFinds(articles[..|articles| - 1], extract) + ArticleFinds(articles[|articles| - 1], extract)
  }

  /** The matches in every file, in order. */
  function AllFinds(files: seq<seq<Article>>, extract: string -> seq<(string, string)>): seq<Found> {
    if files == [] then []
    else AllFinds(files[..|files| - 1], extract) + FileFinds(files[|files| - 1], extract)
  }

  // ----- What the dictionary ends up holding -----

  /** The terms of the accepted matches. */
  function AcceptedTerms(fs: seq<Found>): set<string> {
    if fs == [] then {}
    else
      var f := fs[|fs| - 1];
      AcceptedTerms(fs[..|fs| - 1]) + (if Accepted(f) then {f.term} else {})
  }

  /** The articles of the accepted matches of term `t`. */
  function RelatedIn(fs: seq<Found>, t: string): set<ArticleId> {
    if fs == [] then {}
    else
      var f := fs[|fs| - 1];
      RelatedIn(fs[..|fs| - 1], t) + (if Accepted(f) && f.term == t then {f.articleId} else {})
  }

  /** Match `k` is the first accepted match of its term. */
  predicate FirstAccepted(fs: seq<Found>, k: nat)
    requires k < |fs|
  {
    Accepted(fs[k]) && forall m :: 0 <= m < k ==> !(Accepted(fs[m]) && fs[m].term == fs[k].term)
  }

  lemma {:induction false} AbsorbAppend(d: Dict, a: seq<Found>, b: seq<Found>)
    ensures Absorb(d, a + b) == Absorb(Absorb(d, a), b)
  {
    if b != [] {
      var n := |b|;
      assert (a + b)[..|a + b| - 1] == a + b[..n - 1];
      assert (a + b)[|a + b| - 1] == b[n - 1];
      AbsorbAppend(d, a, b[..n - 1]);
    } else {
      assert a + b == a;
    }
  }

  /** One more match: recorded if accepted, skipped otherwise. */
  lemma AbsorbSnoc(d: Dict, fs: seq<Found>, k: nat)
    requires k < |fs|
    ensures Absorb(d, fs[..k + 1]) == if Accepted(fs[k]) then Record(Absorb(d, fs[..k]), fs[k]) else Absorb(d, fs[..k])
  {
    assert fs[..k + 1][..k] == fs[..k];
  }

  /** A term that no accepted match found is not among the accepted terms. */
  lemma {:induction false} NotAccepted(fs: seq<Found>, t: string)
    requires forall m :: 0 <= m < |fs| ==> !(Accepted(fs[m]) && fs[m].term == t)
    ensures t !in AcceptedTerms(fs)
  {
    if fs != [] {
      var init := fs[..|fs| - 1];
      forall m | 0 <= m < |init| ensures !(Accepted(init[m]) && init[m].term == t) {
        assert init[m] == fs[m];
      }
      NotAccepted(init, t);
    }
  }

  /** The dictionary keeps its keys distinct and in step with its entries. */
  lemma {:induction false} AbsorbWellFormed(d: Dict, fs: seq<Found>)
    requires WellFormed(d)
    ensures WellFormed(Absorb(d, fs))
  {
    if fs != [] {
      var before := Absorb(d, fs[..|fs| - 1]);
      AbsorbWellFormed(d, fs[..|fs| - 1]);
      var f := fs[|fs| - 1];
      if Accepted(f) && f.term !in before.entries {
        var ks := before.keys + [f.term];
        forall a, b | 0 <= a < b < |ks| ensures ks[a] != ks[b] {
          if b < |before.keys| {
            assert ks[a] == before.keys[a] && ks[b] == before.keys[b];
          } else {
            assert ks[a] == before.keys[a] && ks[a] in before.entries;
          }
        }
      }
    }
  }

  /** A term is in the dictionary exactly when it was before or some
      accepted match found it: a rejected candidate is never recorded. */
  lemma {:induction false} AbsorbTerms(d: Dict, fs: seq<Found>, t: string)
    ensures t in Absorb(d, fs).entries <==> t in d.entries || t in AcceptedTerms(fs)
  {
    if fs != [] {
      AbsorbTerms(d, fs[..|fs| - 1], t);
    }
  }

  /** A term already present keeps its definition. */
  lemma {:induction false} AbsorbKeepsDefinition(d: Dict, fs: seq<Found>, t: string)
    requires t in d.entries
    ensures t in Absorb(d, fs).entries && Absorb(d, fs).entries[t].definition == d.entries[t].definition
  {
    if fs != [] {
      AbsorbKeepsDefinition(d, fs[..|fs| - 1], t);
    }
  }

  /** The first definition wins: a new term gets the definition of its
      first accepted match, whatever follows. */
  lemma AbsorbFirstDefinition(d: Dict, fs: seq<Found>, k: nat)
    requires k < |fs| && FirstAccepted(fs, k) && fs[k].term !in d.entries
    ensures fs[k].term in Absorb(d, fs).entries && Absorb(d, fs).entries[fs[k].term].definition == fs[k].definition
  {
    var t := fs[k].term;
    var head := fs[..k];
    forall m | 0 <= m < |head| ensures !(Accepted(head[m]) && head[m].term == t) {
      assert head[m] == fs[m];
    }
    NotAccepted(head, t);
    AbsorbTerms(d, head, t);
    AbsorbSnoc(d, fs, k);
    var after := Absorb(d, fs[..k + 1]);
    assert after.entries[t].definition == fs[k].definition;
    assert fs == fs[..k + 1] + fs[k + 1..];
    AbsorbAppend(d, fs[..k + 1], fs[k + 1..]);
    AbsorbKeepsDefinition(after, fs[k + 1..], t);
  }

  /** One recorded match adds its article to its own term only. */
  lemma RecordRelated(d: Dict, f: Found, t: string)
    requires t in Record(d, f).entries
    ensures t in d.entries || t == f.term
    ensures Record(d, f).entries[t].related
      == (if t in d.entries then d.entries[t].related else {}) + (if f.term == t then {f.articleId} else {})
  {
  }

  /** A term that no accepted match found has no articles from them. */
  lemma {:induction false} NoRelatedIn(fs: seq<Found>, t: string)
    requires t !in AcceptedTerms(fs)
    ensures RelatedIn(fs, t) == {}
  {
    if fs != [] {
      NoRelatedIn(fs[..|fs| - 1], t);
    }
  }

  /** A term's articles are the ones it had plus those of every accepted
      match of it. */
  lemma {:induction false} AbsorbRelated(d: Dict, fs: seq<Found>, t: string)
    requires t in Absorb(d, fs).entries
    ensures Absorb(d, fs).entries[t].related
      == (if t in d.entries then d.entries[t].related else {}) + RelatedIn(fs, t)
  {
    if fs == [] {
      assert RelatedIn(fs, t) == {};
    } else {
      var init := fs[..|fs| - 1];
      var f := fs[|fs| - 1];
      var before := Absorb(d, init);
      var base: set<ArticleId> := if t in d.entries then d.entries[t].related else {};
      var extra: set<ArticleId> := if Accepted(f) && f.term == t then {f.articleId} else {};
      assert RelatedIn(fs, t) == RelatedIn(init, t) + extra;
      if t in before.entries {
        AbsorbRelated(d, init, t);
        assert before.entries[t].related == base + RelatedIn(init, t);
        if Accepted(f) {
          RecordRelated(before, f, t);
          assert Absorb(d, fs).entries[t].related == before.entries[t].related + extra;
        } else {
          assert Absorb(d, fs).entries[t].related == before.entries[t].related;
        }
      } else {
        AbsorbTerms(d, init, t);
        NoRelatedIn(init, t);
        RecordRelated(before, f, t);
        assert base == {} && RelatedIn(init, t) == {};
        assert Absorb(d, fs).entries[t].related == extra;
      }
    }
  }

  // ----- The dictionary, updated in place -----

  /** `term_dict`, a `defaultdict` that `process_articles_file` updates. */
  class TermDict {
    var keys: seq<string>
    var entries: map<string, Info>

    function Contents(): Dict
      reads this
    {
      Dict(keys, entries)
    }

    constructor ()
      ensures Contents() == Empty
    {
      keys := [];
      entries := map[];
    }

    /** Records one accepted match. */
    method Add(f: Found)
      modifies this
      ensures Contents() == Record(old(Contents()), f)
    {
      if f.term in entries {
        var info := entries[f.term];
        entries := entries[f.term := Info(info.definition, info.related + {f.articleId})];
      } else {
        keys := keys + [f.term];
        entries := entries[f.term := Info(f.definition, {f.articleId})];
      }
    }

    /** Records a match when its term looks like a term, and skips it
        otherwise. */
    method Consider(f: Found)
      modifies this
      ensures Contents() == if Accepted(f) then Record(old(Contents()), f) else old(Contents())
    {
      var likely := IsLikelyTerm(Some(f.term), MaxWords, MaxChars, MaxCommas, StopwordThreshold);
      if likely {
        Add(f);
      }
    }

    /** Scans one text of an article and records every match that looks
        like a term. */
    method ScanText(text: string, id: ArticleId, extract: string -> seq<(string, string)>)
      modifies this
      ensures Contents() == Absorb(old(Contents()), TextFinds(text, id, extract))
    {
      ScanMatches(extract(CleanText(text)), id);
    }

    /** The inner loop over the matches of one cleaned text. */
    method ScanMatches(matches: seq<(string, string)>, id: ArticleId)
      modifies this
      ensures Contents() == Absorb(old(Contents()), MatchFinds(matches, id))
    {
      ghost var fs := MatchFinds(matches, id);
      var k := 0;
      while k < |matches|
        invariant k <= |matches|
        invariant Contents() == Absorb(old(Contents()), fs[..k])
      {
        var f := Found(id, CleanTerm(matches[k].0), Strip(matches[k].1));
        assert fs[k] == f;
        AbsorbSnoc(old(Contents()), fs, k);
        Consider(f);
        k := k + 1;
      }
      assert fs[..k] == fs;
    }

    /** Scans every text of one article. */
    method ProcessArticle(a: Article, extract: string -> seq<(string, string)>)
      modifies this
      ensures Contents() == Absorb(old(Contents()), ArticleFinds(a, extract))
    {
      var texts := GatherTexts(a);
      var i := 0;
      while i < |texts|
        invariant i <= |texts|
        invariant Contents() == Absorb(old(Contents()), TextsFinds(texts[..i], a.articleId, extract))
      {
        ScanText(texts[i], a.articleId, extract);
        TextsFindsStep(texts, i, a.articleId, extract);
        AbsorbAppend(old(Contents()), TextsFinds(texts[..i], a.articleId, extract), TextFinds(texts[i], a.articleId, extract));
        i := i + 1;
      }
      assert texts[..i] == texts;
    }

    /** `process_articles_file`: scans every article of a file, in order. */
    method ProcessArticlesFile(articles: seq<Article>, extract: string -> seq<(string, string)>)
      modifies this
      ensures Contents() == Absorb(old(Contents()), FileFinds(articles, extract))
    {
      var i := 0;
      while i < |articles|
        invariant i <= |articles|
        invariant Contents() == Absorb(old(Contents()), FileFinds(articles[..i], extract))
      {
        ProcessArticle(articles[i], extract);
        FileFindsStep(articles, i, extract);
        AbsorbAppend(old(Contents()), FileFinds(articles[..i], extract), ArticleFinds(articles[i], extract));
        i := i + 1;
      }
      assert articles[..i] == articles;
    }
  }

  /** The `text_list` of an article: its own text, then each clause's text
      followed by the texts of its points, skipping empty and absent ones. */
  method GatherTexts(a: Article) returns (texts: seq<string>)
    ensures texts == ArticleTexts(a)
  {
    texts := [];
    if Truthy(a.fullText) {
      texts := texts + [a.fullText.value];
    }
    var i := 0;
    while i < |a.clauses|
      invariant i <= |a.clauses|
      invariant texts == TextIfAny(a.fullText) + ClausesTexts(a.clauses[..i])
    {
      var clause := a.clauses[i];
      ghost var before := texts;
      if Truthy(clause.fullText) {
        texts := texts + [clause.fullText.value];
      }
      assert texts == before + TextIfAny(clause.fullText);
      var more := GatherPointTexts(clause.points);
      texts := texts + more;
      assert texts == TextIfAny(a.fullText) + ClausesTexts(a.clauses[..i + 1]) by {
        AppendAssoc(before, TextIfAny(clause.fullText), more);
        ClausesTextsStep(a.clauses, i);
        AppendAssoc(TextIfAny(a.fullText), ClausesTexts(a.clauses[..i]), ClauseTexts(clause));
      }
      i := i + 1;
    }
    assert a.clauses[..i] == a.clauses;
  }

  /** The inner loop of the gathering, over the points of one clause. */
  method GatherPointTexts(points: seq<Point>) returns (texts: seq<string>)
    ensures texts == PointTexts(points)
  {
    texts := [];
    var k := 0;
    while k < |points|
      invariant k <= |points|
      invariant texts == PointTexts(points[..k])
    {
      if Truthy(points[k].fullText) {
        texts := texts + [points[k].fullText.value];
      }
      PointTextsStep(points, k);
      k := k + 1;
    }
    assert points[..k] == points;
  }

  lemma PointTextsStep(ps: seq<Point>, k: nat)
    requires k < |ps|
    ensures PointTexts(ps[..k + 1]) == PointTexts(ps[..k]) + TextIfAny(ps[k].fullText)
  {
    assert ps[..k + 1][..k] == ps[..k];
  }

  lemma ClausesTextsStep(cs: seq<Clause>, i: nat)
    requires i < |cs|
    ensures ClausesTexts(cs[..i + 1]) == ClausesTexts(cs[..i]) + ClauseTexts(cs[i])
  {
    assert cs[..i + 1][..i] == cs[..i];
  }

  lemma TextsFindsStep(texts: seq<string>, i: nat, id: ArticleId, extract: string -> seq<(string, string)>)
    requires i < |texts|
    ensures TextsFinds(texts[..i + 1], id, extract) == TextsFinds(texts[..i], id, extract) + TextFinds(texts[i], id, extract)
  {
    assert texts[..i + 1][..i] == texts[..i];
  }

  lemma FileFindsStep(articles: seq<Article>, i: nat, extract: string -> seq<(string, string)>)
    requires i < |articles|
    ensures FileFinds(articles[..i + 1], extract) == FileFinds(articles[..i], extract) + ArticleFinds(articles[i], extract)
  {
    assert articles[..i + 1][..i] == articles[..i];
  }

  lemma AllFindsStep(files: seq<seq<Article>>, i: nat, extract: string -> seq<(string, string)>)
    requires i < |files|
    ensures AllFinds(files[..i + 1], extract) == AllFinds(files[..i], extract) + FileFinds(files[i], extract)
  {
    assert files[..i + 1][..i] == files[..i];
  }

  // ----- Assembling the glossary -----

  /** One entry of the output list. */
  datatype GlossaryEntry = GlossaryEntry(term: string, definition: string, relatedArticles: seq<ArticleId>)

  /** The key of `sorted` without a `key` argument: the string itself. */
  function Identity(s: string): string {
    s
  }

  /** Python can order these ids: it cannot compare `None` with a string. */
  predicate Sortable(ids: set<ArticleId>) {
    !(None in ids && |ids| >= 2)
  }

  /** Strictly ascending ids (so no id twice). */
  predicate Ascending(ids: seq<ArticleId>) {
    forall i, j :: 0 <= i < j < |ids| ==>
      ids[i].Some? && ids[j].Some? && StrLe(ids[i].value, ids[j].value) && ids[i] != ids[j]
  }

  /** `sorted(related_articles)`. */
  method SortIds(ids: set<ArticleId>) returns (r: Result<seq<ArticleId>>)
    ensures r.Ok? <==> Sortable(ids)
    ensures r.Ok? ==> Ascending(r.value) && |r.value| == |ids| && forall x :: x in r.value <==> x in ids
  {
    if None in ids {
      if |ids| >= 2 {
        return Err("'<' not supported between instances of 'NoneType' and 'str'");
      }
      assert |ids - {None}| == 0;
      assert ids == {None};
      return Ok([None]);
    }
    var out := SortStrings(ids);
    var result := seq(|out|, k requires 0 <= k < |out| => Some(out[k]));
    assert Ascending(result) by {
      forall i, j | 0 <= i < j < |result| ensures result[i] != result[j] {
        assert out[i] != out[j];
      }
    }
    assert forall x :: x in result <==> x in ids by {
      forall x | x in ids ensures x in result {
        var k :| 0 <= k < |out| && out[k] == x.value;
        assert result[k] == x;
      }
    }
    return Ok(result);
  }

  /** Sorts a set of ids none of which is `None`, by insertion. */
  method SortStrings(ids: set<ArticleId>) returns (out: seq<string>)
    requires None !in ids
    ensures SortedBy(Identity, out) && Distinct(out) && |out| == |ids|
    ensures forall x :: x in ids <==> x.Some? && x.value in out
  {
    var rest := ids;
    out := [];
    while rest != {}
      invariant rest <= ids
      invariant forall x :: x in out ==> Some(x) in ids && Some(x) !in rest
      invariant forall x :: x in ids ==> x in rest || (x.Some? && x.value in out)
      invariant SortedBy(Identity, out) && Distinct(out)
      invariant |out| + |rest| == |ids|
      decreases |rest|
    {
      var x :| x in rest;
      InsertSorted(Identity, x.value, out);
      InsertDistinct(Identity, x.value, out);
      InsertMembers(Identity, x.value, out);
      out := InsertBy(Identity, x.value, out);
      rest := rest - {x};
    }
  }

  /** What `build_glossary` outputs for dictionary `d`: it fails exactly
      when some term's articles mix `None` with ids; otherwise it lists the
      terms in `sorted(..., key=lower)` order, each with its definition and
      its articles in ascending order. */
  ghost predicate GlossaryOf(d: Dict, r: Result<seq<GlossaryEntry>>) {
    (r.Ok? <==> forall t :: t in d.entries ==> Sortable(d.entries[t].related))
    && (r.Ok? ==>
      |r.value| == |d.keys|
      && forall k :: 0 <= k < |r.value| ==> EntryOf(d, SortBy(Lower, d.keys)[k], r.value[k]))
  }

  /** Entry `e` lists term `t` of `d` with its definition and its articles
      in ascending order. */
  ghost predicate EntryOf(d: Dict, t: string, e: GlossaryEntry) {
    e.term == t
    && t in d.entries
    && e.definition == d.entries[t].definition
    && Ascending(e.relatedArticles)
    && (forall x :: x in e.relatedArticles <==> x in d.entries[t].related)
  }

  /** The sorted terms are exactly the dictionary's keys. */
  lemma SortedKeys(d: Dict)
    requires WellFormed(d)
    ensures forall k :: 0 <= k < |SortBy(Lower, d.keys)| ==> SortBy(Lower, d.keys)[k] in d.entries
    ensures forall t :: t in d.entries ==> t in SortBy(Lower, d.keys)
  {
    var terms := SortBy(Lower, d.keys);
    forall k | 0 <= k < |terms| ensures terms[k] in d.entries {
      assert terms[k] in multiset(d.keys);
    }
    forall t | t in d.entries ensures t in terms {
      assert t in multiset(d.keys);
    }
  }

  /** The terms of the entries, in order. */
  function Terms(es: seq<GlossaryEntry>): (ts: seq<string>)
    ensures |ts| == |es|
  {
    seq(|es|, k requires 0 <= k < |es| => es[k].term)
  }

  /** A listed glossary has one entry per term of the dictionary, ordered
      by the lower-cased term; terms with the same lower-cased form keep
      the order in which the dictionary first met them. */
  lemma GlossaryShape(d: Dict, r: Result<seq<GlossaryEntry>>)
    requires WellFormed(d) && GlossaryOf(d, r) && r.Ok?
    ensures forall i, j :: 0 <= i < j < |r.value| ==>
      StrLe(Lower(r.value[i].term), Lower(r.value[j].term)) && r.value[i].term != r.value[j].term
    ensures forall t :: t in d.entries <==> t in Terms(r.value)
    ensures forall v :: WithKey(Lower, v, Terms(r.value)) == WithKey(Lower, v, d.keys)
  {
    var terms := SortBy(Lower, d.keys);
    assert Terms(r.value) == terms;
    SortSorted(Lower, d.keys);
    PermutationDistinct(d.keys, terms);
    SortedKeys(d);
    forall v ensures WithKey(Lower, v, terms) == WithKey(Lower, v, d.keys) {
      SortStable(Lower, v, d.keys);
    }
  }

  /** Lists the dictionary's terms by their lower-cased form. */
  method Assemble(d: Dict) returns (r: Result<seq<GlossaryEntry>>)
    requires WellFormed(d)
    ensures GlossaryOf(d, r)
  {
    var terms := SortBy(Lower, d.keys);
    SortedKeys(d);
    r := ListEntries(d, terms);
    if r.Ok? {
      forall t | t in d.entries ensures Sortable(d.entries[t].related) {
        var m :| 0 <= m < |terms| && terms[m] == t;
      }
    }
  }

  /** The loop of `build_glossary` that builds `glossary_terms` from the
      sorted terms; `sorted(related_articles)` may raise, which ends it. */
  method ListEntries(d: Dict, terms: seq<string>) returns (r: Result<seq<GlossaryEntry>>)
    requires forall m :: 0 <= m < |terms| ==> terms[m] in d.entries
    ensures r.Ok? <==> forall m :: 0 <= m < |terms| ==> Sortable(d.entries[terms[m]].related)
    ensures r.Ok? ==> |r.value| == |terms| && forall m :: 0 <= m < |terms| ==> EntryOf(d, terms[m], r.value[m])
  {
    var out: seq<GlossaryEntry> := [];
    for k := 0 to |terms|
      invariant |out| == k
      invariant forall m :: 0 <= m < k ==> Sortable(d.entries[terms[m]].related)
      invariant forall m :: 0 <= m < k ==> EntryOf(d, terms[m], out[m])
    {
      var info := d.entries[terms[k]];
      var ids := SortIds(info.related);
      if ids.Err? {
        return Err(ids.message);
      }
      out := out + [GlossaryEntry(terms[k], info.definition, ids.value)];
    }
    return Ok(out);
  }

  /** `build_glossary` without its file I/O: each file's articles, already
      parsed, go through `process_articles_file` on one shared dictionary,
      which is then listed. */
  method BuildGlossary(files: seq<seq<Article>>, extract: string -> seq<(string, string)>)
    returns (r: Result<seq<GlossaryEntry>>)
    ensures GlossaryOf(Absorb(Empty, AllFinds(files, extract)), r)
  {
    var dict := new TermDict();
    var i := 0;
    while i < |files|
      invariant i <= |files|
      invariant dict.Contents() == Absorb(Empty, AllFinds(files[..i], extract))
    {
      dict.ProcessArticlesFile(files[i], extract);
      AllFindsStep(files, i, extract);
      AbsorbAppend(Empty, AllFinds(files[..i], extract), FileFinds(files[i], extract));
      i := i + 1;
    }
    assert files[..i] == files;
    AbsorbWellFormed(Empty, AllFinds(files, extract));
    r := Assemble(dict.Contents());
  }
}

=== FILE: text.dfy ===
/** Python string primitives the two scripts rely on: Unicode whitespace
    (`str.isspace`, the `\s` class of `re`), `str.strip`, `str.replace` of one
    character, `re.sub(r'\s+', ' ', s)`, substring tests and `str.lower`. */
module Text {

  /** `str.isspace()`, which is also what `\s` matches in a `str` pattern. */
  predicate IsSpace(c: char) {
    || ('\U{0009}' <= c <= '\U{000D}')
    || ('\U{001C}' <= c <= '\U{0020}')
    || c == '\U{0085}' || c == '\U{00A0}' || c == '\U{1680}'
    || ('\U{2000}' <= c <= '\U{200A}')
    || c == '\U{2028}' || c == '\U{2029}' || c == '\U{202F}' || c == '\U{205F}'
    || c == '\U{3000}'
  }

  /** `\d`, restricted to the ASCII digits. */
  predicate IsDigit(c: char) {
    '0' <= c <= '9'
  }

  /** No character is a line break. */
  predicate NoLineBreaks(s: string) {
    forall k :: 0 <= k < |s| ==> s[k] != '\r' && s[k] != '\n'
  }

  /** Neither the first nor the last character is whitespace. */
  predicate Trimmed(s: string) {
    s == [] || (!IsSpace(s[0]) && !IsSpace(s[|s| - 1]))
  }

  /** The only whitespace character is the plain space. */
  predicate PlainSpaces(s: string) {
    forall k :: 0 <= k < |s| && IsSpace(s[k]) ==> s[k] == ' '
  }

  /** No two neighbouring characters are both whitespace. */
  predicate SingleSpaced(s: string) {
    forall k :: 1 <= k < |s| ==> !(IsSpace(s[k - 1]) && IsSpace(s[k]))
  }

  /** The non-whitespace characters of `s`, in order. */
  function Squeeze(s: string): string {
    if s == [] then []
    else (if IsSpace(s[0]) then [] else [s[0]]) + Squeeze(s[1..])
  }

  lemma {:induction false} SqueezeAppend(a: string, b: string)
    ensures Squeeze(a + b) == Squeeze(a) + Squeeze(b)
  {
    if a != [] {
      assert (a + b)[1..] == a[1..] + b;
      SqueezeAppend(a[1..], b);
    } else {
      assert a + b == b;
    }
  }

  /** A string made of whitespace only has no visible characters. */
  lemma {:induction false} SqueezeAllSpace(s: string)
    requires forall k :: 0 <= k < |s| ==> IsSpace(s[k])
    ensures Squeeze(s) == []
  {
    if s != [] {
      SqueezeAllSpace(s[1..]);
    }
  }

  /** `str.lstrip()`. */
  function TrimLeft(s: string): (r: string)
    ensures |r| <= |s|
    ensures r == [] || !IsSpace(r[0])
    ensures forall k :: 0 <= k < |s| - |r| ==> IsSpace(s[k])
  {
    if s != [] && IsSpace(s[0]) then TrimLeft(s[1..]) else s
  }

  /** `str.rstrip()`. */
  function TrimRight(s: string): (r: string)
    ensures |r| <= |s|
    ensures r == [] || !IsSpace(r[|r| - 1])
    ensures forall k :: |r| <= k < |s| ==> IsSpace(s[k])
  {
    if s != [] && IsSpace(s[|s| - 1]) then TrimRight(s[..|s| - 1]) else s
  }

  /** What `lstrip()` keeps is a suffix of its input. */
  lemma {:induction false} TrimLeftSlice(s: string)
    ensures TrimLeft(s) == s[|s| - |TrimLeft(s)|..]
  {
    if s != [] && IsSpace(s[0]) {
      TrimLeftSlice(s[1..]);
    }
  }

  /** What `rstrip()` keeps is a prefix of its input. */
  lemma {:induction false} TrimRightSlice(s: string)
    ensures TrimRight(s) == s[..|TrimRight(s)|]
  {
    if s != [] && IsSpace(s[|s| - 1]) {
      TrimRightSlice(s[..|s| - 1]);
    }
  }

  /** `str.strip()`: whitespace goes at both ends. */
  function Strip(s: string): (r: string)
    ensures Trimmed(r)
    ensures |r| <= |s|
  {
    TrimRightSlice(TrimLeft(s));
    TrimRight(TrimLeft(s))
  }

  /** What `str.strip()` keeps is a slice of its input with nothing but
      whitespace around it. */
  lemma StripSlice(s: string, a: nat)
    requires a == |s| - |TrimLeft(s)|
    ensures a + |Strip(s)| <= |s|
    ensures Strip(s) == s[a..a + |Strip(s)|]
    ensures forall k :: 0 <= k < a ==> IsSpace(s[k])
    ensures forall k :: a + |Strip(s)| <= k < |s| ==> IsSpace(s[k])
  {
    var l := TrimLeft(s);
    var r := TrimRight(l);
    TrimLeftSlice(s);
    TrimRightSlice(l);
    forall k | 0 <= k < |r| ensures r[k] == s[a + k] {
      assert r[k] == l[k] && l[k] == s[a + k];
    }
    forall k | a + |r| <= k < |s| ensures IsSpace(s[k]) {
      assert s[k] == l[k - a];
    }
  }

  /** `str.strip()` keeps every visible character. */
  lemma StripVisible(s: string)
    ensures Squeeze(Strip(s)) == Squeeze(s)
  {
    var a := |s| - |TrimLeft(s)|;
    StripSlice(s, a);
    SliceVisible(s, a, a + |Strip(s)|);
  }

  /** The result of `str.strip()` is a slice of its input, so it keeps every
      property that forbids something at each position. */
  lemma StripKeeps(s: string)
    ensures NoLineBreaks(s) ==> NoLineBreaks(Strip(s))
    ensures PlainSpaces(s) ==> PlainSpaces(Strip(s))
    ensures SingleSpaced(s) ==> SingleSpaced(Strip(s))
  {
    var a := |s| - |TrimLeft(s)|;
    StripSlice(s, a);
    var r := Strip(s);
    assert r == s[a..a + |r|];
    SliceKeeps(s, a, a + |r|);
  }

  /** Dropping whitespace at both ends keeps every visible character. */
  lemma SliceVisible(s: string, a: nat, b: nat)
    requires a <= b <= |s|
    requires forall k :: 0 <= k < a ==> IsSpace(s[k])
    requires forall k :: b <= k < |s| ==> IsSpace(s[k])
    ensures Squeeze(s[a..b]) == Squeeze(s)
  {
    var w, m, v := s[..a], s[a..b], s[b..];
    SplitThree(s, a, b);
    SpaceSlice(s, 0, a);
    SpaceSlice(s, b, |s|);
    DropSpacesVisible(w, m + v);
    DropSpacesVisible(v, m);
  }

  lemma SplitThree(s: string, a: nat, b: nat)
    requires a <= b <= |s|
    ensures s == s[..a] + (s[a..b] + s[b..])
  {
    assert s[a..] == s[a..b] + s[b..];
    assert s == s[..a] + s[a..];
  }

  /** A slice of whitespace is whitespace. */
  lemma SpaceSlice(s: string, a: nat, b: nat)
    requires a <= b <= |s|
    requires forall k :: a <= k < b ==> IsSpace(s[k])
    ensures forall k :: 0 <= k < b - a ==> IsSpace(s[a..b][k])
  {
    forall k | 0 <= k < b - a ensures IsSpace(s[a..b][k]) {
      assert s[a..b][k] == s[a + k];
    }
  }

  /** A slice keeps every property that forbids something at each position. */
  lemma SliceKeeps(s: string, a: nat, b: nat)
    requires a <= b <= |s|
    ensures NoLineBreaks(s) ==> NoLineBreaks(s[a..b])
    ensures PlainSpaces(s) ==> PlainSpaces(s[a..b])
    ensures SingleSpaced(s) ==> SingleSpaced(s[a..b])
  {
    var r := s[a..b];
    if SingleSpaced(s) {
      forall k | 1 <= k < |r| ensures !(IsSpace(r[k - 1]) && IsSpace(r[k])) {
        assert r[k - 1] == s[a + k - 1] && r[k] == s[a + k];
      }
    }
  }

  /** Putting whitespace in front of a string adds no visible character. */
  lemma DropSpacesVisible(w: string, s: string)
    requires forall k :: 0 <= k < |w| ==> IsSpace(w[k])
    ensures Squeeze(w + s) == Squeeze(s) && Squeeze(s + w) == Squeeze(s)
  {
    SqueezeAppend(w, s);
    SqueezeAppend(s, w);
    SqueezeAllSpace(w);
  }

  /** `s.replace(a, b)` for single characters. */
  function ReplaceChar(s: string, a: char, b: char): (r: string)
    ensures |r| == |s|
    ensures forall k :: 0 <= k < |s| ==> r[k] == (if s[k] == a then b else s[k])
  {
    seq(|s|, k requires 0 <= k < |s| => if s[k] == a then b else s[k])
  }

  /** `s.replace('\r', ' ').replace('\n', ' ')`: only line breaks change. */
  function LineBreaksToSpaces(s: string): (r: string)
    ensures |r| == |s| && NoLineBreaks(r)
  {
    ReplaceChar(ReplaceChar(s, '\r', ' '), '\n', ' ')
  }

  lemma LineBreaksVisible(s: string)
    ensures Squeeze(LineBreaksToSpaces(s)) == Squeeze(s)
  {
    SqueezeSameVisible(s, LineBreaksToSpaces(s));
  }

  /** Two strings that differ only where both have whitespace show the same
      visible characters. */
  lemma {:induction false} SqueezeSameVisible(s: string, r: string)
    requires |r| == |s|
    requires forall k :: 0 <= k < |s| ==> r[k] == s[k] || (IsSpace(r[k]) && IsSpace(s[k]))
    ensures Squeeze(r) == Squeeze(s)
  {
    if s != [] {
      SqueezeSameVisible(s[1..], r[1..]);
    }
  }

  /** `re.sub(r'\s+', ' ', s)`: every maximal run of whitespace becomes one
      plain space, and nothing else changes. */
  function CollapseSpaces(s: string): (r: string)
    ensures PlainSpaces(r) && SingleSpaced(r)
    ensures r == [] <==> s == []
    ensures r != [] ==> (IsSpace(r[0]) <==> IsSpace(s[0]))
    decreases |s|
  {
    if s == [] then []
    else if IsSpace(s[0]) then
      var rest := TrimLeft(s);
      assert |rest| < |s| by {
        if |rest| == |s| { TrimLeftSlice(s); assert false; }
      }
      [' '] + CollapseSpaces(rest)
    else
      [s[0]] + CollapseSpaces(s[1..])
  }

  /** Collapsing whitespace keeps every visible character. */
  lemma {:induction false} CollapseVisible(s: string)
    ensures Squeeze(CollapseSpaces(s)) == Squeeze(s)
    decreases |s|
  {
    if s != [] {
      if IsSpace(s[0]) {
        var rest := TrimLeft(s);
        var w := s[..|s| - |rest|];
        assert s == w + rest by { TrimLeftSlice(s); }
        assert Squeeze(w) == [] by { SqueezeAllSpace(w); }
        SqueezeAppend(w, rest);
        CollapseVisible(rest);
        SqueezeAppend([' '], CollapseSpaces(rest));
      } else {
        CollapseVisible(s[1..]);
        SqueezeAppend([s[0]], CollapseSpaces(s[1..]));
      }
    }
  }

  /** `p in s` for strings: `p` occurs in `s` at some position. */
  predicate IsSubstring(p: string, s: string)
    decreases |s|
  {
    p <= s || (s != [] && IsSubstring(p, s[1..]))
  }

  lemma {:induction false} SubstringAt(p: string, s: string, k: nat)
    requires k + |p| <= |s| && s[k..k + |p|] == p
    ensures IsSubstring(p, s)
  {
    if k > 0 {
      assert s[1..][k - 1..k - 1 + |p|] == p;
      SubstringAt(p, s[1..], k - 1);
    }
  }

  /** Python's `str.lower()` on the letters of the scripts the law texts use:
      ASCII, Latin-1, Latin Extended-A, the horned O and U, and the Vietnamese
      block U+1EA0..U+1EF9. Every other character is left as it is. */
  function LowerChar(c: char): char {
    if 'A' <= c <= 'Z' then (c as int + 32) as char
    else if ('\U{00C0}' <= c <= '\U{00DE}') && c != '\U{00D7}' then (c as int + 32) as char
    else if (('\U{0100}' <= c <= '\U{012F}') || ('\U{0132}' <= c <= '\U{0137}') || ('\U{014A}' <= c <= '\U{0177}'))
      && c as int % 2 == 0 then (c as int + 1) as char
    else if (('\U{0139}' <= c <= '\U{0148}') || ('\U{0179}' <= c <= '\U{017E}')) && c as int % 2 == 1
    then (c as int + 1) as char
    else if c == '\U{0178}' then '\U{00FF}'
    else if c == '\U{01A0}' || c == '\U{01AF}' then (c as int + 1) as char
    else if '\U{1EA0}' <= c <= '\U{1EF9}' && c as int % 2 == 0 then (c as int + 1) as char
    else c
  }

  function Lower(s: string): (r: string)
    ensures |r| == |s|
  {
    seq(|s|, k requires 0 <= k < |s| => LowerChar(s[k]))
  }

  /** `s.count(c)`. */
  function CountChar(s: string, c: char): nat {
    if s == [] then 0 else (if s[0] == c then 1 else 0) + CountChar(s[1..], c)
  }
}

=== FILE: units.dfy ===
/** Flattening of an article tree into the comparable text units of the
    mapping generator, in document order. */
module Units {
  import opened Wrappers
  import opened Documents
  import opened Seqs

  /** One comparable fragment with the identifiers of where it sits. */
  datatype TextUnit = TextUnit(
    articleId: Option<string>, articleNumber: Option<string>,
    clauseId: Option<string>, pointId: Option<string>, text: string)

  /** The article's own unit, when its `full_text` is truthy. */
  function ArticleHead(a: Article): seq<TextUnit> {
    if Truthy(a.fullText) then [TextUnit(a.articleId, a.articleNumber, None, None, a.fullText.value)] else []
  }

  /** The units of the points `ps` of a clause whose identifier is `clauseId`. */
  function PointUnits(a: Article, clauseId: Option<string>, ps: seq<Point>): seq<TextUnit>
  {
    if ps == [] then [] else PointUnits(a, clauseId, ps[..|ps| - 1]) + PointUnit(a, clauseId, ps[|ps| - 1])
  }

  /** The unit of one point, when its `full_text` is truthy. */
  function PointUnit(a: Article, clauseId: Option<string>, p: Point): seq<TextUnit> {
    if Truthy(p.fullText) then [TextUnit(a.articleId, a.articleNumber, clauseId, PointIdOf(p), p.fullText.value)] else []
  }

  /** The clause's own unit, when its `full_text` is truthy. */
  function ClauseHead(a: Article, c: Clause): seq<TextUnit> {
    if Truthy(c.fullText) then [TextUnit(a.articleId, a.articleNumber, ClauseIdOf(c), None, c.fullText.value)] else []
  }

  function ClauseUnits(a: Article, c: Clause): seq<TextUnit> {
    ClauseHead(a, c) + PointUnits(a, ClauseIdOf(c), c.points)
  }

  function ClausesUnits(a: Article, cs: seq<Clause>): seq<TextUnit>
  {
    if cs == [] then [] else ClausesUnits(a, cs[..|cs| - 1]) + ClauseUnits(a, cs[|cs| - 1])
  }

  /** The units of one article: its own, then each clause followed by its points. */
  function ArticleUnits(a: Article): seq<TextUnit> {
    ArticleHead(a) + ClausesUnits(a, a.clauses)
  }

  /** `extract_units`: the article's unit, then for each clause its unit
      followed by those of its points. */
  method ExtractUnits(a: Article) returns (units: seq<TextUnit>)
    ensures units == ArticleUnits(a)
  {
    units := [];
    if Truthy(a.fullText) {
      units := units + [TextUnit(a.articleId, a.articleNumber, None, None, a.fullText.value)];
    }
    var i := 0;
    while i < |a.clauses|
      invariant i <= |a.clauses|
      invariant units == ArticleHead(a) + ClausesUnits(a, a.clauses[..i])
    {
      var clause := a.clauses[i];
      var clauseId := FirstTruthy(clause.clauseId, clause.clause);
      ghost var before := units;
      if Truthy(clause.fullText) {
        units := units + [TextUnit(a.articleId, a.articleNumber, clauseId, None, clause.fullText.value)];
      }
      assert units == before + ClauseHead(a, clause);
      var more := ExtractPointUnits(a, clauseId, clause.points);
      units := units + more;
      assert units == ArticleHead(a) + ClausesUnits(a, a.clauses[..i + 1]) by {
        AppendAssoc(before, ClauseHead(a, clause), more);
        ClausesUnitsStep(a, a.clauses, i);
        AppendAssoc(ArticleHead(a), ClausesUnits(a, a.clauses[..i]), ClauseUnits(a, clause));
      }
      i := i + 1;
    }
    assert a.clauses[..i] == a.clauses;
  }

  /** The inner loop of `extract_units`, over the points of one clause. */
  method ExtractPointUnits(a: Article, clauseId: Option<string>, points: seq<Point>) returns (units: seq<TextUnit>)
    ensures units == PointUnits(a, clauseId, points)
  {
    units := [];
    var k := 0;
    while k < |points|
      invariant k <= |points|
      invariant units == PointUnits(a, clauseId, points[..k])
    {
      var point := points[k];
      var pointId := FirstTruthy(point.pointId, point.point);
      if Truthy(point.fullText) {
        units := units + [TextUnit(a.articleId, a.articleNumber, clauseId, pointId, point.fullText.value)];
      }
      PointUnitsStep(a, clauseId, points, k);
      k := k + 1;
    }
    assert points[..k] == points;
  }

  lemma PointUnitsStep(a: Article, clauseId: Option<string>, ps: seq<Point>, k: nat)
    requires k < |ps|
    ensures PointUnits(a, clauseId, ps[..k + 1]) == PointUnits(a, clauseId, ps[..k]) + PointUnit(a, clauseId, ps[k])
  {
    assert ps[..k + 1][..k] == ps[..k];
  }

  lemma ClausesUnitsStep(a: Article, cs: seq<Clause>, i: nat)
    requires i < |cs|
    ensures ClausesUnits(a, cs[..i + 1]) == ClausesUnits(a, cs[..i]) + ClauseUnits(a, cs[i])
  {
    assert cs[..i + 1][..i] == cs[..i];
  }

  /** Every unit of a document, article after article. */
  function DocumentUnits(articles: seq<Article>): seq<TextUnit>
  {
    if articles == [] then []
    else DocumentUnits(articles[..|articles| - 1]) + ArticleUnits(articles[|articles| - 1])
  }

  /** The extraction loop of `generate_mapping` (`units_old.extend(...)`). */
  method ExtractDocument(articles: seq<Article>) returns (units: seq<TextUnit>)
    ensures units == DocumentUnits(articles)
  {
    units := [];
    var i := 0;
    while i < |articles|
      invariant i <= |articles|
      invariant units == DocumentUnits(articles[..i])
    {
      var more := ExtractUnits(articles[i]);
      units := units + more;
      assert articles[..i + 1][..i] == articles[..i];
      i := i + 1;
    }
    assert articles[..i] == articles;
  }

  function Texts(us: seq<TextUnit>): (r: seq<string>)
    ensures |r| == |us|
    ensures forall k :: 0 <= k < |us| ==> r[k] == us[k].text
  {
    seq(|us|, k requires 0 <= k < |us| => us[k].text)
  }

  lemma TextsAppend(a: seq<TextUnit>, b: seq<TextUnit>)
    ensures Texts(a + b) == Texts(a) + Texts(b)
  {
  }

  lemma {:induction false} PointUnitsTexts(a: Article, clauseId: Option<string>, ps: seq<Point>)
    ensures Texts(PointUnits(a, clauseId, ps)) == PointTexts(ps)
  {
    if ps != [] {
      PointUnitsTexts(a, clauseId, ps[..|ps| - 1]);
      var p := ps[|ps| - 1];
      TextsAppend(PointUnits(a, clauseId, ps[..|ps| - 1]), PointUnit(a, clauseId, p));
    }
  }

  lemma {:induction false} ClausesUnitsTexts(a: Article, cs: seq<Clause>)
    ensures Texts(ClausesUnits(a, cs)) == ClausesTexts(cs)
  {
    if cs != [] {
      var init, c := cs[..|cs| - 1], cs[|cs| - 1];
      ClausesUnitsTexts(a, init);
      ClauseUnitsTexts(a, c);
      TextsAppend(ClausesUnits(a, init), ClauseUnits(a, c));
      calc {
        Texts(ClausesUnits(a, cs));
        Texts(ClausesUnits(a, init) + ClauseUnits(a, c));
        Texts(ClausesUnits(a, init)) + Texts(ClauseUnits(a, c));
        ClausesTexts(init) + ClauseTexts(c);
      }
    }
  }

  /** A clause's units carry its text, if any, then its points' texts. */
  lemma ClauseUnitsTexts(a: Article, c: Clause)
    ensures Texts(ClauseUnits(a, c)) == ClauseTexts(c)
  {
    PointUnitsTexts(a, ClauseIdOf(c), c.points);
    TextsAppend(ClauseHead(a, c), PointUnits(a, ClauseIdOf(c), c.points));
  }

  /** The units carry exactly the truthy `full_text`s of the article, one
      each, in document order: the article's, then every clause's followed by
      its points'. */
  lemma UnitsFollowDocumentOrder(a: Article)
    ensures Texts(ArticleUnits(a)) == ArticleTexts(a)
    ensures |ArticleUnits(a)| == |ArticleTexts(a)|
  {
    ClausesUnitsTexts(a, a.clauses);
    TextsAppend(ArticleHead(a), ClausesUnits(a, a.clauses));
  }

  /** Every unit a clause contributes carries the clause identifier, with
      `clause` standing in for a missing or empty `clause_id`; the first is the
      clause's own unit when it has text, with no point identifier. */
  lemma {:induction false} ClauseUnitsIdentified(a: Article, c: Clause)
    ensures forall u :: u in ClauseUnits(a, c) ==>
      u.articleId == a.articleId && u.articleNumber == a.articleNumber
      && u.clauseId == FirstTruthy(c.clauseId, c.clause) && u.text != ""
    ensures Truthy(c.fullText) ==>
      ClauseUnits(a, c)[0] == TextUnit(a.articleId, a.articleNumber, FirstTruthy(c.clauseId, c.clause), None, c.fullText.value)
  {
    PointUnitsIdentified(a, ClauseIdOf(c), c.points);
  }

  /** Every unit of a point carries the point identifier, with `point`
      standing in for a missing or empty `point_id`. */
  lemma {:induction false} PointUnitsIdentified(a: Article, clauseId: Option<string>, ps: seq<Point>)
    ensures forall u :: u in PointUnits(a, clauseId, ps) ==>
      u.articleId == a.articleId && u.articleNumber == a.articleNumber
      && u.clauseId == clauseId && u.text != ""
      && exists p :: p in ps && Truthy(p.fullText) && u.pointId == FirstTruthy(p.pointId, p.point) && u.text == p.fullText.value
  {
    if ps != [] {
      PointUnitsIdentified(a, clauseId, ps[..|ps| - 1]);
      forall u | u in PointUnits(a, clauseId, ps)
        ensures exists p :: p in ps && Truthy(p.fullText) && u.pointId == FirstTruthy(p.pointId, p.point) && u.text == p.fullText.value
      {
        if u in PointUnits(a, clauseId, ps[..|ps| - 1]) {
          var p :| p in ps[..|ps| - 1] && Truthy(p.fullText) && u.pointId == FirstTruthy(p.pointId, p.point) && u.text == p.fullText.value;
          assert p in ps;
        } else {
          assert ps[|ps| - 1] in ps;
        }
      }
    }
  }

  /** Every unit of an article carries the article's identifiers and a
      non-empty text; the article-level unit comes first and has neither a
      clause nor a point identifier. */
  lemma {:induction false} ArticleUnitsIdentified(a: Article)
    ensures forall u :: u in ArticleUnits(a) ==>
      u.articleId == a.articleId && u.articleNumber == a.articleNumber && u.text != ""
    ensures Truthy(a.fullText) ==>
      ArticleUnits(a)[0] == TextUnit(a.articleId, a.articleNumber, None, None, a.fullText.value)
  {
    ClausesUnitsIdentified(a, a.clauses);
  }

  lemma {:induction false} ClausesUnitsIdentified(a: Article, cs: seq<Clause>)
    ensures forall u :: u in ClausesUnits(a, cs) ==>
      u.articleId == a.articleId && u.articleNumber == a.articleNumber && u.text != ""
  {
    if cs != [] {
      ClausesUnitsIdentified(a, cs[..|cs| - 1]);
      ClauseUnitsIdentified(a, cs[|cs| - 1]);
    }
  }
}

=== FILE: wrappers.dfy ===
/** Optional values (Python's `None`) and results with an error path. */
module Wrappers {

  datatype Option<+T> = None | Some(value: T)

  datatype Result<+T> = Ok(value: T) | Err(message: string)
}
